=== FILE: README.md ===
# Viper, modelled in Dafny

Viper is a file-based router for Laravel with Vue or React front ends. Every file under the
pages directory is a page component:

- its relative path becomes a Vue, a React and a Laravel route path, a list of route
  parameters, a catch-all parameter name and a component name;
- the `_layout.<ext>` files of the directories above it form its layout chain;
- the props, prop hashes, actions, middleware and route name it serves are gathered over that
  chain, root layout first and the page last.

The `Viper` registry caches page components by absolute path and orders route registration by
a score. Two generators hang the pages in a nested Vue Router route tree under their layouts.
The VS Code extension joins the `<php>` blocks of a component into a virtual PHP document and
maps editor offsets into it. The Vite plugin trims slashes.

The Dafny modules follow that structure:

| module | file | what it holds |
|---|---|---|
| `Text` | text.dfy | the Laravel string helpers the pages use: `camel`/`pascal` over ASCII, `str_replace`, `replaceEnd`, `replaceStart`, `trim`, `explode`/`implode`, collapsing slashes, `dirname`, `pathinfo` extension, and PHP truthiness of strings |
| `PagePaths` | page_paths.dfy | `relativePath`, the three route formatters, `parseRouteParameters`, `getWildcardName`, `componentNameFromPath`, `isIndex`, `isLayout`. Each regex replacement is a left-to-right scanner |
| `PathSegments` | path_segments.dfy | a page path as a list of segments (static, `[x]`, `[...x]`, `(group)`) and a reference rendering per router; the formatters are proved equal to it |
| `PathParams` | path_params.dfy | parameters, catch-all name and component name of a segment list, and the proofs that the scanners compute them |
| `PathExamples` | path_examples.dfy | the five page paths of the integration tests, formatted |
| `RouteGroups` | route_groups.dfy | the route formatters with a group deleted together with the `/` after it |
| `Layouts` | layouts.dfy | `getLayouts` as a loop method, the function it computes, and the ancestor-layout chain it is meant to find |
| `Aggregate` | aggregate.dfy | `parseProps`, `parsePropHashes`, `parseActions` as loop methods; `props`, `propHashes`, `actions`, `action`, `middleware`, `routeName` as folds over the chain |
| `Registry` | registry.dfy | the `Viper` class (page cache, insertion order, model namespace), `scoreRoute` and the registration comparator |
| `RouteTree` | route_tree.dfy | the `Generator` class with its `routes` tree and `componentToImport` map, built in place as `VueGenerator` and `VueRouterConfigGenerator` build it |
| `PhpBlocks` | php_blocks.dfy | the `<php>` block scanner, `extractPhpContent`, `isInPhpBlock`, `convertToPhpPosition`, and the `VirtualDocuments` store |
| `ViteUtil` | vite_util.dfy | `trimSlashes` |

These stand in for the program's surroundings:

- The file system is a set of absolute paths that exist.
- The configuration (pages path, output path, framework) is given as constructor arguments.
- What reflection reports about a compiled page class is a `PageMeta` value.
- `md5` is a function parameter.
- Calling a prop or action method is the `Called` or `ActionCall` value naming the page and the method.

## Model

| member | source | states |
|---|---|---|
| PagePaths.ComponentExtension | src/PageComponent.php:34-41 | `tsx` exactly for React, `vue` otherwise; the extension is non-empty with no `.` or `/` |
| PagePaths.WithoutSuffixExtension | src/PageComponent.php:96-101 | a path `p.ext` loses exactly `.ext` |
| PathSegments.RouterPathOfSegments | src/PageComponent.php:103-141 | for every well-formed page path, the Vue and React formatters equal the segment-wise rendering: groups gone, `[...x]` as `:y(.*)*` (Vue) or `*` (React) with y being x studly-cased with its first letter's case kept, `[x]` as `:camel(x)`, trailing `_layout` then `index` dropped, slashes collapsed, `/` for empty |
| PathSegments.LaravelPathOfSegments | src/PageComponent.php:143-162 | for every well-formed page path, the Laravel formatter equals the rendering with a trailing `index` dropped, `[x]` as `{camel(x)}`, `[...x]` as `{y?}` with y being x studly-cased with its first letter's case kept, groups gone and no `_layout` stripping |
| PathSegments.DropIndexRender | src/PageComponent.php:152 | dropping a trailing `index` from the braced rendering is rendering the segments with a final `index` removed |
| PathSegments.RenderNoDoubleSlash | src/PageComponent.php:138 | a rendering of slash-free segments is non-empty, has no `//` and does not start with `/` |
| PathSegments.FinishOfSlashFree | src/PageComponent.php:159-160 | collapsing slashes and defaulting to `/` leave such a rendering unchanged |
| PagePaths.VueRouteFormattedPath | src/PageComponent.php:123-141 | the result is never empty and never contains `//` |
| PagePaths.ReactRouteFormattedPath | src/PageComponent.php:103-121 | the result is never empty and never contains `//` |
| PagePaths.LaravelFormattedRoutePath | src/PageComponent.php:143-162 | the result is never empty and never contains `//` |
| PathParams.RouteParametersOfSegments | src/PageComponent.php:91-94 | one name per `[x]` or `[...x]` segment, in path order, with `...` removed and the name camel-cased |
| PathParams.WildcardNameOfSegments | src/PageComponent.php:434-445 | the raw name of the first `[...x]` segment, or none when there is no catch-all |
| PathParams.ComponentNameOfSegments | src/PageComponent.php:376-400 | the concatenation of one piece per segment: `(x)` gives Pascal(x)+`Group`, `[x]`/`[...x]` gives Pascal(x)+`Param`, a `_layout` segment gives `Layout`, others their Pascal form |
| PathExamples.IndexRoutes | tests/Integration/PageComponentTest.php:76 | `index.vue` formats to `/` in Vue, React and Laravel |
| PathExamples.BlogRoutes | tests/Integration/PageComponentTest.php:77 | `blog/[...slug].vue` formats to `blog/:slug(.*)*`, `blog/*` and `blog/{slug?}` |
| PathExamples.PostsRoutes | tests/Integration/PageComponentTest.php:78 | `posts/[id].vue` formats to `posts/:id`, `posts/:id` and `posts/{id}` |
| PathExamples.UserEditRoutes | tests/Integration/PageComponentTest.php:79 | `users/[user]/edit.vue` formats to `users/:user/edit`, `users/:user/edit` and `users/{user}/edit` |
| PathExamples.GroupedLoginRoutes | src/PageComponent.php:131 | `(auth)/login.vue` formats to `/login` in all three formats, since the group's `/` stays |
| PathExamples.BlogParameters | src/PageComponent.php:434-445 | the segments of `blog/[...slug]` have the parameters `["slug"]` and the catch-all `slug` |
| PathExamples.BlogNames | src/PageComponent.php:376-400 | for `blog/[...slug].vue`, the parameters are `["slug"]`, the wildcard name is `slug` and the component name is `BlogSlugParam` |
| RouteGroups.IntendedRouterPathOfSegments | src/PageComponent.php:131 | with a group deleted together with its `/`, a page inside groups gets the Vue or React route of the same page with its groups left out |
| RouteGroups.IntendedLaravelPathOfSegments | src/PageComponent.php:154 | the same for the Laravel route |
| RouteGroups.IntendedAgreesWithoutGroups | src/PageComponent.php:111 | on a path without `(`, the corrected router formatter equals the one as written |
| RouteGroups.IntendedGroupedLoginRoutes | tests/Integration/PageComponentTest.php:75 | the corrected formatters give `login` for `(auth)/login.vue` in all three formats |
| RouteGroups.IntendedIndexRoutes | tests/Integration/PageComponentTest.php:76 | the corrected formatters still give `/` for `index.vue` |
| Layouts.GetLayouts | src/PageComponent.php:43-71 | the method returns `LayoutChain`: nothing for a layout file, else what the loop collects |
| Layouts.CollectLayouts | src/PageComponent.php:52-68 | the loop, with `$currentPath` grown one part at a time (no `/` after an empty or `"0"` path), appends each candidate `_layout.<ext>` that exists, in loop order |
| Layouts.LayoutChain | src/PageComponent.php:43-71 | empty for a layout file; at most one layout per path part; every entry an existing `_layout.<ext>` file under the pages directory |
| Layouts.LayoutFileHasNoLayouts | src/PageComponent.php:45-47 | a `_layout.<ext>` file is a layout, and both its as-written and its intended chain are empty |
| Layouts.FoundLayoutsAreAncestors | src/PageComponent.php:54-68 | on parts that read as directories, the loop finds exactly the existing layout files of the root and of each directory above the page, in that order |
| Layouts.AncestorLayoutsMembers | src/PageComponent.php:62-66 | a file is in the ancestor chain iff it exists and is the layout file of the root or of a directory above the page |
| Layouts.AncestorLayoutsRootFirst | src/PageComponent.php:54-68 | the ancestor chain is strictly increasing in path length: root first, each directory once |
| Layouts.IntendedLayoutChain | src/PageComponent.php:43-71 | for any page path: empty for a layout file; otherwise a file is in the chain iff it exists and is the layout file of the root or of a directory above the page; strictly root-first; every entry an existing layout file |
| Layouts.LayoutChainOfDirectories | src/PageComponent.php:43-71 | when the parts read as directories, the chain as written equals the intended chain and the ancestor chain |
| Layouts.ZeroDirectoryAsWritten | src/PageComponent.php:55-57 | after the parts `0` and `name`, the loop looks up the root layout twice |
| Layouts.ZeroDirectoryIntended | src/PageComponent.php:55-57 | the ancestor chain of the same parts is the root layout then `0/_layout.<ext>` |
| Layouts.DotDirectoryAsWritten | src/PageComponent.php:62 | for a directory `.d`, the candidate is `d/_layout.<ext>`, not the layout file of `.d` |
| Layouts.ZeroDirectoryPage | src/PageComponent.php:55-57 | for every page `0/name.vue` (name without `/`, not ending in `_layout`) with layouts at the root and in `0`: the chain as written is the root layout twice; the intended chain is the root layout, then `0/_layout.vue` |
| Layouts.DotDirectoryPage | src/PageComponent.php:62 | for every page `.d/name.vue` (d not starting with `.`, neither part holding `/`, name not ending in `_layout`) where only `d/_layout.vue` exists: the chain as written holds that file; the intended chain is empty |
| Layouts.LoginLayouts | tests/Integration/PageComponentTest.php:22-28 | `(auth)/login.vue` has the root layout and the `(auth)` layout, in that order |
| Aggregate.ParseProps | src/PageComponent.php:210-241 | the loop's map is the fold of the page's prop methods: `only` filters, and a lazy prop is null when `only` is empty |
| Aggregate.PagePropsLookup | src/PageComponent.php:217-237 | a name is a key iff a requested prop method has it, and its value is that method's value |
| Aggregate.ParsePropHashes | src/PageComponent.php:243-263 | the loop's map is the fold of `md5(file . name)` over the requested prop methods |
| Aggregate.PagePropHashesLookup | src/PageComponent.php:243-263 | the hash keys are the prop keys, and each hash is md5 of the declaring file and the name of the method that set the prop |
| Aggregate.ParseActions | src/PageComponent.php:323-339 | the loop's map sends each `#[Action]` method name to the page |
| Aggregate.PageActionsLookup | src/PageComponent.php:323-339 | a name is a key iff an action method has it, and it maps to the page |
| Aggregate.MergeAllLookup | src/PageComponent.php:273-279 | a key-by-key merge of maps holds a key iff some map has it, with the value of the last map that has it |
| Aggregate.PropsLookup | src/PageComponent.php:273-279 | the props of a page are keyed by the requested prop names of the chain, each value from the last chain member that declares it |
| Aggregate.PageOverridesLayouts | src/PageComponent.php:273-279 | a prop declared by the page takes the page's value over any layout's |
| Aggregate.PropsRestrictedToOnly | src/PageComponent.php:227-229 | with a non-empty `only`, every key is in `only` |
| Aggregate.LazyPropsDeferred | src/PageComponent.php:231-235 | a prop value is null iff `only` is empty and the deciding declaration is lazy |
| Aggregate.PropHashesLookup | src/PageComponent.php:265-271 | the hash keys equal the prop keys, and each hash is md5 of the deciding declaration's file and name |
| Aggregate.RootPropHashShared | tests/Integration/PageComponentTest.php:110-122 | a root-layout prop that no other chain member redeclares has the same hash on every page under the root |
| Aggregate.ActionLookup | src/PageComponent.php:281-290 | `action(name)` is none iff no chain member has an action of that name, else the call goes to the last chain member declaring it |
| Aggregate.MiddlewareDeclared | src/PageComponent.php:186-208 | a name is in a page's middleware iff the page or one of its layouts declares it in `#[Middleware]`, as its single name or in its list; a member without the attribute contributes none, and `flatten()` drops no declared name |
| Aggregate.MiddlewareOrder | src/PageComponent.php:201-208 | the middleware of a page is the root's, then each layout's, then the page's own, in chain order |
| Aggregate.ChainMiddlewareCounts | src/PageComponent.php:201-208 | every middleware occurs as often as the chain members declare it: nothing is de-duplicated |
| Aggregate.RouteNameRule | src/PageComponent.php:313-321 | the route name is empty unless the page's own name is non-empty in PHP's sense; then it is every chain name joined, root first |
| Aggregate.RouteNameStartsWithRoot | src/PageComponent.php:313-321 | a named page's route name starts with the root layout's name and ends with its own |
| Aggregate.LoginRouteName | tests/Integration/PageComponentTest.php:46-51 | the `(auth)/login` chain is named `auth.login` |
| Aggregate.LoginMiddleware | tests/Integration/PageComponentTest.php:60-66 | the `(auth)/login` chain has the middleware `["guest"]` |
| Registry.DiscoveryModes | src/Viper.php:16-31 | discovery is off iff the argument is `false`; the namespace is `\App\Models` iff the argument is `true` or that namespace; two namespace arguments give the same namespace iff they are equal |
| Registry.Viper.AutoDiscoverModels | src/Viper.php:16-31 | sets the namespace as above, leaves the cache alone, and fixes what `resolveModel` returns from then on |
| Registry.Viper.ResolveModel | src/Viper.php:33-40 | none iff the namespace is none, else the namespace, `\` and the class name |
| Registry.Viper.constructor | src/Viper.php:9-14 | an empty cache, the default model namespace, and the layouts of a page taken from its layout chain |
| Registry.Viper.ResolvePageComponent | src/Viper.php:47-57 | the result is the cached entry for the path; an existing entry is never replaced; a new page is cached after its layouts, each once, in insertion order |
| Registry.Viper.RegisterLayouts | src/PageComponent.php:24-27 | constructing a page registers each of its layouts first, in chain order |
| Registry.Viper.LayoutIsFlat | src/PageComponent.php:45-47 | a layout found for a page has no layouts of its own |
| Registry.LayoutChainsClosed | src/PageComponent.php:45-47 | every layout in any layout chain has an empty chain |
| Registry.Viper.PageComponentFromCompiledPath | src/Viper.php:59-68 | none iff no cached page has that compiled path, else the first one in insertion order that has it |
| Registry.ParamScore | src/Viper.php:95-109 | a page `[name].vue` scores 10 |
| Registry.CatchAllScore | src/Viper.php:98-107 | a page `[...name].vue` also scores 10: the bracket test runs before the `...` test |
| Registry.ScoreRouteZero | src/Viper.php:95-109 | the score is never negative and is 0 iff every segment is plain |
| Registry.CompareRoutesOrder | src/Viper.php:79-88 | the comparator is antisymmetric and transitive |
| Registry.RegistrationOrder | src/Viper.php:79-88 | a static page precedes `[x].vue`; `[x].vue` precedes `[...y].vue` only by the length tie-break |
| Registry.CatchAllRegisteredFirst | src/Viper.php:99-100 | `[...name].vue` and `dir/[param].vue` both score 10, and the shorter catch-all is registered first |
| Registry.IntendedScoreBounds | src/Viper.php:95-109 | a path with a catch-all scores at least 100; one without scores at most 10 per segment |
| Registry.CatchAllRegisteredLast | src/Viper.php:95-109 | with the intended score, any path of fewer than 10 segments and no catch-all is registered before every catch-all path |
| Registry.CatchAllFixed | src/Viper.php:95-109 | with the intended score, `dir/[param].vue` precedes `[...name].vue` |
| RouteTree.Register | src/Generators/VueGenerator.php:45-52 | registering adds the page's component name; an existing import is kept, and a new name maps to the lazy import of the page's relative path |
| RouteTree.ImportsFirstWins | src/VueRouterConfigGenerator.php:44-51 | after all pages, a name has an import iff some page has that component name, and the import is that of the first such page; likewise src/Generators/VueGenerator.php:17-25 and 45-52 |
| RouteTree.Generator.Generate | src/Generators/VueGenerator.php:17-25 | the method's tree is `Build` of the pages (layouts skipped, each other page hung once) and its imports those of every page; likewise src/VueRouterConfigGenerator.php:17-25 |
| RouteTree.Generator.RegisterComponent | src/Generators/VueGenerator.php:45-52 | the imports become `Register` of the old ones; the tree is unchanged |
| RouteTree.Generator.AddChildToLayout | src/Generators/VueGenerator.php:54-138 | the tree becomes `AddChild` of the old one; the imports are unchanged; likewise src/VueRouterConfigGenerator.php:53-153 |
| RouteTree.Generator.WalkLayouts | src/Generators/VueGenerator.php:76-115 | the loop over the layouts ends where the recursive `Walk` ends: same tree, same address, same accumulated path |
| RouteTree.FindLayout | src/Generators/VueGenerator.php:82-93 | the loop returns the index of the first sibling with the layout's component, or none |
| RouteTree.FirstWith | src/Generators/VueGenerator.php:82-93 | the index found holds the component and no earlier sibling does; none iff no sibling does |
| RouteTree.Opened | src/Generators/VueGenerator.php:85-87 | a reused node keeps its path and component and gets a children list, empty if it had none |
| RouteTree.Relative | src/Generators/VueGenerator.php:98-101 | the path loses `accumulated/` when the accumulated path is non-empty in PHP's sense and the prefix matches, and is kept whole otherwise; likewise src/VueRouterConfigGenerator.php:113-116 |
| RouteTree.LeafPath | src/Generators/VueGenerator.php:118-129 | the same, and `""` when the full path equals the accumulated path; likewise src/VueRouterConfigGenerator.php:133-144 |
| RouteTree.ZeroLayoutKeepsFullPath | src/Generators/VueGenerator.php:99 | under a layout whose path is `0`, nothing is stripped: `0` is empty to PHP |
| RouteTree.TopLevelPage | src/Generators/VueGenerator.php:57-69 | a page without layouts is appended at top level as a leaf with its Vue path trimmed of `/`, and the earlier routes stay as they were; likewise src/VueRouterConfigGenerator.php:72-84 |
| RouteTree.StepFindOrCreate | src/Generators/VueGenerator.php:82-114 | one layout step descends into the first sibling with the layout's component, reused or appended once with the relative path and empty children; no sibling is lost or changed except for its children |
| RouteTree.WalkDepth | src/Generators/VueGenerator.php:76-115 | walking a chain goes one level down per layout, and the accumulated path is the last layout's trimmed path |
| RouteTree.LeafUnderLastLayout | src/Generators/VueGenerator.php:117-137 | a page with layouts is appended as the last child of its last layout's node, with its path relative to that layout |
| RouteTree.BuildExtends | src/Generators/VueGenerator.php:85-137 | building only adds: every existing node keeps its path and component, and children lists only grow |
| RouteTree.BuildCount | src/VueRouterConfigGenerator.php:17-25 | the leaves carrying a page component grow by exactly the number of non-layout pages with that component; likewise src/Generators/VueGenerator.php:17-25 |
| PhpBlocks.MatchAt | packages/viper-vscode/src/extension.ts:95 | a match at an index is `<php`, up to the first `>`, the shortest body, and `</php>`; none iff no such match starts there |
| PhpBlocks.NextMatch | packages/viper-vscode/src/extension.ts:98-100 | the leftmost match at or after a position, or none if there is none |
| PhpBlocks.BlocksFrom | packages/viper-vscode/src/extension.ts:98-100 | every block found is a match, and blocks do not overlap |
| PhpBlocks.BlocksFromComplete | packages/viper-vscode/src/extension.ts:98-100 | the global search skips no match: none starts between the search start and the first block, between the `</php>` of a block and the start of the next, or after the last block's `</php>` |
| PhpBlocks.NoContentIffNoMatch | packages/viper-vscode/src/extension.ts:93-108 | the extracted content is `""` exactly when the pattern matches nowhere in the text |
| PhpBlocks.ExtractPhpContent | packages/viper-vscode/src/extension.ts:93-108 | `""` iff there are no blocks, otherwise it starts with `<?php` and a newline; likewise packages/viper-vscode/out/extension.js:103-115 |
| PhpBlocks.ExtractNonEmpty | packages/viper-vscode/out/extension.js:114 | with blocks, the content is `<?php`, a newline, and the bodies in order joined by blank lines |
| PhpBlocks.IsInPhpBlock | packages/viper-vscode/src/extension.ts:291-312 | true iff the offset lies within some block body, both ends included; likewise packages/viper-vscode/out/extension.js:222-236 |
| PhpBlocks.AsWrittenIsBlockLocal | packages/viper-vscode/src/extension.ts:329-348 | in a block, the position is where the text of that block before the offset ends, after a one-line header: earlier blocks are not counted; likewise packages/viper-vscode/out/extension.js:246-262 |
| PhpBlocks.LinePositionIsLocal | packages/viper-vscode/src/extension.ts:337-339 | the line is one more than the newlines in the piece, the character the length after the last one |
| PhpBlocks.PhpPosition | packages/viper-vscode/src/extension.ts:314-349 | the intended position is none iff the offset is in no block; it is where the same character sits in the virtual document |
| PhpBlocks.VirtualCharacter | packages/viper-vscode/src/extension.ts:93-108 | the intended offset holds in the virtual document the character the offset points at in the component |
| PhpBlocks.FirstBlockExact | packages/viper-vscode/src/extension.ts:329-342 | in the first block, the position as written is the intended one |
| PhpBlocks.LaterBlockShifted | packages/viper-vscode/src/extension.ts:324-345 | in any later block, the line as written is at least two short of the intended line |
| PhpBlocks.SecondBlockCounterexample | packages/viper-vscode/out/extension.js:243-259 | in `<php>x</php><php>y</php>`, the first character of `y` maps to line 1 as written and to line 3 as intended |
| PhpBlocks.VirtualDocuments.constructor | packages/viper-vscode/src/extension.ts:60-62 | the store starts empty |
| PhpBlocks.VirtualDocuments.ProvideTextDocumentContent | packages/viper-vscode/src/extension.ts:64-66 | the stored text for the key, or `""` when there is none; likewise packages/viper-vscode/out/extension.js:79-81 |
| PhpBlocks.VirtualDocuments.Update | packages/viper-vscode/src/extension.ts:68-71 | the store maps the key to the content, everything else unchanged |
| PhpBlocks.VirtualDocuments.UpdateVirtualDocument | packages/viper-vscode/src/extension.ts:74-91 | with blocks, the extracted content is stored under `php-in-vue:<fsPath>.php`; without, the store is unchanged; likewise packages/viper-vscode/out/extension.js:87-102 |
| ViteUtil.TrimSlashes | packages/vite-plugin-viper/src/util.js:4-6 | the result neither starts nor ends with `/`, and is the input with a run of slashes cut from each end |
| ViteUtil.TrimSlashesUnique | packages/vite-plugin-viper/src/util.js:5 | the result is exactly the input with its maximal leading and trailing runs of `/` removed |
| ViteUtil.TrimSlashesIdempotent | packages/vite-plugin-viper/src/util.js:5 | trimming twice is trimming once |
| ViteUtil.TrimSlashesEmpty | packages/vite-plugin-viper/src/util.js:5 | the result is empty iff the input is all slashes (or empty) |
| Text.CamelIdempotent | src/PageComponent.php:93 | camel-casing a camel-cased name changes nothing |
| Text.CamelIsLowerFirstPascal | src/PageComponent.php:387-395 | the camel form has the Pascal form's length and tail, and its first letter is the Pascal form's first letter lowered |
| Text.PascalWords | src/PageComponent.php:387-395 | Pascal-casing a word, a separator (` `, `-` or `_`) and the rest gives the word with its first letter upper-cased, the separator dropped, then the rest Pascal-cased: each word's first letter is upper-cased and the other letters are kept |
| Text.TrimLeft | src/PageComponent.php:62 | `ltrim` removes exactly the leading run of the character |
| Text.Split | src/PageComponent.php:49 | `explode` gives at least one part, none holding the separator |
| Text.SplitJoin | src/PageComponent.php:49 | exploding parts joined by the separator gives the parts back |
| Text.CollapseSlashes | src/PageComponent.php:138 | no `//` remains; a leading `/` and emptiness are kept |
| Text.CollapseSlashesFixed | src/PageComponent.php:138 | a path without `//` is left unchanged |
| Text.CollapseSlashesRun | src/PageComponent.php:138 | wherever a `//` stands, collapsing gives the same as with a single `/` there: a run of slashes counts as one |
| Text.ReplaceEndSwapsSuffix | src/PageComponent.php:100 | a suffix that is there is swapped once: swapping back restores the text (as at line 168, where `.vue` becomes `.php`), and an earlier copy of the suffix is left alone |
| Text.ExtensionOfSuffix | src/PageComponent.php:98 | the extension of `p.ext` is `ext` |

## Left out

- Text.StudlyFrom: words are split only at `' '`, `'-'` and `'_'`. Laravel's `studly` also splits at tabs, newlines and other whitespace runs. Case mapping covers ASCII letters only.
- Registry.CompareRoutes: path lengths count characters. PHP's `strlen` (src/Viper.php:87) counts bytes, so a path with non-ASCII characters may sort differently.
- RouteTree.Relative: `substr($full, strlen($acc) + 1)` counts bytes in PHP and characters here. The two agree on the prefix match, which is all the generators use.
- PhpBlocks.ConvertToPhpPosition: offsets and columns count Dafny characters. VS Code counts UTF-16 code units, so they differ outside the Basic Multilingual Plane.
- Aggregate.Props: PHP arrays are ordered; the model uses maps. The key order of `props`, `propHashes` and `actions` (`mapWithKeys` keeps first-insertion order) is not modelled, only keys and values.
- RouteTree.Register: the same holds for `componentToImport`. Its key order is never observable, because it is only read by key.
- Aggregate.ParseMiddleware: the `#[Middleware]` argument is a string or a flat list of strings. Nested arrays, which `flatten()` would also flatten, are not modelled.
- PhpBlocks.VirtualUri: the key is the raw string `php-in-vue:<fsPath>.php`. `vscode.Uri.parse(...).toString()` may normalise or percent-encode it; that normalisation is not modelled. `console.log` and the `_onDidChange.fire` notification are left out.
- Aggregate.ParseProps: reflection over the compiled page class (`pageInstance`, `getMethods`, `getAttributes`, `parseName` and `parseMiddleware` as reflection) is replaced by the metadata record it reports. A page whose class fails to load reports an anonymous object; the model has no such case.
- Aggregate.PropHashes: `md5` is an uninterpreted function parameter.
- Aggregate.Props: `app()->call` of a prop or action method, and its results, are replaced by the `Called` or `ActionCall` value naming the page and the method. Route parameters (`getParams`) and model binding are left out.
- Layouts.LayoutChain: `File::exists` is membership in the set of existing files.
- Registry.Viper.constructor: `config('viper.pages_path')`, `config('viper.output_path')` and `config('viper.framework')` are constructor arguments.
- Layouts.LayoutChainOfDirectories: the as-written chain is proved equal to the intended one only for parts that read as directories. Each part must be non-empty, contain no `/` and not start with `.`, and the first part must not be `0`. Outside that domain the loop differs; see Findings.
- Registry.Viper.constructor: the registry takes each page's layouts from `Layouts.IntendedLayoutChain`. That is the loop's result on every page whose parts read as directories.
- RouteGroups.IntendedAgreesWithoutGroups: stated for the Vue and React formatters; the Laravel counterpart is `RouteGroups.IntendedLaravelPathOfSegments`.
- Registry.CompareRoutes: `Viper::routes` discovers files with Symfony Finder and sorts them with this comparator. The discovery, the sort itself and `register()` with the Laravel `Route` facade are left out.
- RouteTree.Generator.Generate: the JSON encoding, the regex that substitutes imports for component names, the Blade view and the `routes.ts` write are output I/O and are left out. The `isIndex` branch (lines 127-129) assigns `''` to a path that is already `''`, so it changes nothing and has no counterpart.
- PhpBlocks.VirtualDocuments.UpdateVirtualDocument: the extension's activation, the completion and hover providers and the language client are editor API calls and are left out.
- ViteUtil.TrimSlashes: `readDir` in the same file is an asynchronous file-system walk and is left out.
- PathSegments.RouterPathOfSegments: proved only where the segments are well-formed: static text has no `(`, `)`, `[`, `]`, `{`, `}`, `.`, `/` or newline, and each parameter or group name is non-empty, has none of those characters and does not start with ` `, `-` or `_`. Pages such as `[_id].vue` or `sitemap.xml.vue` fall outside the theorem.
- PathSegments.LaravelPathOfSegments: proved only where the segments are well-formed: static text has no `(`, `)`, `[`, `]`, `{`, `}`, `.`, `/` or newline, and each parameter or group name is non-empty, has none of those characters and does not start with ` `, `-` or `_`. Pages such as `[_id].vue` or `sitemap.xml.vue` fall outside the theorem.
- PathParams.RouteParametersOfSegments: proved only where the segments are well-formed: static text has no `(`, `)`, `[`, `]`, `{`, `}`, `.`, `/` or newline, and each parameter or group name is non-empty, has none of those characters and does not start with ` `, `-` or `_`. Pages such as `[_id].vue` or `sitemap.xml.vue` fall outside the theorem.
- PathParams.WildcardNameOfSegments: proved only where the segments are well-formed: static text has no `(`, `)`, `[`, `]`, `{`, `}`, `.`, `/` or newline, and each parameter or group name is non-empty, has none of those characters and does not start with ` `, `-` or `_`. Pages such as `[_id].vue` or `sitemap.xml.vue` fall outside the theorem.
- PathParams.ComponentNameOfSegments: proved only where the segments are well-formed: static text has no `(`, `)`, `[`, `]`, `{`, `}`, `.`, `/` or newline, and each parameter or group name is non-empty, has none of those characters and does not start with ` `, `-` or `_`. Pages such as `[_id].vue` or `sitemap.xml.vue` fall outside the theorem.
- The HTTP side (`PageController`, request middleware), the compiler and PHP AST rewriting, the extractors, inverters, Artisan commands, attribute classes, client packages, Vite plugin process work and docs configuration are not part of this model.

## Findings

| source | as written | input that shows it | evidently intended | confidence | as-written member | corrected member |
|---|---|---|---|---|---|---|
| src/Viper.php:99 | the bracket test runs first, so `[...x]` scores 10, like `[x]`; the `...` branch is reached only by unbracketed segments | `[...name].vue` and `dir/[param].vue` with `|name| + 2 < |dir| + |param|`: both score 10, the catch-all is shorter and is registered first, so it shadows `dir/[param]` | a catch-all scores 100 and is registered after every route without one | medium, not executed | Registry.CatchAllRegisteredFirst | Registry.IntendedScoreRoute, with Registry.CatchAllRegisteredLast and Registry.CatchAllFixed |
| src/PageComponent.php:131 | `\(([^)]+)\)` deletes a route group and keeps the `/` after it (also at lines 111 and 154) | `(auth)/login.vue` formats to `/login` in Vue, React and Laravel | `login`, as tests/Integration/PageComponentTest.php:75, 89 and 103 expect; a group contributes nothing to the route | high, not executed | PathExamples.GroupedLoginRoutes | RouteGroups.IntendedRouterPath, with RouteGroups.IntendedGroupedLoginRoutes and RouteGroups.IntendedRouterPathOfSegments |
| packages/viper-vscode/src/extension.ts:345 | `phpOffset` is accumulated over earlier blocks but never used; the line is counted within the block only | `<php>x</php><php>y</php>` with no newline in `x`, at the first character of `y`: line 1, character 0 | line 3: the `<?php` line, the line of `x`, the blank separator line | high, not executed | PhpBlocks.SecondBlockCounterexample | PhpBlocks.PhpPosition, with PhpBlocks.SecondBlockIntended and PhpBlocks.FirstBlockExact |
| src/PageComponent.php:55 | `! empty($currentPath)` is false for `"0"`, so no `/` follows a first part `0` | pages `_layout.vue`, `0/_layout.vue` and `0/foo.vue` (likewise any page in `0/`): the chain of `0/foo.vue` is the root layout twice | the root layout, then `0/_layout.vue` | medium, not executed | Layouts.ZeroDirectoryPage | Layouts.IntendedLayoutChain |
| src/PageComponent.php:62 | `ltrim('.')` on the layout path also strips the leading dot of a directory name | page `.admin/x.vue` with only `admin/_layout.vue` present (likewise any `.d/name.vue` with only `d/_layout.vue`): the chain holds `admin/_layout.vue`, a layout of another directory | no layout: `.admin/_layout.vue` does not exist | low, not executed: Symfony Finder skips dot directories by default (src/Viper.php:77), so `routes()` never builds such a page; only a direct `resolvePageComponent` call reaches it | Layouts.DotDirectoryPage | Layouts.IntendedLayoutChain |

=== FILE: aggregate.dfy ===
/**
  What a page serves once its layout chain is known: the props, prop
  hashes, actions, middleware and route name of a PageComponent. Each is
  gathered over the chain made of the page's layouts (root layout first)
  followed by the page itself.

  Reflection over the compiled PHP class of a page is modelled by the
  PageMeta value it reports. Calling a prop or action method is opaque:
  it appears as the call that would be made (which page instance, which
  method). The md5 digest is a parameter.
*/
module Aggregate {
  import opened Text

  // ---------------------------------------------------------------------
  // What reflection reports about a page class
  // ---------------------------------------------------------------------

  /** The #[Prop] attribute of a method. */
  datatype PropAttr = PropAttr(lazy: bool)

  /**
    A method of a page class: its name, its #[Prop] attribute if it
    has one, whether it carries #[Action], and the file that declares it.
  */
  datatype MethodInfo = MethodInfo(name: string, prop: Option<PropAttr>, isAction: bool, file: string)

  /** The argument of the class-level #[Middleware] attribute, when present. */
  datatype MiddlewareAttr = NoMiddleware | MiddlewareOne(middleware: string) | MiddlewareList(list: seq<string>)

  /** One page (or layout) of a chain: its path, its methods and its class attributes. */
  datatype PageMeta = PageMeta(path: string, methods: seq<MethodInfo>, middleware: MiddlewareAttr, name: Option<string>)

  /** A prop value: null for a deferred lazy prop, else the result of calling `method` on the instance of `page`. */
  datatype PropValue = Null | Called(page: string, methodName: string)

  /** The call an action request dispatches to. */
  datatype ActionCall = ActionCall(page: string, methodName: string)

  // ---------------------------------------------------------------------
  // Merging a sequence of maps, later keys winning (Collection::mapWithKeys)
  // ---------------------------------------------------------------------

  function MergeAll<K, V>(ms: seq<map<K, V>>): map<K, V>
  {
    if ms == [] then map[] else MergeAll(ms[..|ms| - 1]) + ms[|ms| - 1]
  }

  /** The index of the last map of ms that holds k, or -1 when none does. */
  function LastWith<K, V>(ms: seq<map<K, V>>, k: K): (i: int)
    ensures -1 <= i < |ms|
    ensures i >= 0 ==> k in ms[i] && forall j :: i < j < |ms| ==> k !in ms[j]
    ensures i == -1 ==> forall j :: 0 <= j < |ms| ==> k !in ms[j]
  {
    if ms == [] then -1
    else if k in ms[|ms| - 1] then |ms| - 1
    else LastWith(ms[..|ms| - 1], k)
  }

  lemma MergeAllSnoc<K, V>(ms: seq<map<K, V>>, i: nat)
    requires i < |ms|
    ensures MergeAll(ms[..i + 1]) == MergeAll(ms[..i]) + ms[i]
  {
    assert ms[..i + 1][..i] == ms[..i];
  }

  /** Assigning one key is merging a one-key map; merging an empty map changes nothing. */
  lemma UpdateIsMerge<K, V>(m: map<K, V>, k: K, v: V)
    ensures m[k := v] == m + map[k := v]
    ensures m + map[] == m
  {
  }

  /** A key is merged iff some map holds it, and its value is the one of the last map holding it. */
  lemma {:induction false} MergeAllLookup<K, V>(ms: seq<map<K, V>>, k: K)
    ensures k in MergeAll(ms) <==> LastWith(ms, k) >= 0
    ensures k in MergeAll(ms) ==> MergeAll(ms)[k] == ms[LastWith(ms, k)][k]
  {
    if ms != [] {
      var n := |ms| - 1;
      MergeAllLookup(ms[..n], k);
      if k !in ms[n] {
        assert LastWith(ms, k) == LastWith(ms[..n], k);
        if LastWith(ms, k) >= 0 {
          assert ms[..n][LastWith(ms, k)] == ms[LastWith(ms, k)];
        }
      }
    }
  }

  // ---------------------------------------------------------------------
  // Props of one page (parseProps)
  // ---------------------------------------------------------------------

  /** A method is served as a prop when it has #[Prop] and `only` is empty or names it. */
  predicate Requested(m: MethodInfo, only: seq<string>)
  {
    m.prop.Some? && (only == [] || m.name in only)
  }

  /** The value served for a requested prop: lazy props are deferred when nothing was asked for by name. */
  function PropValueOf(page: PageMeta, m: MethodInfo, only: seq<string>): PropValue
    requires m.prop.Some?
  {
    if only == [] && m.prop.value.lazy then Null else Called(page.path, m.name)
  }

  function PropEntry(page: PageMeta, m: MethodInfo, only: seq<string>): map<string, PropValue>
  {
    if Requested(m, only) then map[m.name := PropValueOf(page, m, only)] else map[]
  }

  function PropEntries(page: PageMeta, only: seq<string>): seq<map<string, PropValue>>
  {
    seq(|page.methods|, i requires 0 <= i < |page.methods| => PropEntry(page, page.methods[i], only))
  }

  /** The props one page class declares. */
  function PageProps(page: PageMeta, only: seq<string>): map<string, PropValue>
  {
    MergeAll(PropEntries(page, only))
  }

  method ParseProps(page: PageMeta, only: seq<string>) returns (props: map<string, PropValue>)
    ensures props == PageProps(page, only)
  {
    props := map[];
    for i := 0 to |page.methods|
      invariant props == MergeAll(PropEntries(page, only)[..i])
    {
      MergeAllSnoc(PropEntries(page, only), i);
      var m := page.methods[i];
      assert PropEntries(page, only)[i] == PropEntry(page, m, only);
      if m.prop.None? {
        continue;
      }
      if only != [] && m.name !in only {
        continue;
      }
      if only == [] && m.prop.value.lazy {
        UpdateIsMerge(props, m.name, Null);
        props := props[m.name := Null];
        continue;
      }
      UpdateIsMerge(props, m.name, Called(page.path, m.name));
      props := props[m.name := Called(page.path, m.name)];
    }
    assert PropEntries(page, only)[..|page.methods|] == PropEntries(page, only);
  }

  /** A page serves k iff one of its methods named k is requested; the value comes from its last such method. */
  lemma PagePropsLookup(page: PageMeta, only: seq<string>, k: string)
    ensures k in PageProps(page, only) <==> exists m :: m in page.methods && Requested(m, only) && m.name == k
    ensures k in PageProps(page, only) ==>
      exists m :: m in page.methods && Requested(m, only) && m.name == k && PageProps(page, only)[k] == PropValueOf(page, m, only)
  {
    var es := PropEntries(page, only);
    MergeAllLookup(es, k);
    if exists m :: m in page.methods && Requested(m, only) && m.name == k {
      var m :| m in page.methods && Requested(m, only) && m.name == k;
      var j :| 0 <= j < |page.methods| && page.methods[j] == m;
      assert k in es[j];
    }
    if k in PageProps(page, only) {
      var j := LastWith(es, k);
      assert k in PropEntry(page, page.methods[j], only);
      assert page.methods[j] in page.methods;
    }
  }

  // ---------------------------------------------------------------------
  // Prop hashes of one page (parsePropHashes)
  // ---------------------------------------------------------------------

  /**
    The hash of a prop: the digest of the declaring file name followed by
    the method name. Unlike the value, it ignores laziness.
  */
  function HashEntry(m: MethodInfo, only: seq<string>, md5: string -> string): map<string, string>
  {
    if Requested(m, only) then map[m.name := md5(m.file + m.name)] else map[]
  }

  function HashEntries(page: PageMeta, only: seq<string>, md5: string -> string): seq<map<string, string>>
  {
    seq(|page.methods|, i requires 0 <= i < |page.methods| => HashEntry(page.methods[i], only, md5))
  }

  function PagePropHashes(page: PageMeta, only: seq<string>, md5: string -> string): map<string, string>
  {
    MergeAll(HashEntries(page, only, md5))
  }

  method ParsePropHashes(page: PageMeta, only: seq<string>, md5: string -> string) returns (hashes: map<string, string>)
    ensures hashes == PagePropHashes(page, only, md5)
  {
    hashes := map[];
    for i := 0 to |page.methods|
      invariant hashes == MergeAll(HashEntries(page, only, md5)[..i])
    {
      MergeAllSnoc(HashEntries(page, only, md5), i);
      var m := page.methods[i];
      assert HashEntries(page, only, md5)[i] == HashEntry(m, only, md5);
      if m.prop.None? {
        continue;
      }
      if only != [] && m.name !in only {
        continue;
      }
      UpdateIsMerge(hashes, m.name, md5(m.file + m.name));
      hashes := hashes[m.name := md5(m.file + m.name)];
    }
    assert HashEntries(page, only, md5)[..|page.methods|] == HashEntries(page, only, md5);
  }

  /** A page hashes exactly the props it serves, and the hash names the file of the last declaring method. */
  lemma PagePropHashesLookup(page: PageMeta, only: seq<string>, md5: string -> string, k: string)
    ensures k in PagePropHashes(page, only, md5) <==> k in PageProps(page, only)
    ensures k in PagePropHashes(page, only, md5) ==>
      LastWith(HashEntries(page, only, md5), k) == LastWith(PropEntries(page, only), k) >= 0 &&
      PagePropHashes(page, only, md5)[k] == md5(page.methods[LastWith(PropEntries(page, only), k)].file + k)
  {
    var hs := HashEntries(page, only, md5);
    var es := PropEntries(page, only);
    SameKeysSameLast(hs, es, k);
    MergeAllLookup(hs, k);
    MergeAllLookup(es, k);
  }

  /** LastWith only looks at keys, so two sequences with the same keys position by position agree on it. */
  lemma {:induction false} SameKeysSameLast<K, V, W>(a: seq<map<K, V>>, b: seq<map<K, W>>, k: K)
    requires |a| == |b|
    requires forall i :: 0 <= i < |a| ==> (k in a[i] <==> k in b[i])
    ensures LastWith(a, k) == LastWith(b, k)
  {
    if a != [] {
      var n := |a| - 1;
      if k !in a[n] {
        SameKeysSameLast(a[..n], b[..n], k);
      }
    }
  }

  // ---------------------------------------------------------------------
  // Actions of one page (parseActions)
  // ---------------------------------------------------------------------

  /** An #[Action] method routes its name to the instance of the page that declares it. */
  function ActionEntry(page: PageMeta, m: MethodInfo): map<string, string>
  {
    if m.isAction then map[m.name := page.path] else map[]
  }

  function ActionEntries(page: PageMeta): seq<map<string, string>>
  {
    seq(|page.methods|, i requires 0 <= i < |page.methods| => ActionEntry(page, page.methods[i]))
  }

  function PageActions(page: PageMeta): map<string, string>
  {
    MergeAll(ActionEntries(page))
  }

  method ParseActions(page: PageMeta) returns (actions: map<string, string>)
    ensures actions == PageActions(page)
  {
    actions := map[];
    for i := 0 to |page.methods|
      invariant actions == MergeAll(ActionEntries(page)[..i])
    {
      MergeAllSnoc(ActionEntries(page), i);
      var m := page.methods[i];
      assert ActionEntries(page)[i] == ActionEntry(page, m);
      if !m.isAction {
        continue;
      }
      UpdateIsMerge(actions, m.name, page.path);
      actions := actions[m.name := page.path];
    }
    assert ActionEntries(page)[..|page.methods|] == ActionEntries(page);
  }

  /** A page routes k iff one of its methods named k is an action, and always to itself. */
  lemma PageActionsLookup(page: PageMeta, k: string)
    ensures k in PageActions(page) <==> exists m :: m in page.methods && m.isAction && m.name == k
    ensures k in PageActions(page) ==> PageActions(page)[k] == page.path
  {
    var es := ActionEntries(page);
    MergeAllLookup(es, k);
    if exists m :: m in page.methods && m.isAction && m.name == k {
      var m :| m in page.methods && m.isAction && m.name == k;
      var j :| 0 <= j < |page.methods| && page.methods[j] == m;
      assert k in es[j];
    }
    if k in PageActions(page) {
      var j := LastWith(es, k);
      assert k in ActionEntry(page, page.methods[j]);
      assert page.methods[j] in page.methods;
    }
  }

  // ---------------------------------------------------------------------
  // Over the layout chain (props, propHashes, actions)
  // ---------------------------------------------------------------------

  function PropMaps(chain: seq<PageMeta>, only: seq<string>): seq<map<string, PropValue>>
  {
    seq(|chain|, i requires 0 <= i < |chain| => PageProps(chain[i], only))
  }

  /** props(): the layouts' props then the page's own, a later page overriding an earlier one. */
  function Props(layouts: seq<PageMeta>, page: PageMeta, only: seq<string>): map<string, PropValue>
  {
    MergeAll(PropMaps(layouts + [page], only))
  }

  function HashMaps(chain: seq<PageMeta>, only: seq<string>, md5: string -> string): seq<map<string, string>>
  {
    seq(|chain|, i requires 0 <= i < |chain| => PagePropHashes(chain[i], only, md5))
  }

  /** propHashes(): the same merge over the hashes. */
  function PropHashes(layouts: seq<PageMeta>, page: PageMeta, only: seq<string>, md5: string -> string): map<string, string>
  {
    MergeAll(HashMaps(layouts + [page], only, md5))
  }

  function ActionMaps(chain: seq<PageMeta>): seq<map<string, string>>
  {
    seq(|chain|, i requires 0 <= i < |chain| => PageActions(chain[i]))
  }

  /** actions(): action name to the page instance that handles it. */
  function Actions(layouts: seq<PageMeta>, page: PageMeta): map<string, string>
  {
    MergeAll(ActionMaps(layouts + [page]))
  }

  /** action(name): no call for a name that is not an action of the chain, else the call to its handler. */
  function Action(layouts: seq<PageMeta>, page: PageMeta, name: string): Option<ActionCall>
  {
    var actions := Actions(layouts, page);
    if name !in actions then None else Some(ActionCall(actions[name], name))
  }

  /**
    A key is served iff some page of the chain declares it as a requested
    prop. Its value is the one of the last page of the chain that does,
    so the page overrides its layouts and an inner layout overrides an
    outer one.
  */
  lemma PropsLookup(layouts: seq<PageMeta>, page: PageMeta, only: seq<string>, k: string)
    ensures k in Props(layouts, page, only) <==>
      exists p, m :: p in layouts + [page] && m in p.methods && Requested(m, only) && m.name == k
    ensures k in Props(layouts, page, only) ==>
      exists i :: 0 <= i < |layouts| + 1 && k in PageProps((layouts + [page])[i], only) &&
        Props(layouts, page, only)[k] == PageProps((layouts + [page])[i], only)[k] &&
        forall j :: i < j < |layouts| + 1 ==> k !in PageProps((layouts + [page])[j], only)
  {
    PropsMembers(layouts, page, only, k);
    PropsSource(layouts, page, only, k);
  }

  lemma PropsMembers(layouts: seq<PageMeta>, page: PageMeta, only: seq<string>, k: string)
    ensures k in Props(layouts, page, only) <==>
      exists p, m :: p in layouts + [page] && m in p.methods && Requested(m, only) && m.name == k
  {
    var chain := layouts + [page];
    var ms := PropMaps(chain, only);
    MergeAllLookup(ms, k);
    if exists p, m :: p in chain && m in p.methods && Requested(m, only) && m.name == k {
      var p, m :| p in chain && m in p.methods && Requested(m, only) && m.name == k;
      var i :| 0 <= i < |chain| && chain[i] == p;
      PagePropsLookup(p, only, k);
      assert k in ms[i];
    }
    if k in Props(layouts, page, only) {
      var i := LastWith(ms, k);
      PagePropsLookup(chain[i], only, k);
      assert chain[i] in chain;
    }
  }

  lemma PropsSource(layouts: seq<PageMeta>, page: PageMeta, only: seq<string>, k: string)
    ensures k in Props(layouts, page, only) ==>
      exists i :: 0 <= i < |layouts| + 1 && k in PageProps((layouts + [page])[i], only) &&
        Props(layouts, page, only)[k] == PageProps((layouts + [page])[i], only)[k] &&
        forall j :: i < j < |layouts| + 1 ==> k !in PageProps((layouts + [page])[j], only)
  {
    var chain := layouts + [page];
    var ms := PropMaps(chain, only);
    MergeAllLookup(ms, k);
    if k in Props(layouts, page, only) {
      var i := LastWith(ms, k);
      forall j | i < j < |chain|
        ensures k !in PageProps(chain[j], only)
      {
        assert ms[j] == PageProps(chain[j], only);
      }
      assert k in PageProps((layouts + [page])[i], only) &&
        Props(layouts, page, only)[k] == PageProps((layouts + [page])[i], only)[k];
    }
  }

  /** A prop the page itself declares is served from the page, whatever its layouts declare. */
  lemma PageOverridesLayouts(layouts: seq<PageMeta>, page: PageMeta, only: seq<string>, k: string)
    requires k in PageProps(page, only)
    ensures k in Props(layouts, page, only)
    ensures Props(layouts, page, only)[k] == PageProps(page, only)[k]
  {
    var ms := PropMaps(layouts + [page], only);
    assert ms[|layouts|] == PageProps(page, only);
    MergeAllLookup(ms, k);
  }

  /** A non-empty `only` restricts the served props to the names it lists. */
  lemma PropsRestrictedToOnly(layouts: seq<PageMeta>, page: PageMeta, only: seq<string>, k: string)
    requires only != []
    requires k in Props(layouts, page, only)
    ensures k in only
  {
    PropsLookup(layouts, page, only, k);
  }

  /**
    A prop is served as null only when `only` is empty; then it is null
    exactly when the method that supplies it is lazy.
  */
  lemma LazyPropsDeferred(layouts: seq<PageMeta>, page: PageMeta, only: seq<string>, k: string)
    requires k in Props(layouts, page, only)
    ensures Props(layouts, page, only)[k] == Null ==> only == []
    ensures exists p, m :: (p in layouts + [page] && m in p.methods && Requested(m, only) && m.name == k &&
      Props(layouts, page, only)[k] == PropValueOf(p, m, only) &&
      (Props(layouts, page, only)[k] == Null <==> (only == [] && m.prop.value.lazy)))
  {
    var chain := layouts + [page];
    PropsLookup(layouts, page, only, k);
    var i :| 0 <= i < |chain| && k in PageProps(chain[i], only) &&
      Props(layouts, page, only)[k] == PageProps(chain[i], only)[k] &&
      forall j :: i < j < |chain| ==> k !in PageProps(chain[j], only);
    PagePropsLookup(chain[i], only, k);
    var m :| m in chain[i].methods && Requested(m, only) && m.name == k &&
      PageProps(chain[i], only)[k] == PropValueOf(chain[i], m, only);
    assert chain[i] in chain;
  }

  /**
    The chain hashes exactly the props it serves, and the hash of a prop is
    the digest of the file of the method that supplies it and its name.
  */
  lemma PropHashesLookup(layouts: seq<PageMeta>, page: PageMeta, only: seq<string>, md5: string -> string, k: string)
    ensures k in PropHashes(layouts, page, only, md5) <==> k in Props(layouts, page, only)
    ensures k in PropHashes(layouts, page, only, md5) ==>
      exists p, m :: p in layouts + [page] && m in p.methods && Requested(m, only) && m.name == k &&
        PropHashes(layouts, page, only, md5)[k] == md5(m.file + k) &&
        Props(layouts, page, only)[k] == PropValueOf(p, m, only)
  {
    var chain := layouts + [page];
    var hs := HashMaps(chain, only, md5);
    var ps := PropMaps(chain, only);
    forall i | 0 <= i < |chain|
      ensures k in hs[i] <==> k in ps[i]
    {
      PagePropHashesLookup(chain[i], only, md5, k);
    }
    SameKeysSameLast(hs, ps, k);
    MergeAllLookup(hs, k);
    MergeAllLookup(ps, k);
    if k in PropHashes(layouts, page, only, md5) {
      var i := LastWith(ps, k);
      var p := chain[i];
      PagePropHashesLookup(p, only, md5, k);
      var es := PropEntries(p, only);
      var j := LastWith(es, k);
      MergeAllLookup(es, k);
      var m := p.methods[j];
      assert k in PropEntry(p, m, only);
      assert p in chain && m in p.methods;
    }
  }

  /**
    A prop declared by the root layout and by no other page of two chains
    that share that root has the same hash on both pages.
  */
  lemma RootPropHashShared(root: PageMeta, layouts1: seq<PageMeta>, page1: PageMeta,
                           layouts2: seq<PageMeta>, page2: PageMeta,
                           only: seq<string>, md5: string -> string, k: string)
    requires k in PageProps(root, only)
    requires forall p :: p in layouts1 + [page1] ==> k !in PageProps(p, only)
    requires forall p :: p in layouts2 + [page2] ==> k !in PageProps(p, only)
    ensures k in PropHashes([root] + layouts1, page1, only, md5)
    ensures k in PropHashes([root] + layouts2, page2, only, md5)
    ensures PropHashes([root] + layouts1, page1, only, md5)[k] == PropHashes([root] + layouts2, page2, only, md5)[k]
  {
    RootHash(root, layouts1, page1, only, md5, k);
    RootHash(root, layouts2, page2, only, md5, k);
  }

  /** Under the premises of RootPropHashShared, one chain's hash of k is the root's own. */
  lemma RootHash(root: PageMeta, layouts: seq<PageMeta>, page: PageMeta,
                 only: seq<string>, md5: string -> string, k: string)
    requires k in PageProps(root, only)
    requires forall p :: p in layouts + [page] ==> k !in PageProps(p, only)
    ensures k in PropHashes([root] + layouts, page, only, md5)
    ensures k in PagePropHashes(root, only, md5)
    ensures PropHashes([root] + layouts, page, only, md5)[k] == PagePropHashes(root, only, md5)[k]
  {
    var chain := [root] + layouts + [page];
    var hs := HashMaps(chain, only, md5);
    forall j | 0 < j < |chain|
      ensures k !in hs[j]
    {
      assert chain[j] in layouts + [page];
      PagePropHashesLookup(chain[j], only, md5, k);
    }
    PagePropHashesLookup(root, only, md5, k);
    assert hs[0] == PagePropHashes(root, only, md5);
    MergeAllLookup(hs, k);
  }

  /**
    action(name) dispatches nowhere iff no page of the chain has an action
    of that name, and otherwise to the last page of the chain that has one.
  */
  lemma ActionLookup(layouts: seq<PageMeta>, page: PageMeta, name: string)
    ensures Action(layouts, page, name).None? <==>
      forall p, m :: p in layouts + [page] && m in p.methods && m.isAction ==> m.name != name
    ensures Action(layouts, page, name).Some? ==>
      Action(layouts, page, name).value.methodName == name &&
      exists i :: 0 <= i < |layouts| + 1 && Action(layouts, page, name).value.page == (layouts + [page])[i].path &&
        name in PageActions((layouts + [page])[i]) &&
        forall j :: i < j < |layouts| + 1 ==> name !in PageActions((layouts + [page])[j])
  {
    ActionMembers(layouts, page, name);
    ActionSource(layouts, page, name);
  }

  lemma ActionMembers(layouts: seq<PageMeta>, page: PageMeta, name: string)
    ensures Action(layouts, page, name).None? <==>
      forall p, m :: p in layouts + [page] && m in p.methods && m.isAction ==> m.name != name
  {
    var chain := layouts + [page];
    var ms := ActionMaps(chain);
    MergeAllLookup(ms, name);
    if exists p, m :: p in chain && m in p.methods && m.isAction && m.name == name {
      var p, m :| p in chain && m in p.methods && m.isAction && m.name == name;
      var i :| 0 <= i < |chain| && chain[i] == p;
      PageActionsLookup(p, name);
      assert name in ms[i];
    }
    if name in Actions(layouts, page) {
      var i := LastWith(ms, name);
      PageActionsLookup(chain[i], name);
    }
  }

  lemma ActionSource(layouts: seq<PageMeta>, page: PageMeta, name: string)
    ensures Action(layouts, page, name).Some? ==>
      Action(layouts, page, name).value.methodName == name &&
      exists i :: 0 <= i < |layouts| + 1 && Action(layouts, page, name).value.page == (layouts + [page])[i].path &&
        name in PageActions((layouts + [page])[i]) &&
        forall j :: i < j < |layouts| + 1 ==> name !in PageActions((layouts + [page])[j])
  {
    var chain := layouts + [page];
    var ms := ActionMaps(chain);
    MergeAllLookup(ms, name);
    if name in Actions(layouts, page) {
      var i := LastWith(ms, name);
      PageActionsLookup(chain[i], name);
      forall j | i < j < |chain|
        ensures name !in PageActions(chain[j])
      {
        assert ms[j] == PageActions(chain[j]);
      }
      assert Action(layouts, page, name).value.page == (layouts + [page])[i].path;
    }
  }

  // ---------------------------------------------------------------------
  // Middleware
  // ---------------------------------------------------------------------

  /** parseMiddleware: none without the attribute; a single name is normalised to a one-element list. */
  function ParseMiddleware(page: PageMeta): (r: seq<string>)
    ensures page.middleware.NoMiddleware? ==> r == []
    ensures page.middleware.MiddlewareOne? ==> r == [page.middleware.middleware]
    ensures page.middleware.MiddlewareList? ==> r == page.middleware.list
  {
    match page.middleware
    case NoMiddleware => []
    case MiddlewareOne(m) => [m]
    case MiddlewareList(ms) => ms
  }

  /** The middleware of each page of a chain, concatenated in chain order. */
  function ChainMiddleware(chain: seq<PageMeta>): seq<string>
  {
    if chain == [] then [] else ChainMiddleware(chain[..|chain| - 1]) + ParseMiddleware(chain[|chain| - 1])
  }

  /** middleware(): the layouts' middleware, root first, then the page's own. */
  function Middleware(layouts: seq<PageMeta>, page: PageMeta): seq<string>
  {
    ChainMiddleware(layouts + [page])
  }

  /** Concatenating chains concatenates their middleware: nothing is reordered or dropped. */
  lemma {:induction false} ChainMiddlewareAppend(a: seq<PageMeta>, b: seq<PageMeta>)
    ensures ChainMiddleware(a + b) == ChainMiddleware(a) + ChainMiddleware(b)
    decreases |b|
  {
    if b == [] {
      assert a + b == a;
    } else {
      var n := |b| - 1;
      var ab := a + b;
      var init := b[..n];
      assert ab[..|ab| - 1] == a + init;
      assert ab[|ab| - 1] == b[n];
      var last := ParseMiddleware(b[n]);
      ChainMiddlewareLast(ab);
      ChainMiddlewareLast(b);
      ChainMiddlewareAppend(a, init);
      var x, y := ChainMiddleware(a), ChainMiddleware(init);
      assert (x + y) + last == x + (y + last);
    }
  }

  lemma ChainMiddlewareLast(chain: seq<PageMeta>)
    requires chain != []
    ensures ChainMiddleware(chain) == ChainMiddleware(chain[..|chain| - 1]) + ParseMiddleware(chain[|chain| - 1])
  {
  }

  /** A middleware name occurs once for each page listing it: no deduplication. */
  lemma {:induction false} ChainMiddlewareCounts(chain: seq<PageMeta>, m: string)
    ensures multiset(ChainMiddleware(chain))[m] == SumCounts(chain, m)
  {
    if chain != [] {
      ChainMiddlewareCounts(chain[..|chain| - 1], m);
    }
  }

  /** How many times m is listed by the pages of a chain, counted page by page. */
  function SumCounts(chain: seq<PageMeta>, m: string): nat
  {
    if chain == [] then 0 else SumCounts(chain[..|chain| - 1], m) + multiset(ParseMiddleware(chain[|chain| - 1]))[m]
  }

  /** The page lists m in its #[Middleware] attribute, as its single name or as one of its list. */
  predicate Declares(page: PageMeta, m: string)
  {
    match page.middleware
    case NoMiddleware => false
    case MiddlewareOne(x) => x == m
    case MiddlewareList(ms) => exists i :: 0 <= i < |ms| && ms[i] == m
  }

  lemma ParseMiddlewareDeclared(page: PageMeta, m: string)
    ensures m in ParseMiddleware(page) <==> Declares(page, m)
  {
  }

  /** A chain's middleware holds exactly the names some member of the chain declares. */
  lemma {:induction false} ChainMiddlewareDeclared(chain: seq<PageMeta>, m: string)
    ensures m in ChainMiddleware(chain) <==> exists i :: 0 <= i < |chain| && Declares(chain[i], m)
    decreases |chain|
  {
    if chain != [] {
      var n := |chain| - 1;
      var init := chain[..n];
      ChainMiddlewareDeclared(init, m);
      ParseMiddlewareDeclared(chain[n], m);
      assert forall i :: 0 <= i < n ==> init[i] == chain[i];
      if m in ChainMiddleware(chain) {
        if m in ChainMiddleware(init) {
          var i :| 0 <= i < n && Declares(init[i], m);
          assert Declares(chain[i], m);
        } else {
          assert Declares(chain[n], m);
        }
      } else {
        forall i | 0 <= i < |chain| ensures !Declares(chain[i], m) {
          if i < n {
            assert init[i] == chain[i];
          }
        }
      }
    }
  }

  /**
   * A name is in a page's middleware exactly when the page or one of its layouts declares it:
   * a page without the attribute contributes none, and flatten() drops no declared name.
   */
  lemma MiddlewareDeclared(layouts: seq<PageMeta>, page: PageMeta, m: string)
    ensures m in Middleware(layouts, page) <==> Declares(page, m) || exists i :: 0 <= i < |layouts| && Declares(layouts[i], m)
  {
    var chain := layouts + [page];
    ChainMiddlewareDeclared(chain, m);
    assert chain[|layouts|] == page;
    assert forall i :: 0 <= i < |layouts| ==> chain[i] == layouts[i];
  }

  /** The page's middleware are the layouts' followed by its own, the root layout's first. */
  lemma MiddlewareOrder(root: PageMeta, layouts: seq<PageMeta>, page: PageMeta)
    ensures Middleware([root] + layouts, page) == ParseMiddleware(root) + Middleware(layouts, page)
    ensures Middleware(layouts, page) == ChainMiddleware(layouts) + ParseMiddleware(page)
  {
    ChainMiddlewareAppend([root], layouts + [page]);
    assert [root] + layouts + [page] == [root] + (layouts + [page]);
    assert [root][..0] == [];
    assert ChainMiddleware([]) == [];
    assert ChainMiddleware([root]) == ParseMiddleware(root);
  }

  // ---------------------------------------------------------------------
  // Route name
  // ---------------------------------------------------------------------

  /** parseName: the #[Name] attribute's value, '' without one. */
  function ParseName(page: PageMeta): (r: string)
    ensures page.name.None? ==> r == ""
    ensures page.name.Some? ==> r == page.name.value
  {
    if page.name.None? then "" else page.name.value
  }

  function Names(chain: seq<PageMeta>): (r: seq<string>)
    ensures |r| == |chain|
    ensures forall i :: 0 <= i < |chain| ==> r[i] == ParseName(chain[i])
  {
    seq(|chain|, i requires 0 <= i < |chain| => ParseName(chain[i]))
  }

  /** routeName(): unnamed unless the page names itself; then the chain's names joined, root first. */
  function RouteName(layouts: seq<PageMeta>, page: PageMeta): string
  {
    if !Truthy(ParseName(page)) then "" else Concat(Names(layouts + [page]))
  }

  lemma {:induction false} ConcatSnoc(parts: seq<string>, s: string)
    ensures Concat(parts + [s]) == Concat(parts) + s
  {
    if parts == [] {
      assert parts + [s] == [s];
      assert Concat([s]) == s + Concat([]);
    } else {
      assert (parts + [s])[1..] == parts[1..] + [s];
      ConcatSnoc(parts[1..], s);
    }
  }

  /**
    A page without a truthy name of its own has the empty route name;
    otherwise its route name is its layouts' names, root first, followed by
    its own name.
  */
  lemma RouteNameRule(layouts: seq<PageMeta>, page: PageMeta)
    ensures !Truthy(ParseName(page)) ==> RouteName(layouts, page) == ""
    ensures Truthy(ParseName(page)) ==> RouteName(layouts, page) == Concat(Names(layouts)) + ParseName(page)
  {
    assert Names(layouts + [page]) == Names(layouts) + [ParseName(page)];
    ConcatSnoc(Names(layouts), ParseName(page));
  }

  /** An outer layout's name comes first: the route name of a named page starts with the root layout's name. */
  lemma RouteNameStartsWithRoot(root: PageMeta, layouts: seq<PageMeta>, page: PageMeta)
    requires Truthy(ParseName(page))
    ensures StartsWith(RouteName([root] + layouts, page), ParseName(root))
    ensures EndsWith(RouteName([root] + layouts, page), ParseName(page))
  {
    var chain := [root] + layouts + [page];
    assert Names(chain)[0] == ParseName(root);
    RouteNameRule([root] + layouts, page);
  }

  // ---------------------------------------------------------------------
  // The (auth)/login chain of the integration tests
  // ---------------------------------------------------------------------

  function PropMethod(name: string, file: string): MethodInfo
  {
    MethodInfo(name, Some(PropAttr(false)), false, file)
  }

  function ActionMethod(name: string, file: string): MethodInfo
  {
    MethodInfo(name, None, true, file)
  }

  /** The root layout: one prop, one action, no name, no middleware. */
  function RootLayout(): PageMeta
  {
    PageMeta("_layout", [PropMethod("rootLayoutProp", "_layout.php"), ActionMethod("rootLayoutAction", "_layout.php")],
      NoMiddleware, None)
  }

  /** The (auth) group layout: named 'auth.', guarded by 'guest'. */
  function AuthLayout(): PageMeta
  {
    PageMeta("(auth)/_layout", [PropMethod("authLayoutProp", "(auth)/_layout.php"), ActionMethod("authLayoutAction", "(auth)/_layout.php")],
      MiddlewareList(["guest"]), Some("auth."))
  }

  /** The login page, named 'login'. */
  function LoginPage(): PageMeta
  {
    PageMeta("(auth)/login", [PropMethod("loginProp", "(auth)/login.php"), ActionMethod("loginAction", "(auth)/login.php")],
      NoMiddleware, Some("login"))
  }

  /** The login page is named 'auth.login'. */
  lemma LoginRouteName()
    ensures RouteName([RootLayout(), AuthLayout()], LoginPage()) == "auth.login"
  {
    RouteNameRule([RootLayout(), AuthLayout()], LoginPage());
    assert Names([RootLayout(), AuthLayout()]) == ["", "auth."];
    assert Concat(["", "auth."]) == "auth.";
  }

  /** The login page is guarded by the auth layout's 'guest' alone. */
  lemma LoginMiddleware()
    ensures Middleware([RootLayout(), AuthLayout()], LoginPage()) == ["guest"]
  {
    assert [RootLayout()] + [AuthLayout()] == [RootLayout(), AuthLayout()];
    MiddlewareOrder(RootLayout(), [AuthLayout()], LoginPage());
    MiddlewareOrder(AuthLayout(), [], LoginPage());
    assert [] + [LoginPage()] == [LoginPage()];
    assert [LoginPage()][..0] == [];
    assert ChainMiddleware([LoginPage()]) == ChainMiddleware([]) + [];
  }

  /** The login page serves its own prop, the page's value taking precedence. */
  lemma LoginOwnProp()
    ensures "loginProp" in Props([RootLayout(), AuthLayout()], LoginPage(), [])
    ensures Props([RootLayout(), AuthLayout()], LoginPage(), [])["loginProp"] == Called("(auth)/login", "loginProp")
  {
    var page := LoginPage();
    assert page.methods[0] in page.methods;
    PagePropsLookup(page, [], "loginProp");
    PageOverridesLayouts([RootLayout(), AuthLayout()], page, [], "loginProp");
  }

  /** The login page serves the root layout's prop. */
  lemma LoginRootProp()
    ensures "rootLayoutProp" in Props([RootLayout(), AuthLayout()], LoginPage(), [])
  {
    var root := RootLayout();
    assert root in [RootLayout(), AuthLayout()] + [LoginPage()];
    assert root.methods[0] in root.methods;
    PropsLookup([RootLayout(), AuthLayout()], LoginPage(), [], "rootLayoutProp");
  }

  /** The login page serves the auth layout's prop. */
  lemma LoginAuthProp()
    ensures "authLayoutProp" in Props([RootLayout(), AuthLayout()], LoginPage(), [])
  {
    var auth := AuthLayout();
    assert auth in [RootLayout(), AuthLayout()] + [LoginPage()];
    assert auth.methods[0] in auth.methods;
    PropsLookup([RootLayout(), AuthLayout()], LoginPage(), [], "authLayoutProp");
  }

  /** An action of the root layout is reachable from the login page. */
  lemma LoginRootAction()
    ensures Action([RootLayout(), AuthLayout()], LoginPage(), "rootLayoutAction").Some?
  {
    var root := RootLayout();
    assert root in [RootLayout(), AuthLayout()] + [LoginPage()];
    assert root.methods[1] in root.methods;
    ActionLookup([RootLayout(), AuthLayout()], LoginPage(), "rootLayoutAction");
  }

  /** A prop is not an action: asking for it as one dispatches nowhere. */
  lemma LoginPropIsNoAction()
    ensures Action([RootLayout(), AuthLayout()], LoginPage(), "loginProp").None?
  {
    var name := "loginProp";
    var root, auth, login := RootLayout(), AuthLayout(), LoginPage();
    assert forall m :: m in root.methods && m.isAction ==> m.name != name by {
      PropThenAction(root, name);
    }
    assert forall m :: m in auth.methods && m.isAction ==> m.name != name by {
      PropThenAction(auth, name);
    }
    assert forall m :: m in login.methods && m.isAction ==> m.name != name by {
      PropThenAction(login, name);
    }
    var chain := [root, auth] + [login];
    assert chain == [root, auth, login];
    ActionLookup([root, auth], login, name);
  }

  /** A page with a prop method then an action method routes only the action's name. */
  lemma PropThenAction(p: PageMeta, name: string)
    requires |p.methods| == 2 && !p.methods[0].isAction && p.methods[1].name != name
    ensures forall m :: m in p.methods && m.isAction ==> m.name != name
  {
  }
}

=== FILE: layouts.dfy ===
/**
 * The layout chain of a page (getLayouts in src/PageComponent.php): walking the parts of the
 * page's extension-stripped path, the loop grows `$currentPath` one part at a time and, after
 * each part, looks for `_layout.<ext>` in the directory of the current path. The files that
 * exist are collected in loop order. A layout file has no layouts of its own.
 *
 * The file system is the set `files` of absolute paths that exist.
 */
module Layouts {
  import opened Text
  import opened PagePaths

  // ---------------------------------------------------------------------
  // The loop, step by step
  // ---------------------------------------------------------------------

  /** `$currentPath` after one more part: the '/' is put in only when the path so far is non-empty in PHP's sense ("" and "0" count as empty). */
  function Extend(current: string, part: string): string
  {
    (if current == "" || current == "0" then current else current + "/") + part
  }

  /** `$currentPath` after the first n parts. */
  function PathAfter(parts: seq<string>, n: nat): string
    requires n <= |parts|
  {
    if n == 0 then "" else Extend(PathAfter(parts, n - 1), parts[n - 1])
  }

  /** `$layoutPath`: `/_layout.<ext>` appended to the directory of the current path, then leading dots and then leading slashes trimmed. */
  function LayoutFile(current: string, ext: string): string
  {
    TrimLeft(TrimLeft(Dirname(current) + "/_layout." + ext, '.'), '/')
  }

  /** `$layoutAbsolutePath`. */
  function Candidate(basePath: string, current: string, ext: string): string
  {
    basePath + "/" + LayoutFile(current, ext)
  }

  /** `basePath + "/" + L` where L names a file `..._layout.<ext>`. */
  predicate IsLayoutFileOf(basePath: string, x: string, ext: string)
  {
    |basePath| + 1 <= |x| && StartsWith(x, basePath + "/") && EndsWith(x[|basePath| + 1..], "_layout." + ext)
  }

  /** Every entry of r is an existing `_layout.<ext>` file under the base path. */
  predicate LayoutFilesIn(r: seq<string>, basePath: string, ext: string, files: set<string>)
  {
    forall i :: 0 <= i < |r| ==> r[i] in files && IsLayoutFileOf(basePath, r[i], ext)
  }

  /** The layouts collected after the first n parts. */
  function FoundLayouts(basePath: string, parts: seq<string>, n: nat, ext: string, files: set<string>): (r: seq<string>)
    requires n <= |parts|
    ensures |r| <= n
  {
    if n == 0 then []
    else
      var c := Candidate(basePath, PathAfter(parts, n), ext);
      FoundLayouts(basePath, parts, n - 1, ext, files) + (if c in files then [c] else [])
  }

  /** Only existing files are collected, and each names a `_layout.<ext>` file under the base path. */
  lemma FoundLayoutsAreLayoutFiles(basePath: string, parts: seq<string>, n: nat, ext: string, files: set<string>)
    requires n <= |parts|
    ensures LayoutFilesIn(FoundLayouts(basePath, parts, n, ext, files), basePath, ext, files)
  {
    forall i | 0 <= i < |FoundLayouts(basePath, parts, n, ext, files)|
      ensures FoundLayouts(basePath, parts, n, ext, files)[i] in files
      ensures IsLayoutFileOf(basePath, FoundLayouts(basePath, parts, n, ext, files)[i], ext)
    {
      FoundLayoutEntry(basePath, parts, n, ext, files, i);
    }
  }

  lemma {:induction false} FoundLayoutEntry(basePath: string, parts: seq<string>, n: nat, ext: string, files: set<string>, i: nat)
    requires n <= |parts| && i < |FoundLayouts(basePath, parts, n, ext, files)|
    ensures FoundLayouts(basePath, parts, n, ext, files)[i] in files
    ensures IsLayoutFileOf(basePath, FoundLayouts(basePath, parts, n, ext, files)[i], ext)
    decreases n
  {
    var m := n - 1;
    if i < |FoundLayouts(basePath, parts, m, ext, files)| {
      FoundLayoutEntry(basePath, parts, m, ext, files, i);
      FoundLayoutKept(basePath, parts, n, ext, files, i);
    } else {
      FoundLayoutAdded(basePath, parts, n, ext, files, i);
    }
  }

  lemma FoundLayoutKept(basePath: string, parts: seq<string>, n: nat, ext: string, files: set<string>, i: nat)
    requires 1 <= n <= |parts| && i < |FoundLayouts(basePath, parts, n - 1, ext, files)|
    requires FoundLayouts(basePath, parts, n - 1, ext, files)[i] in files
    requires IsLayoutFileOf(basePath, FoundLayouts(basePath, parts, n - 1, ext, files)[i], ext)
    ensures FoundLayouts(basePath, parts, n, ext, files)[i] in files
    ensures IsLayoutFileOf(basePath, FoundLayouts(basePath, parts, n, ext, files)[i], ext)
  {
    FoundLayoutsStep(basePath, parts, n, ext, files);
  }

  lemma FoundLayoutAdded(basePath: string, parts: seq<string>, n: nat, ext: string, files: set<string>, i: nat)
    requires 1 <= n <= |parts| && |FoundLayouts(basePath, parts, n - 1, ext, files)| <= i < |FoundLayouts(basePath, parts, n, ext, files)|
    ensures FoundLayouts(basePath, parts, n, ext, files)[i] in files
    ensures IsLayoutFileOf(basePath, FoundLayouts(basePath, parts, n, ext, files)[i], ext)
  {
    var c := Candidate(basePath, PathAfter(parts, n), ext);
    FoundLayoutsStep(basePath, parts, n, ext, files);
    AppendedAt(FoundLayouts(basePath, parts, n - 1, ext, files), c, c in files, FoundLayouts(basePath, parts, n, ext, files), i);
    CandidateIsLayoutFile(basePath, PathAfter(parts, n), ext);
  }

  /** Past the old entries of an optional append sits the appended element. */
  lemma AppendedAt<T>(prev: seq<T>, c: T, keep: bool, r: seq<T>, i: nat)
    requires r == prev + (if keep then [c] else []) && |prev| <= i < |r|
    ensures keep && r[i] == c
  {
  }

  /** The parts the loop walks: the extension-stripped relative path exploded at '/'. */
  function PageParts(rel: string): (parts: seq<string>)
    ensures |parts| >= 1
  {
    Split(RelativePathWithoutExtension(rel), '/')
  }

  /** getLayouts(): no layouts for a layout file, else the layouts collected over all parts. */
  function LayoutChain(basePath: string, absolutePath: string, fw: Framework, files: set<string>): (r: seq<string>)
    ensures IsLayout(RelativePath(basePath, absolutePath)) ==> r == []
    ensures |r| <= |PageParts(RelativePath(basePath, absolutePath))|
    ensures LayoutFilesIn(r, basePath, ComponentExtension(fw), files)
  {
    var rel := RelativePath(basePath, absolutePath);
    if IsLayout(rel) then []
    else
      var parts := PageParts(rel);
      FoundLayoutsAreLayoutFiles(basePath, parts, |parts|, ComponentExtension(fw), files);
      FoundLayouts(basePath, parts, |parts|, ComponentExtension(fw), files)
  }

  /** getLayouts(): a layout file has none; otherwise the loop over the parts collects them. */
  method GetLayouts(basePath: string, absolutePath: string, fw: Framework, files: set<string>) returns (layouts: seq<string>)
    ensures layouts == LayoutChain(basePath, absolutePath, fw, files)
  {
    var rel := RelativePath(basePath, absolutePath);
    if IsLayout(rel) {
      return [];
    }
    layouts := CollectLayouts(basePath, PageParts(rel), ComponentExtension(fw), files);
  }

  /** The loop of getLayouts(): grow the current path part by part and append each layout file that exists. */
  method CollectLayouts(basePath: string, parts: seq<string>, ext: string, files: set<string>) returns (layouts: seq<string>)
    ensures layouts == FoundLayouts(basePath, parts, |parts|, ext, files)
  {
    layouts := [];
    var currentPath := "";
    for i := 0 to |parts|
      invariant currentPath == PathAfter(parts, i)
      invariant layouts == FoundLayouts(basePath, parts, i, ext, files)
    {
      ghost var before := currentPath;
      ghost var found := layouts;
      currentPath := Extend(currentPath, parts[i]);
      var layoutAbsolutePath := Candidate(basePath, currentPath, ext);
      if layoutAbsolutePath in files {
        layouts := layouts + [layoutAbsolutePath];
      }
      FoundLayoutsExtend(basePath, parts, i, before, currentPath, ext, files, found, layouts);
    }
  }

  /** One more part, as the loop computes it: the path is extended and its layout file appended when it exists. */
  lemma FoundLayoutsExtend(basePath: string, parts: seq<string>, i: nat, current: string, next: string, ext: string,
                           files: set<string>, found: seq<string>, layouts: seq<string>)
    requires i < |parts| && current == PathAfter(parts, i) && found == FoundLayouts(basePath, parts, i, ext, files)
    requires next == Extend(current, parts[i])
    requires var c := basePath + "/" + LayoutFile(next, ext); layouts == found + (if c in files then [c] else [])
    ensures next == PathAfter(parts, i + 1)
    ensures layouts == FoundLayouts(basePath, parts, i + 1, ext, files)
  {
  }

  /** One more part: its candidate is appended when the file exists. */
  lemma FoundLayoutsStep(basePath: string, parts: seq<string>, n: nat, ext: string, files: set<string>)
    requires 1 <= n <= |parts|
    ensures var c := Candidate(basePath, PathAfter(parts, n), ext);
      FoundLayouts(basePath, parts, n, ext, files) == FoundLayouts(basePath, parts, n - 1, ext, files) + (if c in files then [c] else [])
  {
  }

  // ---------------------------------------------------------------------
  // Every candidate is a layout file, and a layout file has no layouts
  // ---------------------------------------------------------------------

  /** Leading c's are trimmed only up to the first character that is not c. */
  lemma TrimLeftKeepsSuffix(x: string, y: string, c: char)
    requires y != [] && y[0] != c
    ensures EndsWith(TrimLeft(x + y, c), y)
  {
    var s := x + y;
    var r := TrimLeft(s, c);
    assert s[|x|] == y[0];
    assert |r| >= |y|;
    assert r[|r| - |y|..] == s[|s| - |y|..];
    assert s[|s| - |y|..] == y;
  }

  /** Trimming leading dots and slashes keeps the `_layout.<ext>` at the end. */
  lemma TrimmedLayoutFile(d: string, ext: string)
    ensures EndsWith(TrimLeft(TrimLeft(d + "/_layout." + ext, '.'), '/'), "_layout." + ext)
  {
    var suffix := "_layout." + ext;
    assert d + "/_layout." + ext == (d + "/") + suffix;
    TrimLeftKeepsSuffix(d + "/", suffix, '.');
    var once := TrimLeft((d + "/") + suffix, '.');
    var front := once[..|once| - |suffix|];
    assert once == front + suffix;
    TrimLeftKeepsSuffix(front, suffix, '/');
  }

  lemma JoinedIsLayoutFileOf(basePath: string, l: string, ext: string)
    requires EndsWith(l, "_layout." + ext)
    ensures IsLayoutFileOf(basePath, basePath + "/" + l, ext)
  {
    var x := basePath + "/" + l;
    assert x == (basePath + "/") + l;
    assert x[..|basePath| + 1] == basePath + "/";
    assert x[|basePath| + 1..] == l;
  }

  lemma CandidateIsLayoutFile(basePath: string, current: string, ext: string)
    ensures IsLayoutFileOf(basePath, Candidate(basePath, current, ext), ext)
  {
    TrimmedLayoutFile(Dirname(current), ext);
    JoinedIsLayoutFileOf(basePath, LayoutFile(current, ext), ext);
  }

  /** The base path and one '/' come off again: relativePath() of `basePath/L` is L. */
  lemma RelativePathOfJoined(basePath: string, l: string)
    ensures RelativePath(basePath, basePath + "/" + l) == l
  {
    var s := basePath + "/" + l;
    assert s == basePath + ("/" + l);
    if basePath != [] {
      assert ContainsAt(s, basePath, 0);
      assert IndexOfSub(s, basePath, 0) == Some(0);
      assert s[|basePath|..] == "/" + l;
      assert ReplaceFirst(s, basePath, "") == "/" + l;
    }
    assert ("/" + l)[1..] == l;
  }

  /** A file that ends in `_layout.<ext>` is a layout, so it has no layouts of its own. */
  lemma LayoutFileHasNoLayouts(basePath: string, x: string, fw: Framework, files: set<string>)
    requires IsLayoutFileOf(basePath, x, ComponentExtension(fw))
    ensures IsLayout(RelativePath(basePath, x))
    ensures LayoutChain(basePath, x, fw, files) == []
    ensures IntendedLayoutChain(basePath, x, fw, files) == []
  {
    var ext := ComponentExtension(fw);
    var l := x[|basePath| + 1..];
    var p := l[..|l| - |"_layout." + ext|] + "_layout";
    assert l == p + "." + ext;
    assert x == basePath + "/" + l;
    RelativePathOfJoined(basePath, l);
    WithoutSuffixExtension(p, ext);
    assert EndsWith(p, "_layout");
  }

  // ---------------------------------------------------------------------
  // Root first, each ancestor directory once
  // ---------------------------------------------------------------------

  /** Parts that read as directory names: non-empty, no '/', not starting with '.', and a first part other than "0". */
  predicate Directories(parts: seq<string>)
  {
    (forall i :: 0 <= i < |parts| ==> parts[i] != [] && '/' !in parts[i] && parts[i][0] != '.')
    && (|parts| > 0 ==> parts[0] != "0")
  }

  /** The directory prefix `d0/d1/.../` (empty for the root). */
  function DirPrefix(dirs: seq<string>): (r: string)
    ensures dirs == [] <==> r == []
    ensures r != [] ==> r[|r| - 1] == '/'
  {
    if dirs == [] then [] else DirPrefix(dirs[..|dirs| - 1]) + dirs[|dirs| - 1] + "/"
  }

  /** The layout file of the directory named by dirs. */
  function LayoutIn(basePath: string, dirs: seq<string>, ext: string): string
  {
    basePath + "/" + DirPrefix(dirs) + "_layout." + ext
  }

  lemma {:induction false} DirPrefixHead(dirs: seq<string>)
    requires |dirs| >= 1 && dirs[0] != []
    ensures DirPrefix(dirs)[0] == dirs[0][0]
    decreases |dirs|
  {
    if |dirs| > 1 {
      var init := dirs[..|dirs| - 1];
      DirPrefixHead(init);
      assert DirPrefix(dirs) == DirPrefix(init) + (dirs[|dirs| - 1] + "/");
    }
  }

  /** The path after n parts is the directory prefix of the first n - 1 parts followed by part n. */
  lemma {:induction false} PathAfterDirectories(parts: seq<string>, n: nat)
    requires Directories(parts) && 1 <= n <= |parts|
    ensures PathAfter(parts, n) == DirPrefix(parts[..n - 1]) + parts[n - 1]
    decreases n
  {
    if n == 1 {
      assert parts[..0] == [];
    } else {
      PathAfterDirectories(parts, n - 1);
      var prev := PathAfter(parts, n - 1);
      var p := DirPrefix(parts[..n - 2]);
      assert prev == p + parts[n - 2];
      assert prev != "" && prev != "0" by {
        if n - 2 == 0 {
          assert parts[..0] == [];
          assert prev == parts[0];
        } else {
          assert |p| >= 1 && |parts[n - 2]| >= 1;
        }
      }
      assert parts[..n - 1][..n - 2] == parts[..n - 2];
      assert DirPrefix(parts[..n - 1]) == p + parts[n - 2] + "/";
    }
  }

  /** strrpos finds the separator that ends x when y has none. */
  lemma LastSlashAtJoin(x: string, y: string)
    requires x != [] && x[|x| - 1] == '/' && '/' !in y
    ensures LastIndexOf(x + y, '/') == Some(|x| - 1)
  {
    var s := x + y;
    assert s[|x| - 1] == '/';
    assert forall k :: |x| <= k < |s| ==> s[k] != '/' by {
      forall k | |x| <= k < |s| ensures s[k] != '/' {
        assert s[k] == y[k - |x|];
      }
    }
  }

  /** dirname() of a name with no '/' is ".". */
  lemma DirnameOfName(last: string)
    requires last != [] && '/' !in last
    ensures Dirname(last) == "."
  {
    assert last[|last| - 1] != '/';
    assert TrimRight(last, '/') == last;
  }

  /** dirname() of `p + last`, where p ends in exactly one '/' and last has none, is p without that '/'. */
  lemma DirnameAfterSlash(p: string, last: string)
    requires |p| >= 2 && p[|p| - 1] == '/' && p[|p| - 2] != '/'
    requires last != [] && '/' !in last
    ensures Dirname(p + last) == p[..|p| - 1]
  {
    var s := p + last;
    assert s[|s| - 1] == last[|last| - 1];
    assert TrimRight(s, '/') == s;
    LastSlashAtJoin(p, last);
    assert s[..|p| - 1] == p[..|p| - 1];
    var d := p[..|p| - 1];
    assert d[|d| - 1] == p[|p| - 2];
    assert TrimRight(d, '/') == d;
  }

  /** The directory prefix of at least one directory ends in exactly one '/'. */
  lemma DirPrefixEnds(dirs: seq<string>)
    requires Directories(dirs) && dirs != []
    ensures var p := DirPrefix(dirs); |p| >= 2 && p[|p| - 1] == '/' && p[|p| - 2] != '/'
  {
    var p := DirPrefix(dirs);
    var d := dirs[|dirs| - 1];
    assert d != [] && '/' !in d;
    assert p == DirPrefix(dirs[..|dirs| - 1]) + d + "/";
    assert p[|p| - 2] == d[|d| - 1];
  }

  /** A string not starting with c is left alone by ltrim. */
  lemma TrimLeftNothing(s: string, c: char)
    requires s == [] || s[0] != c
    ensures TrimLeft(s, c) == s
  {
  }

  lemma TrimLeftOne(c: char, s: string)
    requires s == [] || s[0] != c
    ensures TrimLeft([c] + s, c) == s
  {
    assert ([c] + s)[1..] == s;
  }

  /** A page at the root looks for `_layout.<ext>` at the root. */
  lemma RootLayoutFile(last: string, ext: string)
    requires last != [] && '/' !in last
    ensures LayoutFile(last, ext) == "_layout." + ext
  {
    DirnameOfName(last);
    var tail := "_layout." + ext;
    assert "." + "/_layout." + ext == ['.'] + ("/" + tail);
    TrimLeftOne('.', "/" + tail);
    TrimLeftOne('/', tail);
  }

  /** A page under the directory prefix p looks for `_layout.<ext>` in p. */
  lemma NestedLayoutFile(p: string, last: string, ext: string)
    requires |p| >= 2 && p[|p| - 1] == '/' && p[|p| - 2] != '/' && p[0] != '.' && p[0] != '/'
    requires last != [] && '/' !in last
    ensures LayoutFile(p + last, ext) == p + "_layout." + ext
  {
    DirnameAfterSlash(p, last);
    var tail := "_layout." + ext;
    assert p[..|p| - 1] + "/_layout." + ext == p + tail;
    TrimLeftNothing(p + tail, '.');
    TrimLeftNothing(p + tail, '/');
  }

  /** Below the directories dirs, the layout file looked for is the one in dirs. */
  lemma LayoutFileOfDirs(dirs: seq<string>, last: string, ext: string)
    requires Directories(dirs) && last != [] && '/' !in last
    ensures LayoutFile(DirPrefix(dirs) + last, ext) == DirPrefix(dirs) + "_layout." + ext
  {
    if dirs == [] {
      assert DirPrefix(dirs) + last == last;
      RootLayoutFile(last, ext);
    } else {
      DirPrefixEnds(dirs);
      DirPrefixHead(dirs);
      NestedLayoutFile(DirPrefix(dirs), last, ext);
    }
  }

  lemma CandidateBelow(basePath: string, current: string, dirs: seq<string>, last: string, ext: string)
    requires Directories(dirs) && last != [] && '/' !in last && current == DirPrefix(dirs) + last
    ensures Candidate(basePath, current, ext) == LayoutIn(basePath, dirs, ext)
  {
    var prefix := DirPrefix(dirs);
    assert LayoutFile(current, ext) == prefix + "_layout." + ext by {
      LayoutFileOfDirs(dirs, last, ext);
    }
    Regroup(basePath + "/", prefix, "_layout.", ext);
  }

  lemma Regroup(a: string, b: string, c: string, d: string)
    ensures a + (b + c + d) == a + b + c + d
  {
  }

  lemma DirectoriesPrefix(parts: seq<string>, k: nat)
    requires Directories(parts) && k <= |parts|
    ensures Directories(parts[..k])
  {
  }

  /** The candidate after n directory-like parts is the layout file of the first n - 1 parts. */
  lemma CandidateIsLayoutIn(basePath: string, parts: seq<string>, n: nat, ext: string)
    requires Directories(parts) && 1 <= n <= |parts|
    ensures Candidate(basePath, PathAfter(parts, n), ext) == LayoutIn(basePath, parts[..n - 1], ext)
  {
    DirectoriesPrefix(parts, n - 1);
    PathAfterDirectories(parts, n);
    CandidateBelow(basePath, PathAfter(parts, n), parts[..n - 1], parts[n - 1], ext);
  }

  /** Deeper directories have longer prefixes. */
  lemma {:induction false} DirPrefixGrows(parts: seq<string>, k: nat, m: nat)
    requires k < m <= |parts|
    ensures |DirPrefix(parts[..k])| < |DirPrefix(parts[..m])|
    decreases m
  {
    assert parts[..m][..m - 1] == parts[..m - 1];
    assert DirPrefix(parts[..m]) == DirPrefix(parts[..m - 1]) + parts[m - 1] + "/";
    if k < m - 1 {
      DirPrefixGrows(parts, k, m - 1);
    }
  }

  /** Reference definition: the existing layout files of the root and the first n - 1 directories, root first. */
  function AncestorLayouts(basePath: string, parts: seq<string>, n: nat, ext: string, files: set<string>): (r: seq<string>)
    requires n <= |parts|
  {
    if n == 0 then []
    else
      var c := LayoutIn(basePath, parts[..n - 1], ext);
      AncestorLayouts(basePath, parts, n - 1, ext, files) + (if c in files then [c] else [])
  }

  lemma AncestorLayoutsStep(basePath: string, parts: seq<string>, n: nat, ext: string, files: set<string>)
    requires 1 <= n <= |parts|
    ensures var c := LayoutIn(basePath, parts[..n - 1], ext);
      AncestorLayouts(basePath, parts, n, ext, files) == AncestorLayouts(basePath, parts, n - 1, ext, files) + (if c in files then [c] else [])
  {
  }

  /** For directory-like parts, the loop collects exactly the ancestor layouts. */
  lemma {:induction false} FoundLayoutsAreAncestors(basePath: string, parts: seq<string>, n: nat, ext: string, files: set<string>)
    requires Directories(parts) && n <= |parts|
    ensures FoundLayouts(basePath, parts, n, ext, files) == AncestorLayouts(basePath, parts, n, ext, files)
    decreases n
  {
    if n > 0 {
      var m := n - 1;
      FoundLayoutsAreAncestors(basePath, parts, m, ext, files);
      FoundLayoutsStep(basePath, parts, n, ext, files);
      CandidateIsLayoutIn(basePath, parts, n, ext);
      AncestorLayoutsStep(basePath, parts, n, ext, files);
    }
  }

  /** The ancestor layouts are exactly the existing layout files of the root and the first n - 1 directories. */
  lemma AncestorLayoutsMembers(basePath: string, parts: seq<string>, n: nat, ext: string, files: set<string>)
    requires n <= |parts|
    ensures forall x :: x in AncestorLayouts(basePath, parts, n, ext, files) <==>
      x in files && exists k :: 0 <= k < n && x == LayoutIn(basePath, parts[..k], ext)
  {
    forall x
      ensures x in AncestorLayouts(basePath, parts, n, ext, files) <==>
        x in files && exists k :: 0 <= k < n && x == LayoutIn(basePath, parts[..k], ext)
    {
      AncestorLayoutMember(basePath, parts, n, ext, files, x);
    }
  }

  lemma {:induction false} AncestorLayoutMember(basePath: string, parts: seq<string>, n: nat, ext: string, files: set<string>, x: string)
    requires n <= |parts|
    ensures x in AncestorLayouts(basePath, parts, n, ext, files) <==>
      x in files && exists k :: 0 <= k < n && x == LayoutIn(basePath, parts[..k], ext)
    decreases n
  {
    if n > 0 {
      var m := n - 1;
      var c := LayoutIn(basePath, parts[..m], ext);
      AncestorLayoutMember(basePath, parts, m, ext, files, x);
      AncestorLayoutsStep(basePath, parts, n, ext, files);
      if x in files && x != c && exists k :: 0 <= k < n && x == LayoutIn(basePath, parts[..k], ext) {
        var k :| 0 <= k < n && x == LayoutIn(basePath, parts[..k], ext);
        assert k < m;
      }
    } else {
      assert AncestorLayouts(basePath, parts, 0, ext, files) == [];
    }
  }

  /** Root first and each directory once: the paths grow strictly along the chain. */
  lemma {:induction false} AncestorLayoutsRootFirst(basePath: string, parts: seq<string>, n: nat, ext: string, files: set<string>)
    requires n <= |parts|
    ensures var r := AncestorLayouts(basePath, parts, n, ext, files);
      forall i, j :: 0 <= i < j < |r| ==> |r[i]| < |r[j]|
    decreases n
  {
    if n > 0 {
      var m := n - 1;
      var c := LayoutIn(basePath, parts[..m], ext);
      var prev := AncestorLayouts(basePath, parts, m, ext, files);
      AncestorLayoutsRootFirst(basePath, parts, m, ext, files);
      assert forall x :: x in prev ==> |x| < |c| by {
        AncestorLayoutsMembers(basePath, parts, m, ext, files);
        forall x | x in prev ensures |x| < |c| {
          var k :| 0 <= k < m && x == LayoutIn(basePath, parts[..k], ext);
          DirPrefixGrows(parts, k, m);
        }
      }
      AncestorLayoutsStep(basePath, parts, n, ext, files);
      LongerAppended(prev, c, c in files);
    } else {
      assert AncestorLayouts(basePath, parts, 0, ext, files) == [];
    }
  }

  lemma LongerAppended(prev: seq<string>, c: string, keep: bool)
    requires forall i, j :: 0 <= i < j < |prev| ==> |prev[i]| < |prev[j]|
    requires forall x :: x in prev ==> |x| < |c|
    ensures var r := prev + (if keep then [c] else []);
      forall i, j :: 0 <= i < j < |r| ==> |r[i]| < |r[j]|
  {
    var r := prev + (if keep then [c] else []);
    forall i, j | 0 <= i < j < |r| ensures |r[i]| < |r[j]| {
      assert r[i] == prev[i];
      if j < |prev| {
        assert r[j] == prev[j];
      }
    }
  }

  /** Every layout file of a directory names a `_layout.<ext>` file under the base path. */
  lemma LayoutInIsLayoutFile(basePath: string, dirs: seq<string>, ext: string)
    ensures IsLayoutFileOf(basePath, LayoutIn(basePath, dirs, ext), ext)
  {
    var l := DirPrefix(dirs) + "_layout." + ext;
    var suffix := "_layout." + ext;
    assert l == DirPrefix(dirs) + suffix;
    assert l[|l| - |suffix|..] == suffix;
    Regroup(basePath + "/", DirPrefix(dirs), "_layout.", ext);
    JoinedIsLayoutFileOf(basePath, l, ext);
  }

  lemma AncestorLayoutsAreLayoutFiles(basePath: string, parts: seq<string>, n: nat, ext: string, files: set<string>)
    requires n <= |parts|
    ensures LayoutFilesIn(AncestorLayouts(basePath, parts, n, ext, files), basePath, ext, files)
  {
    var r := AncestorLayouts(basePath, parts, n, ext, files);
    AncestorLayoutsMembers(basePath, parts, n, ext, files);
    forall i | 0 <= i < |r| ensures r[i] in files && IsLayoutFileOf(basePath, r[i], ext) {
      assert r[i] in r;
      var k :| 0 <= k < n && r[i] == LayoutIn(basePath, parts[..k], ext);
      LayoutInIsLayoutFile(basePath, parts[..k], ext);
    }
  }

  /**
   * The layout chain getLayouts() is meant to compute: no layouts for a layout file, and
   * otherwise the existing `_layout.<ext>` files of the root and of every directory above the
   * page, root first and each once, for any parts whatsoever.
   */
  function IntendedLayoutChain(basePath: string, absolutePath: string, fw: Framework, files: set<string>): (r: seq<string>)
    ensures IsLayout(RelativePath(basePath, absolutePath)) ==> r == []
    ensures var parts := PageParts(RelativePath(basePath, absolutePath));
      !IsLayout(RelativePath(basePath, absolutePath)) ==>
        forall x :: x in r <==> x in files && exists k :: 0 <= k < |parts| && x == LayoutIn(basePath, parts[..k], ComponentExtension(fw))
    ensures forall i, j :: 0 <= i < j < |r| ==> |r[i]| < |r[j]|
    ensures LayoutFilesIn(r, basePath, ComponentExtension(fw), files)
  {
    var rel := RelativePath(basePath, absolutePath);
    if IsLayout(rel) then []
    else
      var parts := PageParts(rel);
      AncestorChain(basePath, parts, ComponentExtension(fw), files);
      AncestorLayouts(basePath, parts, |parts|, ComponentExtension(fw), files)
  }

  /** The ancestor layouts of all the parts: existing ancestor layout files only, root first, each once. */
  lemma AncestorChain(basePath: string, parts: seq<string>, ext: string, files: set<string>)
    ensures var r := AncestorLayouts(basePath, parts, |parts|, ext, files);
      (forall x :: x in r <==> x in files && exists k :: 0 <= k < |parts| && x == LayoutIn(basePath, parts[..k], ext))
      && (forall i, j :: 0 <= i < j < |r| ==> |r[i]| < |r[j]|)
      && LayoutFilesIn(r, basePath, ext, files)
  {
    AncestorLayoutsMembers(basePath, parts, |parts|, ext, files);
    AncestorLayoutsRootFirst(basePath, parts, |parts|, ext, files);
    AncestorLayoutsAreLayoutFiles(basePath, parts, |parts|, ext, files);
  }

  /** getLayouts() of a page whose parts read as directories is the intended chain. */
  lemma LayoutChainOfDirectories(basePath: string, absolutePath: string, fw: Framework, files: set<string>)
    requires Directories(PageParts(RelativePath(basePath, absolutePath)))
    ensures LayoutChain(basePath, absolutePath, fw, files) == IntendedLayoutChain(basePath, absolutePath, fw, files)
    ensures var parts := PageParts(RelativePath(basePath, absolutePath));
      !IsLayout(RelativePath(basePath, absolutePath)) ==>
        LayoutChain(basePath, absolutePath, fw, files) == AncestorLayouts(basePath, parts, |parts|, ComponentExtension(fw), files)
  {
    var parts := PageParts(RelativePath(basePath, absolutePath));
    FoundLayoutsAreAncestors(basePath, parts, |parts|, ComponentExtension(fw), files);
  }

  /** Two distinct ancestors give two distinct layout files. */
  lemma AncestorLayoutsDiffer(basePath: string, parts: seq<string>, k: nat, m: nat, ext: string)
    requires k < m <= |parts|
    ensures LayoutIn(basePath, parts[..k], ext) != LayoutIn(basePath, parts[..m], ext)
  {
    DirPrefixGrows(parts, k, m);
  }

  // ---------------------------------------------------------------------
  // Parts the loop does not read as directories
  // ---------------------------------------------------------------------

  /** The root layout file, written out. */
  lemma RootCandidate(basePath: string, current: string, ext: string)
    requires current != [] && '/' !in current
    ensures Candidate(basePath, current, ext) == basePath + "/_layout." + ext
  {
    RootLayoutFile(current, ext);
    RootJoin(basePath, ext);
  }

  lemma RootJoin(basePath: string, ext: string)
    ensures basePath + "/" + ("_layout." + ext) == basePath + "/_layout." + ext
  {
  }

  lemma RootLayoutIn(basePath: string, ext: string)
    ensures LayoutIn(basePath, [], ext) == basePath + "/_layout." + ext
  {
    assert DirPrefix([]) == [];
    assert basePath + "/" + [] == basePath + "/";
  }

  /**
   * A first part "0" is empty to PHP, so no '/' is put after it: the path after `0` and
   * `name` is "0name", the root layout is looked up twice, and `0/_layout.<ext>` never.
   */
  lemma ZeroDirectoryAsWritten(basePath: string, name: string, ext: string, files: set<string>)
    requires name != [] && '/' !in name
    requires basePath + "/_layout." + ext in files
    ensures FoundLayouts(basePath, ["0", name], 2, ext, files) == [basePath + "/_layout." + ext, basePath + "/_layout." + ext]
  {
    var parts := ["0", name];
    assert PathAfter(parts, 1) == "0";
    assert PathAfter(parts, 2) == "0" + name;
    assert '/' !in "0" + name;
    RootCandidate(basePath, "0", ext);
    RootCandidate(basePath, "0" + name, ext);
    FoundLayoutsStep(basePath, parts, 2, ext, files);
    FoundLayoutsStep(basePath, parts, 1, ext, files);
  }

  /** The intended chain of the same parts: the root layout, then that of the directory `0`. */
  lemma ZeroDirectoryIntended(basePath: string, name: string, ext: string, files: set<string>)
    requires basePath + "/_layout." + ext in files && basePath + "/0/_layout." + ext in files
    ensures AncestorLayouts(basePath, ["0", name], 2, ext, files) == [basePath + "/_layout." + ext, basePath + "/0/_layout." + ext]
  {
    var parts := ["0", name];
    AncestorLayoutsStep(basePath, parts, 2, ext, files);
    AncestorLayoutsStep(basePath, parts, 1, ext, files);
    assert parts[..0] == [];
    assert parts[..1] == ["0"];
    var root := basePath + "/_layout." + ext;
    var zero := basePath + "/0/_layout." + ext;
    assert AncestorLayouts(basePath, parts, 0, ext, files) == [];
    assert LayoutIn(basePath, parts[..0], ext) == root by {
      RootLayoutIn(basePath, ext);
    }
    assert LayoutIn(basePath, parts[..1], ext) == zero by {
      OneLayoutIn(basePath, "0", ext);
      ZeroJoin(basePath, ext);
    }
    assert AncestorLayouts(basePath, parts, 1, ext, files) == [root];
  }

  lemma ZeroJoin(basePath: string, ext: string)
    ensures basePath + "/" + ("0" + "/_layout." + ext) == basePath + "/0/_layout." + ext
  {
  }

  /** The layout file of a single directory d. */
  lemma OneLayoutIn(basePath: string, d: string, ext: string)
    ensures LayoutIn(basePath, [d], ext) == basePath + "/" + (d + "/_layout." + ext)
  {
    assert [d][..0] == [];
    assert DirPrefix([d]) == d + "/";
    Regroup(basePath + "/", d + "/", "_layout.", ext);
    assert d + "/" + "_layout." + ext == d + "/_layout." + ext;
  }

  /** Below a first part `.d`, dirname() gives `.d` and the ltrim('.') takes its dot. */
  lemma DotLayoutFile(d: string, name: string, ext: string)
    requires d != [] && '/' !in d && d[0] != '.'
    requires name != [] && '/' !in name
    ensures LayoutFile("." + d + "/" + name, ext) == d + "/_layout." + ext
  {
    var p := "." + d + "/";
    assert p[|p| - 2] == d[|d| - 1];
    DirnameAfterSlash(p, name);
    assert p[..|p| - 1] == "." + d;
    var tail := d + "/_layout." + ext;
    assert "." + d + "/_layout." + ext == ['.'] + tail;
    TrimLeftOne('.', tail);
    TrimLeftNothing(tail, '/');
  }

  /**
   * A first part `.d` loses its dot to the ltrim('.') meant for the root's "./": below `.d`
   * the loop looks up `d/_layout.<ext>`, a file of another directory, and never `.d/_layout.<ext>`.
   */
  lemma DotDirectoryAsWritten(basePath: string, d: string, name: string, ext: string)
    requires d != [] && '/' !in d && d[0] != '.'
    requires name != [] && '/' !in name
    ensures Candidate(basePath, PathAfter(["." + d, name], 2), ext) == basePath + "/" + (d + "/_layout." + ext)
    ensures Candidate(basePath, PathAfter(["." + d, name], 2), ext) != LayoutIn(basePath, ["." + d], ext)
  {
    DotPathAfter(d, name);
    DotLayoutFile(d, name, ext);
    OneLayoutIn(basePath, "." + d, ext);
    JoinsDiffer(basePath, d + "/_layout." + ext, "." + d + "/_layout." + ext);
  }

  lemma DotPathAfter(d: string, name: string)
    ensures PathAfter(["." + d, name], 2) == "." + d + "/" + name
  {
    var parts := ["." + d, name];
    assert PathAfter(parts, 1) == "." + d;
    assert ("." + d)[0] == '.';
    assert Extend("." + d, name) == "." + d + "/" + name;
  }

  /** Two paths under the base path that differ in their first character differ. */
  lemma JoinsDiffer(basePath: string, x: string, y: string)
    requires x != [] && y != [] && x[0] != y[0]
    ensures basePath + "/" + x != basePath + "/" + y
  {
    assert (basePath + "/" + x)[|basePath| + 1] == x[0];
    assert (basePath + "/" + y)[|basePath| + 1] == y[0];
  }

  lemma ZeroParts(name: string)
    requires '/' !in name
    ensures Split("0/" + name, '/') == ["0", name]
  {
    var parts := ["0", name];
    assert parts[1..] == [name];
    assert Join(parts, "/") == "0/" + name;
    assert forall i :: 0 <= i < |parts| ==> '/' !in parts[i];
    SplitJoin(parts, '/');
  }

  lemma ZeroJoined(basePath: string, name: string)
    ensures basePath + "/0/" + name + ".vue" == basePath + "/" + ("0/" + name + "." + ComponentExtension(Vue))
    ensures "0/" + name == "0" + "/" + name
  {
  }

  lemma ZeroPage(basePath: string, name: string)
    requires '/' !in name && !EndsWith(name, "_layout")
    ensures PageParts(RelativePath(basePath, basePath + "/0/" + name + ".vue")) == ["0", name]
    ensures !IsLayout(RelativePath(basePath, basePath + "/0/" + name + ".vue"))
  {
    var ext := ComponentExtension(Vue);
    ZeroJoined(basePath, name);
    RelativePathOfJoined(basePath, "0/" + name + "." + ext);
    WithoutSuffixExtension("0/" + name, ext);
    ZeroParts(name);
    SlashThenName("0", name);
  }

  /**
   * `0/name.vue` with layouts at the root and in `0`: getLayouts() returns the root layout
   * twice, where the intended chain is the root layout and then `0/_layout.vue`.
   */
  lemma ZeroDirectoryPage(basePath: string, name: string, files: set<string>)
    requires name != [] && '/' !in name && !EndsWith(name, "_layout")
    requires basePath + "/_layout.vue" in files && basePath + "/0/_layout.vue" in files
    ensures LayoutChain(basePath, basePath + "/0/" + name + ".vue", Vue, files) == [basePath + "/_layout.vue", basePath + "/_layout.vue"]
    ensures IntendedLayoutChain(basePath, basePath + "/0/" + name + ".vue", Vue, files) == [basePath + "/_layout.vue", basePath + "/0/_layout.vue"]
  {
    ZeroPage(basePath, name);
    VueLayoutNames(basePath);
    ZeroDirectoryAsWritten(basePath, name, "vue", files);
    ZeroDirectoryIntended(basePath, name, "vue", files);
  }

  /** The layout file names below with the `.vue` extension written out. */
  lemma VueLayoutNames(basePath: string)
    ensures basePath + "/_layout." + "vue" == basePath + "/_layout.vue"
    ensures basePath + "/0/_layout." + "vue" == basePath + "/0/_layout.vue"
    ensures ComponentExtension(Vue) == "vue"
  {
  }

  /** A path whose last part does not end in `_layout` does not either, whatever lies before the slash. */
  lemma SlashThenName(p: string, name: string)
    requires !EndsWith(name, "_layout")
    ensures !EndsWith(p + "/" + name, "_layout")
  {
    var s := p + "/" + name;
    if |name| >= 7 {
      assert s[|s| - 7..] == name[|name| - 7..];
    } else if |s| >= 7 {
      var t := s[|s| - 7..];
      assert t[6 - |name|] == '/';
      assert '/' !in "_layout";
    }
  }

  lemma DotParts(d: string, name: string)
    requires '/' !in d && '/' !in name
    ensures Split("." + d + "/" + name, '/') == ["." + d, name]
  {
    var parts := ["." + d, name];
    assert parts[1..] == [name];
    assert Join(parts, "/") == "." + d + "/" + name;
    assert forall i :: 0 <= i < |parts| ==> '/' !in parts[i];
    SplitJoin(parts, '/');
  }

  lemma DotJoined(basePath: string, d: string, name: string)
    ensures basePath + "/." + d + "/" + name + ".vue" == basePath + "/" + ("." + d + "/" + name + "." + ComponentExtension(Vue))
  {
  }

  lemma DotPage(basePath: string, d: string, name: string)
    requires '/' !in d && '/' !in name && !EndsWith(name, "_layout")
    ensures PageParts(RelativePath(basePath, basePath + "/." + d + "/" + name + ".vue")) == ["." + d, name]
    ensures !IsLayout(RelativePath(basePath, basePath + "/." + d + "/" + name + ".vue"))
  {
    var ext := ComponentExtension(Vue);
    var p := "." + d + "/" + name;
    DotJoined(basePath, d, name);
    RelativePathOfJoined(basePath, p + "." + ext);
    WithoutSuffixExtension(p, ext);
    DotParts(d, name);
    SlashThenName("." + d, name);
  }

  lemma DotJoin(basePath: string, d: string)
    ensures basePath + "/" + (d + "/_layout." + "vue") == basePath + "/" + d + "/_layout.vue"
  {
  }

  /** Below `.d` the loop looks up the root layout, which is absent, and then `d/_layout.vue`. */
  lemma DotFound(basePath: string, d: string, name: string, files: set<string>)
    requires d != [] && '/' !in d && d[0] != '.'
    requires name != [] && '/' !in name
    requires files == {basePath + "/" + d + "/_layout.vue"}
    ensures FoundLayouts(basePath, ["." + d, name], 2, "vue", files) == [basePath + "/" + d + "/_layout.vue"]
  {
    var parts := ["." + d, name];
    assert PathAfter(parts, 1) == "." + d;
    RootCandidate(basePath, "." + d, "vue");
    VueLayoutNames(basePath);
    DotDirectoryAsWritten(basePath, d, name, "vue");
    DotJoin(basePath, d);
    assert |basePath + "/_layout.vue"| < |basePath + "/" + d + "/_layout.vue"|;
    FoundLayoutsStep(basePath, parts, 2, "vue", files);
    FoundLayoutsStep(basePath, parts, 1, "vue", files);
  }

  /** Neither the root nor `.d` has a layout, so the intended chain is empty. */
  lemma DotIntended(basePath: string, d: string, name: string, files: set<string>)
    requires d != []
    requires files == {basePath + "/" + d + "/_layout.vue"}
    ensures AncestorLayouts(basePath, ["." + d, name], 2, "vue", files) == []
  {
    var parts := ["." + d, name];
    var found := basePath + "/" + d + "/_layout.vue";
    AncestorLayoutsStep(basePath, parts, 2, "vue", files);
    AncestorLayoutsStep(basePath, parts, 1, "vue", files);
    assert parts[..0] == [] && parts[..1] == ["." + d];
    RootLayoutIn(basePath, "vue");
    OneLayoutIn(basePath, "." + d, "vue");
    assert |basePath + "/_layout." + "vue"| < |found|;
    assert |basePath + "/" + ("." + d + "/_layout." + "vue")| > |found|;
  }

  /**
   * `.d/name.vue` where only `d/_layout.vue` exists: getLayouts() returns that layout of
   * another directory, where the intended chain is empty.
   */
  lemma DotDirectoryPage(basePath: string, d: string, name: string, files: set<string>)
    requires d != [] && '/' !in d && d[0] != '.'
    requires name != [] && '/' !in name && !EndsWith(name, "_layout")
    requires files == {basePath + "/" + d + "/_layout.vue"}
    ensures LayoutChain(basePath, basePath + "/." + d + "/" + name + ".vue", Vue, files) == [basePath + "/" + d + "/_layout.vue"]
    ensures IntendedLayoutChain(basePath, basePath + "/." + d + "/" + name + ".vue", Vue, files) == []
  {
    DotPage(basePath, d, name);
    DotFound(basePath, d, name, files);
    DotIntended(basePath, d, name, files);
  }

  // ---------------------------------------------------------------------
  // `(auth)/login.vue`
  // ---------------------------------------------------------------------

  lemma LoginParts()
    ensures Split("(auth)/login", '/') == ["(auth)", "login"]
  {
    var parts := ["(auth)", "login"];
    assert parts[1..] == ["login"];
    assert Join(parts, "/") == "(auth)/login";
    assert forall i :: 0 <= i < |parts| ==> '/' !in parts[i];
    SplitJoin(parts, '/');
  }

  lemma LoginDirectories()
    ensures Directories(["(auth)", "login"])
  {
    assert '/' !in "(auth)" && '/' !in "login";
  }

  lemma LoginJoined(basePath: string)
    ensures basePath + "/(auth)/login.vue" == basePath + "/" + ("(auth)/login" + "." + ComponentExtension(Vue))
  {
  }

  lemma LoginIsPage()
    ensures !EndsWith("(auth)/login", "_layout")
  {
    assert "(auth)/login"[5] != "_layout"[0];
  }

  lemma LoginRelative(basePath: string)
    ensures PageParts(RelativePath(basePath, basePath + "/(auth)/login.vue")) == ["(auth)", "login"]
    ensures !IsLayout(RelativePath(basePath, basePath + "/(auth)/login.vue"))
  {
    var ext := ComponentExtension(Vue);
    LoginJoined(basePath);
    RelativePathOfJoined(basePath, "(auth)/login" + "." + ext);
    WithoutSuffixExtension("(auth)/login", ext);
    LoginParts();
    LoginIsPage();
  }

  lemma LoginAncestors(basePath: string, files: set<string>)
    requires basePath + "/_layout.vue" in files && basePath + "/(auth)/_layout.vue" in files
    ensures AncestorLayouts(basePath, ["(auth)", "login"], 2, "vue", files) == [basePath + "/_layout.vue", basePath + "/(auth)/_layout.vue"]
  {
    var parts := ["(auth)", "login"];
    AncestorLayoutsStep(basePath, parts, 2, "vue", files);
    AncestorLayoutsStep(basePath, parts, 1, "vue", files);
    assert AncestorLayouts(basePath, parts, 0, "vue", files) == [];
    assert parts[..0] == [];
    assert parts[..1] == ["(auth)"];
    assert DirPrefix(["(auth)"]) == "(auth)/" by { assert ["(auth)"][..0] == []; }
    assert LayoutIn(basePath, parts[..0], "vue") == basePath + "/_layout.vue";
    assert LayoutIn(basePath, parts[..1], "vue") == basePath + "/(auth)/_layout.vue";
  }

  /** With the root layout and the `(auth)` layout present, `(auth)/login.vue` gets both, root first. */
  lemma LoginLayouts(basePath: string, files: set<string>)
    requires basePath + "/_layout.vue" in files && basePath + "/(auth)/_layout.vue" in files
    ensures LayoutChain(basePath, basePath + "/(auth)/login.vue", Vue, files) == [basePath + "/_layout.vue", basePath + "/(auth)/_layout.vue"]
  {
    LoginRelative(basePath);
    LoginDirectories();
    FoundLayoutsAreAncestors(basePath, ["(auth)", "login"], 2, "vue", files);
    LoginAncestors(basePath, files);
  }
}

=== FILE: page_paths.dfy ===
/**
 * The path arithmetic of a page component (src/PageComponent.php): a page file's path
 * relative to the pages directory is turned into a Vue Router path, a React Router path,
 * a Laravel route URI, a list of route parameters, a component name and a wildcard name.
 *
 * Every regular-expression replacement of the source is written out as a left-to-right
 * scanner: at each position the scanner asks whether the pattern matches there (the
 * `...At` functions), replaces the match and resumes after it, or copies one character.
 */
module PagePaths {
  import opened Text

  /** The front-end framework chosen in the configuration. */
  datatype Framework = Vue | React

  /** componentExtension(): page files are `.tsx` for React and `.vue` otherwise. */
  function ComponentExtension(fw: Framework): (ext: string)
    ensures ext != [] && '.' !in ext && '/' !in ext
    ensures fw == React <==> ext == "tsx"
  {
    match fw
    case React => "tsx"
    case Vue => "vue"
  }

  /** relativePath(): the base path is removed once, then one leading '/'. */
  function RelativePath(basePath: string, absolutePath: string): string
  {
    ReplaceStart(ReplaceFirst(absolutePath, basePath, ""), "/", "")
  }

  /** relativePathWithoutExtension(): the final `.ext` is dropped. */
  function RelativePathWithoutExtension(rel: string): string
  {
    ReplaceEnd(rel, "." + Extension(rel), "")
  }

  /** A path ending in `.ext` loses exactly that suffix. */
  lemma WithoutSuffixExtension(p: string, ext: string)
    requires ext != [] && '.' !in ext && '/' !in ext
    ensures RelativePathWithoutExtension(p + "." + ext) == p
  {
    var e := "." + ext;
    assert p + "." + ext == p + e;
    ExtensionOfSuffix(p, ext);
    ReplaceEndOfSuffix(p, e);
  }

  /** compiledPath(): `<output>/compiled/<relative path>` with the component extension turned into `.php`. */
  function CompiledPath(outputPath: string, rel: string, fw: Framework): string
  {
    outputPath + "/compiled/" + ReplaceEnd(rel, "." + ComponentExtension(fw), ".php")
  }

  /** isIndex(): the extension-stripped path ends in `index`. */
  predicate IsIndex(rel: string)
  {
    EndsWith(RelativePathWithoutExtension(rel), "index")
  }

  /** isLayout(): the extension-stripped path ends in `_layout`. */
  predicate IsLayout(rel: string)
  {
    EndsWith(RelativePathWithoutExtension(rel), "_layout")
  }

  // ---------------------------------------------------------------------
  // Where a pattern matches
  // ---------------------------------------------------------------------

  /**
   * The lazy tail `(.*?)<close>` of a pattern, tried from index `from`: the first `close` at or
   * after `from`, provided no line break comes before it (`.` does not match a line break).
   */
  function LazyClose(s: string, close: char, from: nat): (r: Option<nat>)
    requires close != '\n'
    ensures r.Some? ==> from <= r.value < |s| && s[r.value] == close
    ensures r.Some? ==> forall k :: from <= k < r.value ==> s[k] != close && s[k] != '\n'
    ensures r.None? ==> forall j :: from <= j < |s| && s[j] == close ==> exists k :: from <= k < j && s[k] == '\n'
    decreases |s| - from
  {
    if from >= |s| then None
    else if s[from] == close then Some(from)
    else if s[from] == '\n' then None
    else LazyClose(s, close, from + 1)
  }

  /** `\(([^)]+)\)` at index 0: the index of the closing ')' of a group with a non-empty name. */
  function GroupAt(s: string): (r: Option<nat>)
    ensures r.Some? ==> 2 <= r.value < |s| && s[0] == '(' && s[r.value] == ')'
    ensures r.Some? ==> forall k :: 1 <= k < r.value ==> s[k] != ')'
    ensures r.None? ==> forall j :: 2 <= j < |s| && s[0] == '(' && s[j] == ')' ==> exists k :: 1 <= k < j && s[k] == ')'
  {
    if s != [] && s[0] == '(' then
      match IndexOf(s, ')', 1)
      case Some(j) => if j >= 2 then Some(j) else None
      case None => None
    else None
  }

  /** s starts with `open` followed by three dots. */
  predicate OpensWithDots(s: string, open: char)
  {
    |s| >= 4 && s[0] == open && s[1] == '.' && s[2] == '.' && s[3] == '.'
  }

  /** `\[(\.\.\.(.*?))\]` at index 0: the index of the ']' closing a catch-all `[...x]`. */
  function CatchAllAt(s: string): (r: Option<nat>)
    ensures r.Some? ==> OpensWithDots(s, '[') && 4 <= r.value < |s| && s[r.value] == ']'
    ensures r.Some? ==> forall k :: 4 <= k < r.value ==> s[k] != ']' && s[k] != '\n'
    ensures !OpensWithDots(s, '[') ==> r.None?
  {
    if OpensWithDots(s, '[') then LazyClose(s, ']', 4) else None
  }

  /** `\[((.*?))\]` at index 0: the index of the ']' closing a parameter `[x]` (x may be empty). */
  function DynamicAt(s: string): (r: Option<nat>)
    ensures r.Some? ==> 1 <= r.value < |s| && s[0] == '[' && s[r.value] == ']'
    ensures r.Some? ==> forall k :: 1 <= k < r.value ==> s[k] != ']' && s[k] != '\n'
    ensures s == [] || s[0] != '[' ==> r.None?
  {
    if s != [] && s[0] == '[' then LazyClose(s, ']', 1) else None
  }

  /** `\{(.*?)\}` at index 0. */
  function BraceAt(s: string): (r: Option<nat>)
    ensures r.Some? ==> 1 <= r.value < |s| && s[0] == '{' && s[r.value] == '}'
    ensures r.Some? ==> forall k :: 1 <= k < r.value ==> s[k] != '}' && s[k] != '\n'
    ensures s == [] || s[0] != '{' ==> r.None?
  {
    if s != [] && s[0] == '{' then LazyClose(s, '}', 1) else None
  }

  /** `\{\.\.\.(.*?)\}` at index 0. */
  function BraceCatchAllAt(s: string): (r: Option<nat>)
    ensures r.Some? ==> OpensWithDots(s, '{') && 4 <= r.value < |s| && s[r.value] == '}'
    ensures r.Some? ==> forall k :: 4 <= k < r.value ==> s[k] != '}' && s[k] != '\n'
    ensures !OpensWithDots(s, '{') ==> r.None?
  {
    if OpensWithDots(s, '{') then LazyClose(s, '}', 4) else None
  }

  /** `\[([^\]]+)\]` at index 0: the ']' closing a non-empty bracket group (line breaks allowed). */
  function BracketAt(s: string): (r: Option<nat>)
    ensures r.Some? ==> 2 <= r.value < |s| && s[0] == '[' && s[r.value] == ']'
    ensures r.Some? ==> forall k :: 1 <= k < r.value ==> s[k] != ']'
    ensures s == [] || s[0] != '[' ==> r.None?
  {
    if s != [] && s[0] == '[' then
      match IndexOf(s, ']', 1)
      case Some(j) => if j >= 2 then Some(j) else None
      case None => None
    else None
  }

  /**
   * `\[([^)]+)\]` at index 0: `[^)]+` is greedy, so the match ends at the LAST ']' that comes
   * before the first ')' (and leaves at least one character between the brackets).
   */
  function GreedyParamAt(s: string): (r: Option<nat>)
    ensures r.Some? ==> 2 <= r.value < |s| && s[0] == '[' && s[r.value] == ']'
    ensures r.Some? ==> forall k :: 1 <= k < r.value ==> s[k] != ')'
    ensures r.Some? ==> forall k :: r.value < k < |s| && s[k] == ']' ==> exists q :: 1 <= q < k && s[q] == ')'
    ensures s == [] || s[0] != '[' ==> r.None?
  {
    if s != [] && s[0] == '[' then
      var stop := match IndexOf(s, ')', 1) case Some(q) => q case None => |s|;
      match LastIndexOf(s[..stop], ']')
      case Some(j) => if j >= 2 then Some(j) else None
      case None => None
    else None
  }

  // ---------------------------------------------------------------------
  // Scanners (preg_replace with a pattern or a callback, left to right)
  // ---------------------------------------------------------------------

  /** replaceMatches('/\(([^)]+)\)/', ''): every route group `(x)` is deleted; the '/' after it stays. */
  function StripGroups(s: string): (r: string)
    ensures |r| <= |s|
    decreases |s|
  {
    if s == [] then []
    else match GroupAt(s)
      case Some(j) => StripGroups(s[j + 1..])
      case None => [s[0]] + StripGroups(s[1..])
  }

  /** What a catch-all `[...x]` becomes in the client router; `inner` is the captured `...x`. */
  function CatchAllRoute(fw: Framework, inner: string): string
  {
    match fw
    case Vue => ":" + Camel(inner) + "(.*)*"
    case React => "*"
  }

  /** replaceMatches('/\[(\.\.\.(.*?))\]/', callback): every catch-all is rewritten for the router. */
  function RewriteCatchAlls(s: string, fw: Framework): (r: string)
    decreases |s|
  {
    if s == [] then []
    else match CatchAllAt(s)
      case Some(j) => CatchAllRoute(fw, s[1..j]) + RewriteCatchAlls(s[j + 1..], fw)
      case None => [s[0]] + RewriteCatchAlls(s[1..], fw)
  }

  /** replaceMatches('/\[((.*?))\]/', callback): every `[x]` becomes `:` + camel(x). */
  function RewriteDynamics(s: string): (r: string)
    decreases |s|
  {
    if s == [] then []
    else match DynamicAt(s)
      case Some(j) => ":" + Camel(s[1..j]) + RewriteDynamics(s[j + 1..])
      case None => [s[0]] + RewriteDynamics(s[1..])
  }

  /** replaceMatches('/(\{(.*?)\})/', callback): the text inside every `{...}` is trimmed of braces and camel-cased. */
  function CamelBraces(s: string): (r: string)
    decreases |s|
  {
    if s == [] then []
    else match BraceAt(s)
      case Some(j) => "{" + Camel(Trim(Trim(s[..j + 1], '{'), '}')) + "}" + CamelBraces(s[j + 1..])
      case None => [s[0]] + CamelBraces(s[1..])
  }

  /** replaceMatches('/(\{\.\.\.(.*?)\})/', callback): every `{...x}` becomes the optional parameter `{x?}`. */
  function OptionalCatchAlls(s: string): (r: string)
    decreases |s|
  {
    if s == [] then []
    else match BraceCatchAllAt(s)
      case Some(j) => "{" + Trim(Trim(ReplaceAll(s[..j + 1], "...", ""), '{'), '}') + "?}" + OptionalCatchAlls(s[j + 1..])
      case None => [s[0]] + OptionalCatchAlls(s[1..])
  }

  /** The common tail of all three formatters: runs of '/' collapse to one, and "" becomes "/". */
  function Finish(s: string): (r: string)
    ensures r != [] && !HasDoubleSlash(r)
    ensures s != [] ==> r == CollapseSlashes(s)
    ensures s == [] ==> r == "/"
  {
    var c := CollapseSlashes(s);
    if c == [] then "/" else c
  }

  // ---------------------------------------------------------------------
  // The three route formats
  // ---------------------------------------------------------------------

  /** The client-router text of the path before its trailing `_layout`/`index` is dropped. */
  function RouterTokens(p: string, fw: Framework): string
  {
    ReplaceAll(RewriteDynamics(RewriteCatchAlls(StripGroups(p), fw)), "...", "")
  }

  /** vueRouteFormattedPath() / reactRouteFormattedPath() of the page at relative path rel. */
  function RouterPath(rel: string, fw: Framework): (r: string)
    ensures r != [] && !HasDoubleSlash(r)
  {
    var tokens := RouterTokens(RelativePathWithoutExtension(rel), fw);
    Finish(ReplaceEnd(ReplaceEnd(tokens, "_layout", ""), "index", ""))
  }

  function VueRouteFormattedPath(rel: string): (r: string)
    ensures r != [] && !HasDoubleSlash(r)
  {
    RouterPath(rel, Vue)
  }

  function ReactRouteFormattedPath(rel: string): (r: string)
    ensures r != [] && !HasDoubleSlash(r)
  {
    RouterPath(rel, React)
  }

  /** Square brackets become braces, and a trailing `index` is dropped. */
  function BracesWithoutIndex(p: string): string
  {
    ReplaceEnd(ReplaceAll(ReplaceAll(p, "[", "{"), "]", "}"), "index", "")
  }

  /** laravelFormattedRoutePath(): the Laravel route URI of the page at relative path rel. */
  function LaravelFormattedRoutePath(rel: string): (r: string)
    ensures r != [] && !HasDoubleSlash(r)
  {
    var p := BracesWithoutIndex(RelativePathWithoutExtension(rel));
    Finish(OptionalCatchAlls(CamelBraces(StripGroups(p))))
  }

  // ---------------------------------------------------------------------
  // Parameters, wildcard and component name
  // ---------------------------------------------------------------------

  /** matchAll('/\[([^\]]+)\]/'): the text inside every non-empty bracket group, in order. */
  function BracketGroups(s: string): (groups: seq<string>)
    ensures forall i :: 0 <= i < |groups| ==> groups[i] != [] && ']' !in groups[i]
    decreases |s|
  {
    if s == [] then []
    else match BracketAt(s)
      case Some(j) => [s[1..j]] + BracketGroups(s[j + 1..])
      case None => BracketGroups(s[1..])
  }

  /** Each captured name with `...` removed, camel-cased. */
  function ParameterNames(groups: seq<string>): (names: seq<string>)
    ensures |names| == |groups|
  {
    if groups == [] then [] else [Camel(ReplaceAll(groups[0], "...", ""))] + ParameterNames(groups[1..])
  }

  /** parseRouteParameters(): the route parameters named by the path. */
  function ParseRouteParameters(rel: string): seq<string>
  {
    ParameterNames(BracketGroups(rel))
  }

  /** getWildcardName(): the raw name of the first catch-all `[...x]`, or none. */
  function WildcardName(rel: string): (r: Option<string>)
    decreases |rel|
  {
    if rel == [] then None
    else match CatchAllAt(rel)
      case Some(j) => Some(rel[4..j])
      case None => WildcardName(rel[1..])
  }

  /** Str::match: group 1 of the leftmost match found by `at`, or "" when nothing matches. */
  function FirstGroupMatch(s: string, greedyParam: bool): string
    decreases |s|
  {
    if s == [] then []
    else
      var m := if greedyParam then GreedyParamAt(s) else GroupAt(s);
      match m
      case Some(j) => s[1..j]
      case None => FirstGroupMatch(s[1..], greedyParam)
  }

  /** The name piece contributed by one path segment. */
  function SegmentComponentName(part: string): string
  {
    if StartsWith(part, "(") then Pascal(ReplaceAll(FirstGroupMatch(part, false), "...", "")) + "Group"
    else if StartsWith(part, "[") then Pascal(ReplaceAll(FirstGroupMatch(part, true), "...", "")) + "Param"
    else if EndsWith(part, "_layout") then "Layout"
    else Pascal(part)
  }

  /** One name piece per part, each with `.ext` removed first. */
  function ComponentNamePieces(parts: seq<string>, ext: string): (pieces: seq<string>)
    ensures |pieces| == |parts|
  {
    if parts == [] then []
    else [SegmentComponentName(ReplaceAll(parts[0], "." + ext, ""))] + ComponentNamePieces(parts[1..], ext)
  }

  /** componentNameFromPath(): the generated class / component name of a page. */
  function ComponentNameFromPath(rel: string): string
  {
    var ext := Extension(rel);
    var parts := Split(ReplaceEnd(rel, "." + ext, ""), '/');
    Concat(ComponentNamePieces(parts, ext))
  }
}

=== FILE: path_examples.dfy ===
/**
 * The route formats, parameters, wildcard names and component names of concrete page files,
 * derived from the general theorems of PathSegments and PathParams. The paths are the ones
 * tests/Integration/PageComponentTest.php checks (lines 68-108).
 */
module PathExamples {
  import opened Text
  import opened PagePaths
  import opened PathSegments
  import opened PathParams

  const Index: seq<Segment> := [Static("index")]
  const Login: seq<Segment> := [Group("auth"), Static("login")]
  const Blog: seq<Segment> := [Static("blog"), CatchAll("slug")]
  const Posts: seq<Segment> := [Static("posts"), Dynamic("id")]
  const UserEdit: seq<Segment> := [Static("users"), Dynamic("user"), Static("edit")]

  // ---------------------------------------------------------------------
  // From segments to the three formats
  // ---------------------------------------------------------------------

  lemma RouterExample(segs: seq<Segment>, ext: string, fw: Framework, file: string, tokens: string, out: string)
    requires AllWellFormed(segs) && IsExtension(ext)
    requires file == Render(segs, File) + "." + ext
    requires tokens == Render(segs, RouterDone(fw))
    requires out == Finish(ReplaceEnd(ReplaceEnd(tokens, "_layout", ""), "index", ""))
    ensures RouterPath(file, fw) == out
  {
    RouterPathOfSegments(segs, ext, fw);
  }

  lemma LaravelExample(segs: seq<Segment>, ext: string, file: string, tokens: string, out: string)
    requires AllWellFormed(segs) && IsExtension(ext)
    requires file == Render(segs, File) + "." + ext
    requires tokens == Render(DropIndex(segs), LaravelDone)
    requires out == Finish(tokens)
    ensures LaravelFormattedRoutePath(file) == out
  {
    LaravelPathOfSegments(segs, ext);
  }

  /** A router path that ends in neither `_layout` nor `index` keeps its text. */
  lemma NoRouteSuffix(s: string)
    requires |s| >= 2 && (s[|s| - 1] != 't' || s[|s| - 2] != 'u') && s[|s| - 1] != 'x'
    ensures ReplaceEnd(ReplaceEnd(s, "_layout", ""), "index", "") == s
  {
    assert !EndsWith(s, "_layout") by {
      if |s| >= 7 {
        assert s[|s| - 7..][6] == s[|s| - 1];
        assert s[|s| - 7..][5] == s[|s| - 2];
      }
    }
    assert !EndsWith(s, "index") by {
      if |s| >= 5 {
        assert s[|s| - 5..][4] == s[|s| - 1];
      }
    }
  }

  lemma VueIsExtension()
    ensures IsExtension("vue")
  {
    assert forall i :: 0 <= i < 3 ==> PlainChar("vue"[i]);
  }

  lemma PlainWord(t: string)
    requires forall i :: 0 <= i < |t| ==> 'a' <= t[i] <= 'z'
    ensures Plain(t) && NoWordSeparators(t) && StudlyFrom(t, false) == t
  {
    forall i | 0 <= i < |t| ensures PlainChar(t[i]) && !IsWordSeparator(t[i]) {
      assert 'a' <= t[i] <= 'z';
    }
    StudlyKeepsPlainWord(t);
  }

  /** A lower-case word is its own camel form. */
  lemma CamelWord(t: string)
    requires |t| > 0 && forall i :: 0 <= i < |t| ==> 'a' <= t[i] <= 'z'
    ensures Camel(t) == t
  {
    PascalWord(t);
    assert ToLower(ToUpper(t[0])) == t[0];
    assert [t[0]] + t[1..] == t;
  }

  /** A lower-case word's Pascal form upper-cases its first letter. */
  lemma PascalWord(t: string)
    requires |t| > 0 && forall i :: 0 <= i < |t| ==> 'a' <= t[i] <= 'z'
    ensures Pascal(t) == [ToUpper(t[0])] + t[1..]
  {
    assert !IsWordSeparator(t[0]);
    assert StudlyFrom(t, true) == [ToUpper(t[0])] + StudlyFrom(t[1..], false);
    PlainWord(t[1..]);
  }

  lemma TwoSegments(a: Segment, b: Segment, stage: Stage)
    ensures Render([a, b], stage) == SegmentText(a, stage) + "/" + SegmentText(b, stage)
  {
    RenderCons([a, b], stage);
    RenderOne([b], stage);
    assert [a, b][1..] == [b];
  }

  lemma ThreeSegments(a: Segment, b: Segment, c: Segment, stage: Stage)
    ensures Render([a, b, c], stage) == SegmentText(a, stage) + "/" + SegmentText(b, stage) + "/" + SegmentText(c, stage)
  {
    var tail := [a, b, c][1..];
    assert tail == [b, c];
    RenderCons([a, b, c], stage);
    TwoSegments(b, c, stage);
    SlashRegroup(SegmentText(a, stage), SegmentText(b, stage), SegmentText(c, stage));
  }

  lemma SlashRegroup(x: string, y: string, z: string)
    ensures x + ("/" + (y + "/" + z)) == x + "/" + y + "/" + z
  {
  }

  // ---------------------------------------------------------------------
  // `index.vue`
  // ---------------------------------------------------------------------

  lemma IndexFile()
    ensures AllWellFormed(Index) && Render(Index, File) + "." + "vue" == "index.vue"
  {
    assert Plain("index");
    RenderOne(Index, File);
    IndexDotVue();
  }

  lemma IndexDotVue()
    ensures "index" + "." + "vue" == "index.vue"
  {
  }

  lemma IndexTokens()
    ensures Render(Index, RouterDone(Vue)) == "index" && Render(Index, RouterDone(React)) == "index"
    ensures Finish(ReplaceEnd(ReplaceEnd("index", "_layout", ""), "index", "")) == "/"
  {
    RenderOne(Index, RouterDone(Vue));
    RenderOne(Index, RouterDone(React));
    assert !EndsWith("index", "_layout");
    assert ReplaceEnd("index", "index", "") == "";
  }

  lemma IndexLaravelTokens()
    ensures Render(DropIndex(Index), LaravelDone) == ""
  {
    assert DropIndex(Index) == [Static("")];
    RenderOne([Static("")], LaravelDone);
  }

  /** `index.vue` routes to "/" in all three formats. */
  lemma IndexRoutes()
    ensures VueRouteFormattedPath("index.vue") == "/"
    ensures ReactRouteFormattedPath("index.vue") == "/"
    ensures LaravelFormattedRoutePath("index.vue") == "/"
  {
    IndexFile();
    IndexTokens();
    IndexLaravelTokens();
    VueIsExtension();
    RouterExample(Index, "vue", Vue, "index.vue", "index", "/");
    RouterExample(Index, "vue", React, "index.vue", "index", "/");
    LaravelExample(Index, "vue", "index.vue", "", "/");
  }

  // ---------------------------------------------------------------------
  // `(auth)/login.vue`
  // ---------------------------------------------------------------------

  lemma LoginWellFormed()
    ensures AllWellFormed(Login)
  {
    assert WellFormed(Group("auth")) by {
      assert IsName("auth");
    }
    assert WellFormed(Static("login")) by {
      assert Plain("login");
    }
    TwoWellFormed(Group("auth"), Static("login"));
  }

  lemma LoginFile()
    ensures Render(Login, File) + "." + "vue" == "(auth)/login.vue"
  {
    assert SegmentText(Group("auth"), File) == "(auth)" && SegmentText(Static("login"), File) == "login";
    TwoSegments(Group("auth"), Static("login"), File);
    assert "(auth)" + "/" + "login" + "." + "vue" == "(auth)/login.vue" by {
      LoginFileText();
    }
  }

  lemma LoginFileText()
    ensures "(auth)" + "/" + "login" + "." + "vue" == "(auth)/login.vue"
  {
  }

  lemma LoginTokens()
    ensures Render(Login, RouterDone(Vue)) == "/login" && Render(Login, RouterDone(React)) == "/login"
  {
    TwoSegments(Group("auth"), Static("login"), RouterDone(Vue));
    TwoSegments(Group("auth"), Static("login"), RouterDone(React));
  }

  lemma LoginLaravelTokens()
    ensures Render(DropIndex(Login), LaravelDone) == "/login"
  {
    assert !EndsWith("login", "index");
    assert DropIndex(Login) == Login;
    TwoSegments(Group("auth"), Static("login"), LaravelDone);
  }

  lemma SlashLoginFinish()
    ensures Finish("/login") == "/login"
  {
    assert '/' !in "login";
    NoSlashNoDoubleSlash("login");
    NoDoubleSlashCons('/', "login");
    assert "/login" == ['/'] + "login";
    CollapseSlashesFixed("/login");
  }

  /**
   * `(auth)/login.vue` formats to "/login" in all three formats: the group is removed but the
   * '/' after it is kept, and the collapse leaves that single leading '/'.
   */
  lemma GroupedLoginRoutes()
    ensures VueRouteFormattedPath("(auth)/login.vue") == "/login"
    ensures ReactRouteFormattedPath("(auth)/login.vue") == "/login"
    ensures LaravelFormattedRoutePath("(auth)/login.vue") == "/login"
  {
    LoginWellFormed();
    LoginFile();
    LoginTokens();
    LoginLaravelTokens();
    VueIsExtension();
    NoRouteSuffix("/login");
    SlashLoginFinish();
    RouterExample(Login, "vue", Vue, "(auth)/login.vue", "/login", "/login");
    RouterExample(Login, "vue", React, "(auth)/login.vue", "/login", "/login");
    LaravelExample(Login, "vue", "(auth)/login.vue", "/login", "/login");
  }

  // ---------------------------------------------------------------------
  // `blog/[...slug].vue`
  // ---------------------------------------------------------------------

  lemma BlogWellFormed()
    ensures AllWellFormed(Blog)
  {
    PlainWord("blog");
    SlugName();
    TwoWellFormed(Static("blog"), CatchAll("slug"));
  }

  lemma SlugName()
    ensures IsName("slug") && StudlyFrom("slug", false) == "slug"
  {
    PlainWord("slug");
  }

  lemma SlugVue()
    ensures RouterSegment(CatchAll("slug"), Vue) == ":slug(.*)*"
  {
    SlugName();
  }

  lemma BlogFile()
    ensures Render(Blog, File) + "." + "vue" == "blog/[...slug].vue"
  {
    assert SegmentText(Static("blog"), File) == "blog" && SegmentText(CatchAll("slug"), File) == "[...slug]";
    TwoSegments(Static("blog"), CatchAll("slug"), File);
    BlogFileText();
  }

  lemma BlogFileText()
    ensures "blog" + "/" + "[...slug]" + "." + "vue" == "blog/[...slug].vue"
  {
  }

  lemma BlogVueTokens()
    ensures Render(Blog, RouterDone(Vue)) == "blog/:slug(.*)*"
  {
    assert SegmentText(CatchAll("slug"), RouterDone(Vue)) == ":slug(.*)*" by {
      SlugVue();
    }
    assert SegmentText(Static("blog"), RouterDone(Vue)) == "blog";
    TwoSegments(Static("blog"), CatchAll("slug"), RouterDone(Vue));
    BlogVueText();
  }

  lemma BlogVueText()
    ensures "blog" + "/" + ":slug(.*)*" == "blog/:slug(.*)*"
  {
  }

  lemma BlogVueSlashFree()
    ensures SlashFree(Blog, RouterDone(Vue))
  {
    SlugVue();
    TwoSlashFree(Static("blog"), CatchAll("slug"), RouterDone(Vue));
  }

  lemma BlogReactTokens()
    ensures Render(Blog, RouterDone(React)) == "blog/*" && SlashFree(Blog, RouterDone(React))
  {
    TwoSegments(Static("blog"), CatchAll("slug"), RouterDone(React));
  }

  lemma SlugLaravel()
    ensures LaravelSegment(CatchAll("slug")) == "{slug?}"
  {
    SlugName();
  }

  lemma BlogLaravelTokens()
    ensures DropIndex(Blog) == Blog && Render(Blog, LaravelDone) == "blog/{slug?}"
  {
    assert SegmentText(CatchAll("slug"), LaravelDone) == "{slug?}" by {
      SlugLaravel();
    }
    assert SegmentText(Static("blog"), LaravelDone) == "blog";
    TwoSegments(Static("blog"), CatchAll("slug"), LaravelDone);
    BlogLaravelText();
  }

  lemma BlogLaravelText()
    ensures "blog" + "/" + "{slug?}" == "blog/{slug?}"
  {
  }

  lemma BlogLaravelSlashFree()
    ensures SlashFree(Blog, LaravelDone)
  {
    SlugLaravel();
    TwoSlashFree(Static("blog"), CatchAll("slug"), LaravelDone);
  }

  lemma BlogRoutes()
    ensures VueRouteFormattedPath("blog/[...slug].vue") == "blog/:slug(.*)*"
    ensures ReactRouteFormattedPath("blog/[...slug].vue") == "blog/*"
    ensures LaravelFormattedRoutePath("blog/[...slug].vue") == "blog/{slug?}"
  {
    BlogWellFormed();
    BlogFile();
    BlogVueTokens();
    BlogVueSlashFree();
    BlogReactTokens();
    BlogLaravelTokens();
    BlogLaravelSlashFree();
    VueIsExtension();
    NoRouteSuffix("blog/:slug(.*)*");
    NoRouteSuffix("blog/*");
    FinishOfSlashFree(Blog, RouterDone(Vue));
    FinishOfSlashFree(Blog, RouterDone(React));
    FinishOfSlashFree(Blog, LaravelDone);
    RouterExample(Blog, "vue", Vue, "blog/[...slug].vue", "blog/:slug(.*)*", "blog/:slug(.*)*");
    RouterExample(Blog, "vue", React, "blog/[...slug].vue", "blog/*", "blog/*");
    LaravelExample(Blog, "vue", "blog/[...slug].vue", "blog/{slug?}", "blog/{slug?}");
  }

  lemma BlogParameters()
    ensures Parameters(Blog) == ["slug"] && FirstCatchAll(Blog) == Some("slug")
  {
    CamelWord("slug");
    assert Blog[1..] == [CatchAll("slug")];
  }

  lemma BlogNamePieces()
    ensures NoCatchAllStartsWith(Blog, "vue") && Concat(NamePieces(Blog)) == "BlogSlugParam"
  {
    assert NoCatchAllStartsWith(Blog, "vue") by {
      assert !StartsWith("slug", "vue") by { assert "slug"[0] != "vue"[0]; }
    }
    assert NamePiece(Static("blog")) == "Blog" && NamePiece(CatchAll("slug")) == "Slug" + "Param" by {
      assert !EndsWith("blog", "_layout");
      BlogPascal();
    }
    TwoPieces(Static("blog"), CatchAll("slug"));
    BlogNameText();
  }

  lemma BlogNameText()
    ensures "Blog" + ("Slug" + "Param") == "BlogSlugParam"
  {
  }

  lemma TwoPieces(a: Segment, b: Segment)
    ensures Concat(NamePieces([a, b])) == NamePiece(a) + NamePiece(b)
  {
    assert [a, b][1..] == [b];
    assert [b][1..] == [];
    assert NamePieces([a, b]) == [NamePiece(a), NamePiece(b)];
    assert [NamePiece(a), NamePiece(b)][1..] == [NamePiece(b)];
    assert Concat([NamePiece(b)]) == NamePiece(b) + [];
  }

  lemma BlogPascal()
    ensures Pascal("blog") == "Blog" && Pascal("slug") == "Slug"
  {
    PascalWord("blog");
    PascalWord("slug");
  }

  /** The catch-all is the only route parameter and the wildcard; the component is `BlogSlugParam`. */
  lemma BlogNames()
    ensures ParseRouteParameters("blog/[...slug].vue") == ["slug"]
    ensures WildcardName("blog/[...slug].vue") == Some("slug")
    ensures ComponentNameFromPath("blog/[...slug].vue") == "BlogSlugParam"
  {
    BlogWellFormed();
    BlogFile();
    BlogParameters();
    BlogNamePieces();
    VueIsExtension();
    RouteParametersOfSegments(Blog, "vue");
    WildcardNameOfSegments(Blog, "vue");
    ComponentNameOfSegments(Blog, "vue");
  }

  // ---------------------------------------------------------------------
  // `posts/[id].vue`
  // ---------------------------------------------------------------------

  lemma PostsWellFormed()
    ensures AllWellFormed(Posts)
  {
    PostsPlain();
    IdName();
    TwoWellFormed(Static("posts"), Dynamic("id"));
  }

  lemma PostsPlain() ensures Plain("posts") { PlainWord("posts"); }

  lemma IdName() ensures IsName("id") { PlainWord("id"); }

  lemma PostsFile()
    ensures Render(Posts, File) + "." + "vue" == "posts/[id].vue"
  {
    assert SegmentText(Static("posts"), File) == "posts" && SegmentText(Dynamic("id"), File) == "[id]";
    TwoSegments(Static("posts"), Dynamic("id"), File);
    PostsFileText();
  }

  lemma PostsFileText()
    ensures "posts" + "/" + "[id]" + "." + "vue" == "posts/[id].vue"
  {
  }

  lemma PostsTokens()
    ensures Render(Posts, RouterDone(Vue)) == "posts/:id" && Render(Posts, RouterDone(React)) == "posts/:id"
    ensures SlashFree(Posts, RouterDone(Vue))
  {
    CamelWord("id");
    TwoSegments(Static("posts"), Dynamic("id"), RouterDone(Vue));
    TwoSegments(Static("posts"), Dynamic("id"), RouterDone(React));
  }

  lemma PostsLaravelTokens()
    ensures DropIndex(Posts) == Posts && Render(Posts, LaravelDone) == "posts/{id}" && SlashFree(Posts, LaravelDone)
  {
    CamelWord("id");
    TwoSegments(Static("posts"), Dynamic("id"), LaravelDone);
  }

  lemma PostsRoutes()
    ensures VueRouteFormattedPath("posts/[id].vue") == "posts/:id"
    ensures ReactRouteFormattedPath("posts/[id].vue") == "posts/:id"
    ensures LaravelFormattedRoutePath("posts/[id].vue") == "posts/{id}"
  {
    PostsWellFormed();
    PostsFile();
    PostsTokens();
    PostsLaravelTokens();
    VueIsExtension();
    NoRouteSuffix("posts/:id");
    FinishOfSlashFree(Posts, RouterDone(Vue));
    FinishOfSlashFree(Posts, LaravelDone);
    RouterExample(Posts, "vue", Vue, "posts/[id].vue", "posts/:id", "posts/:id");
    RouterExample(Posts, "vue", React, "posts/[id].vue", "posts/:id", "posts/:id");
    LaravelExample(Posts, "vue", "posts/[id].vue", "posts/{id}", "posts/{id}");
  }

  // ---------------------------------------------------------------------
  // `users/[user]/edit.vue`
  // ---------------------------------------------------------------------

  lemma UserEditWellFormed()
    ensures AllWellFormed(UserEdit)
  {
    UsersPlain();
    UserName();
    EditPlain();
    ThreeWellFormed(Static("users"), Dynamic("user"), Static("edit"));
  }

  lemma UsersPlain() ensures Plain("users") { PlainWord("users"); }

  lemma UserName() ensures IsName("user") && Camel("user") == "user" { PlainWord("user"); CamelWord("user"); }

  lemma EditPlain() ensures Plain("edit") { PlainWord("edit"); }

  lemma ThreeWellFormed(a: Segment, b: Segment, c: Segment)
    requires WellFormed(a) && WellFormed(b) && WellFormed(c)
    ensures AllWellFormed([a, b, c])
  {
  }

  lemma TwoWellFormed(a: Segment, b: Segment)
    requires WellFormed(a) && WellFormed(b)
    ensures AllWellFormed([a, b])
  {
  }

  /** Non-empty segment texts without '/' make a list free of empty and slashed pieces. */
  lemma TwoSlashFree(a: Segment, b: Segment, stage: Stage)
    requires SegmentText(a, stage) != [] && '/' !in SegmentText(a, stage)
    requires SegmentText(b, stage) != [] && '/' !in SegmentText(b, stage)
    ensures SlashFree([a, b], stage)
  {
  }

  lemma ThreeSlashFree(a: Segment, b: Segment, c: Segment, stage: Stage)
    requires SegmentText(a, stage) != [] && '/' !in SegmentText(a, stage)
    requires SegmentText(b, stage) != [] && '/' !in SegmentText(b, stage)
    requires SegmentText(c, stage) != [] && '/' !in SegmentText(c, stage)
    ensures SlashFree([a, b, c], stage)
  {
  }

  lemma UserEditFile()
    ensures Render(UserEdit, File) + "." + "vue" == "users/[user]/edit.vue"
  {
    assert SegmentText(Dynamic("user"), File) == "[user]";
    assert SegmentText(Static("users"), File) == "users" && SegmentText(Static("edit"), File) == "edit";
    ThreeSegments(Static("users"), Dynamic("user"), Static("edit"), File);
    UserEditFileText();
  }

  lemma UserEditFileText()
    ensures "users" + "/" + "[user]" + "/" + "edit" + "." + "vue" == "users/[user]/edit.vue"
  {
  }

  lemma UserRouter(fw: Framework)
    ensures RouterSegment(Dynamic("user"), fw) == ":user"
  {
    UserName();
  }

  lemma UserLaravel()
    ensures LaravelSegment(Dynamic("user")) == "{user}"
  {
    UserName();
  }

  lemma UserEditTokens(fw: Framework)
    ensures Render(UserEdit, RouterDone(fw)) == "users/:user/edit"
  {
    var stage := RouterDone(fw);
    assert SegmentText(Dynamic("user"), stage) == ":user" by {
      UserRouter(fw);
    }
    assert SegmentText(Static("users"), stage) == "users" && SegmentText(Static("edit"), stage) == "edit";
    ThreeSegments(Static("users"), Dynamic("user"), Static("edit"), stage);
    UserEditRouterText();
  }

  lemma UserEditRouterText()
    ensures "users" + "/" + ":user" + "/" + "edit" == "users/:user/edit"
  {
  }

  lemma UserEditRouterSlashFree(fw: Framework)
    ensures SlashFree(UserEdit, RouterDone(fw))
  {
    UserRouter(fw);
    ThreeSlashFree(Static("users"), Dynamic("user"), Static("edit"), RouterDone(fw));
  }

  lemma UserEditLaravelSlashFree()
    ensures SlashFree(UserEdit, LaravelDone)
  {
    UserLaravel();
    ThreeSlashFree(Static("users"), Dynamic("user"), Static("edit"), LaravelDone);
  }

  lemma UserEditKeepsEdit()
    ensures DropIndex(UserEdit) == UserEdit
  {
    assert !EndsWith("edit", "index");
  }

  lemma UserEditLaravelTokens()
    ensures Render(UserEdit, LaravelDone) == "users/{user}/edit"
  {
    assert SegmentText(Dynamic("user"), LaravelDone) == "{user}" by {
      UserLaravel();
    }
    assert SegmentText(Static("users"), LaravelDone) == "users" && SegmentText(Static("edit"), LaravelDone) == "edit";
    ThreeSegments(Static("users"), Dynamic("user"), Static("edit"), LaravelDone);
    UserEditLaravelText();
  }

  lemma UserEditLaravelText()
    ensures "users" + "/" + "{user}" + "/" + "edit" == "users/{user}/edit"
  {
  }

  lemma UserEditRoutes()
    ensures VueRouteFormattedPath("users/[user]/edit.vue") == "users/:user/edit"
    ensures ReactRouteFormattedPath("users/[user]/edit.vue") == "users/:user/edit"
    ensures LaravelFormattedRoutePath("users/[user]/edit.vue") == "users/{user}/edit"
  {
    UserEditWellFormed();
    UserEditFile();
    UserEditTokens(Vue);
    UserEditTokens(React);
    UserEditRouterSlashFree(Vue);
    UserEditLaravelSlashFree();
    UserEditKeepsEdit();
    UserEditLaravelTokens();
    VueIsExtension();
    NoRouteSuffix("users/:user/edit");
    FinishOfSlashFree(UserEdit, RouterDone(Vue));
    FinishOfSlashFree(UserEdit, LaravelDone);
    RouterExample(UserEdit, "vue", Vue, "users/[user]/edit.vue", "users/:user/edit", "users/:user/edit");
    RouterExample(UserEdit, "vue", React, "users/[user]/edit.vue", "users/:user/edit", "users/:user/edit");
    LaravelExample(UserEdit, "vue", "users/[user]/edit.vue", "users/{user}/edit", "users/{user}/edit");
  }
}

=== FILE: path_params.dfy ===
/**
 * What a page path says about its route parameters and its component name, stated over the
 * segment description of PathSegments: parseRouteParameters lists every `[x]` and `[...x]`
 * in order, getWildcardName finds the first `[...x]`, and componentNameFromPath builds one
 * name piece per segment.
 */
module PathParams {
  import opened Text
  import opened PagePaths
  import opened PathSegments

  // ---------------------------------------------------------------------
  // Reference definitions
  // ---------------------------------------------------------------------

  /** The text between the brackets of a parameter segment. */
  function RawParameter(seg: Segment): seq<string>
  {
    match seg
    case Dynamic(n) => [n]
    case CatchAll(n) => ["..." + n]
    case _ => []
  }

  function RawParameters(segs: seq<Segment>): seq<string>
  {
    if segs == [] then [] else RawParameter(segs[0]) + RawParameters(segs[1..])
  }

  /** The route parameters of a segment list: one camel-cased name per `[x]` or `[...x]`, in order. */
  function Parameters(segs: seq<Segment>): (names: seq<string>)
  {
    if segs == [] then []
    else if segs[0].Dynamic? || segs[0].CatchAll? then [Camel(segs[0].name)] + Parameters(segs[1..])
    else Parameters(segs[1..])
  }

  /** The raw name of the first catch-all segment. */
  function FirstCatchAll(segs: seq<Segment>): Option<string>
  {
    if segs == [] then None
    else if segs[0].CatchAll? then Some(segs[0].name)
    else FirstCatchAll(segs[1..])
  }

  /** The component-name piece of one segment. */
  function NamePiece(seg: Segment): string
  {
    match seg
    case Static(t) => if EndsWith(t, "_layout") then "Layout" else Pascal(t)
    case Dynamic(n) => Pascal(n) + "Param"
    case CatchAll(n) => Pascal(n) + "Param"
    case Group(n) => Pascal(n) + "Group"
  }

  function NamePieces(segs: seq<Segment>): (pieces: seq<string>)
    ensures |pieces| == |segs|
  {
    if segs == [] then [] else [NamePiece(segs[0])] + NamePieces(segs[1..])
  }

  /** No catch-all name starts with the extension (else `.ext` would be found inside `[...x]`). */
  predicate NoCatchAllStartsWith(segs: seq<Segment>, ext: string)
  {
    forall i :: 0 <= i < |segs| && segs[i].CatchAll? ==> !StartsWith(segs[i].name, ext)
  }

  // ---------------------------------------------------------------------
  // Small facts
  // ---------------------------------------------------------------------

  lemma PlainHasNoBrackets(t: string)
    requires Plain(t)
    ensures '[' !in t && ']' !in t && '(' !in t && ')' !in t && '.' !in t && '/' !in t && '\n' !in t
  {
    forall i | 0 <= i < |t| ensures t[i] !in "[]()./\n" {
      assert PlainChar(t[i]);
    }
  }

  lemma ConsAssoc<T>(a: seq<T>, b: seq<T>, c: seq<T>)
    ensures a + (b + c) == a + b + c
  {
  }

  /** Rendering followed by more text, with the first segment split off. */
  lemma RenderConsRest(segs: seq<Segment>, stage: Stage, rest: string)
    requires |segs| >= 2
    ensures Render(segs, stage) + rest == SegmentText(segs[0], stage) + ("/" + (Render(segs[1..], stage) + rest))
  {
    RenderCons(segs, stage);
    TailRegroup(SegmentText(segs[0], stage), Render(segs[1..], stage), rest);
  }

  lemma TailRegroup(x: string, y: string, rest: string)
    ensures x + ("/" + y) + rest == x + ("/" + (y + rest))
  {
  }

  lemma NoDotsNoChange(s: string, rep: string)
    requires '.' !in s
    ensures ReplaceAll(s, "...", rep) == s
  {
    forall i | 0 <= i < |s| ensures !ContainsAt(s, "...", i) {
      if i + 3 <= |s| {
        assert s[i..i + 3][0] == s[i];
      }
    }
    ReplaceAllAbsent(s, "...", rep);
  }

  lemma DotsOfName(n: string)
    requires '.' !in n
    ensures ReplaceAll("..." + n, "...", "") == n
  {
    ReplaceAllAtStart(n, "...", "");
    NoDotsNoChange(n, "");
  }

  // ---------------------------------------------------------------------
  // parseRouteParameters
  // ---------------------------------------------------------------------

  lemma BracketGroupsPlainChar(c: char, rest: string)
    requires c != '['
    ensures BracketGroups([c] + rest) == BracketGroups(rest)
  {
    assert ([c] + rest)[1..] == rest;
  }

  lemma {:induction false} BracketGroupsSkip(t: string, rest: string)
    requires '[' !in t
    ensures BracketGroups(t + rest) == BracketGroups(rest)
    decreases |t|
  {
    if t == [] {
      assert t + rest == rest;
    } else {
      assert t + rest == [t[0]] + (t[1..] + rest);
      BracketGroupsPlainChar(t[0], t[1..] + rest);
      BracketGroupsSkip(t[1..], rest);
    }
  }

  /** A bracket group `[inner]` with no ']' inside is captured whole. */
  lemma BracketGroupsOfBracketed(inner: string, rest: string)
    requires inner != [] && ']' !in inner
    ensures BracketGroups("[" + inner + "]" + rest) == [inner] + BracketGroups(rest)
  {
    var s := "[" + inner + "]" + rest;
    var j := |inner| + 1;
    forall k | 1 <= k < j ensures s[k] != ']' {
      assert s[k] == inner[k - 1];
    }
    IndexOfIs(s, ']', 1, j);
    assert BracketAt(s) == Some(j);
    assert s[1..j] == inner;
    assert s[j + 1..] == rest;
  }

  lemma BracketGroupsSegment(seg: Segment, rest: string)
    requires WellFormed(seg)
    ensures BracketGroups(FileText(seg) + rest) == RawParameter(seg) + BracketGroups(rest)
  {
    match seg
    case Static(t) =>
      PlainHasNoBrackets(t);
      BracketGroupsSkip(t, rest);
    case Group(n) =>
      PlainHasNoBrackets(n);
      assert '[' !in "(" + n + ")";
      BracketGroupsSkip("(" + n + ")", rest);
    case Dynamic(n) =>
      PlainHasNoBrackets(n);
      BracketGroupsOfBracketed(n, rest);
    case CatchAll(n) =>
      PlainHasNoBrackets(n);
      assert "[..." + n == "[" + ("..." + n);
      assert ']' !in "..." + n;
      BracketGroupsOfBracketed("..." + n, rest);
  }

  lemma BracketGroupsStep(seg: Segment, t: string, raw: seq<string>, rest: string)
    requires WellFormed(seg)
    requires BracketGroups(t) == raw + BracketGroups(rest)
    ensures BracketGroups(FileText(seg) + ("/" + t)) == RawParameter(seg) + raw + BracketGroups(rest)
  {
    var u := "/" + t;
    var b := BracketGroups(rest);
    BracketGroupsSlash(t);
    BracketGroupsSegment(seg, u);
    assert RawParameter(seg) + (raw + b) == RawParameter(seg) + raw + b;
  }

  lemma BracketGroupsSlash(t: string)
    ensures BracketGroups("/" + t) == BracketGroups(t)
  {
    BracketGroupsSkip("/", t);
  }

  /** The bracket groups of a rendered path, followed by more text, are the segments' raw parameters first. */
  lemma {:induction false} BracketGroupsRender(segs: seq<Segment>, rest: string)
    requires AllWellFormed(segs)
    ensures BracketGroups(Render(segs, File) + rest) == RawParameters(segs) + BracketGroups(rest)
    decreases |segs|
  {
    if segs == [] {
      assert Render(segs, File) + rest == rest;
    } else if |segs| == 1 {
      BracketGroupsRenderOne(segs, rest);
    } else {
      var tail := segs[1..];
      assert AllWellFormed(tail);
      BracketGroupsRender(tail, rest);
      BracketGroupsRenderCons(segs, rest);
    }
  }

  lemma BracketGroupsRenderOne(segs: seq<Segment>, rest: string)
    requires |segs| == 1 && WellFormed(segs[0])
    ensures BracketGroups(Render(segs, File) + rest) == RawParameters(segs) + BracketGroups(rest)
  {
    RenderOne(segs, File);
    BracketGroupsSegment(segs[0], rest);
    assert RawParameters(segs) == RawParameter(segs[0]) + [];
  }

  /** The inductive step of BracketGroupsRender: the first segment's groups come first. */
  lemma BracketGroupsRenderCons(segs: seq<Segment>, rest: string)
    requires |segs| >= 2 && WellFormed(segs[0])
    requires BracketGroups(Render(segs[1..], File) + rest) == RawParameters(segs[1..]) + BracketGroups(rest)
    ensures BracketGroups(Render(segs, File) + rest) == RawParameters(segs) + BracketGroups(rest)
  {
    var t := Render(segs[1..], File) + rest;
    var raw := RawParameters(segs[1..]);
    var b := BracketGroups(rest);
    RenderConsRest(segs, File, rest);
    BracketGroupsStep(segs[0], t, raw, rest);
    ConsAssoc(RawParameter(segs[0]), raw, b);
  }

  lemma ParameterNamesConcat(a: seq<string>, b: seq<string>)
    ensures ParameterNames(a + b) == ParameterNames(a) + ParameterNames(b)
  {
    if a != [] {
      assert (a + b)[1..] == a[1..] + b;
      ParameterNamesConcat(a[1..], b);
    } else {
      assert a + b == b;
    }
  }

  lemma {:induction false} ParameterNamesOfRaw(segs: seq<Segment>)
    requires AllWellFormed(segs)
    ensures ParameterNames(RawParameters(segs)) == Parameters(segs)
    decreases |segs|
  {
    if segs != [] {
      var seg := segs[0];
      assert AllWellFormed(segs[1..]);
      ParameterNamesOfRaw(segs[1..]);
      ParameterNamesConcat(RawParameter(seg), RawParameters(segs[1..]));
      match seg
      case Static(_) =>
      case Group(_) =>
      case Dynamic(n) =>
        PlainHasNoBrackets(n);
        NoDotsNoChange(n, "");
      case CatchAll(n) =>
        PlainHasNoBrackets(n);
        DotsOfName(n);
    }
  }

  lemma ParameterNamesOfExtension(ext: string)
    requires IsExtension(ext)
    ensures BracketGroups("." + ext) == []
  {
    PlainHasNoBrackets(ext);
    assert '[' !in "." + ext;
    assert "." + ext + [] == "." + ext;
    BracketGroupsSkip("." + ext, []);
  }

  /**
   * parseRouteParameters: one name per `[x]` or `[...x]` segment, in path order, with the
   * dots removed and the name camel-cased.
   */
  lemma RouteParametersOfSegments(segs: seq<Segment>, ext: string)
    requires AllWellFormed(segs) && IsExtension(ext)
    ensures ParseRouteParameters(Render(segs, File) + "." + ext) == Parameters(segs)
  {
    BracketGroupsRender(segs, "." + ext);
    ParameterNamesOfExtension(ext);
    assert Render(segs, File) + "." + ext == Render(segs, File) + ("." + ext);
    assert RawParameters(segs) + [] == RawParameters(segs);
    ParameterNamesOfRaw(segs);
  }

  // ---------------------------------------------------------------------
  // getWildcardName
  // ---------------------------------------------------------------------

  lemma WildcardPlainChar(c: char, rest: string)
    requires c != '['
    ensures WildcardName([c] + rest) == WildcardName(rest)
  {
    assert ([c] + rest)[1..] == rest;
  }

  lemma {:induction false} WildcardSkip(t: string, rest: string)
    requires '[' !in t
    ensures WildcardName(t + rest) == WildcardName(rest)
    decreases |t|
  {
    if t != [] {
      assert t + rest == [t[0]] + (t[1..] + rest);
      WildcardPlainChar(t[0], t[1..] + rest);
      WildcardSkip(t[1..], rest);
    } else {
      assert t + rest == rest;
    }
  }

  lemma WildcardOfDynamic(n: string, rest: string)
    requires IsName(n)
    ensures WildcardName("[" + n + "]" + rest) == WildcardName(rest)
  {
    PlainHasNoBrackets(n);
    var s := "[" + n + "]" + rest;
    assert s[1] == n[0] && n[0] != '.';
    assert CatchAllAt(s).None?;
    assert s[1..] == n + "]" + rest;
    assert '[' !in n + "]";
    WildcardSkip(n + "]", rest);
  }

  lemma WildcardOfCatchAll(n: string, rest: string)
    requires IsName(n)
    ensures WildcardName("[..." + n + "]" + rest) == Some(n)
  {
    PlainHasNoBrackets(n);
    var s := "[..." + n + "]" + rest;
    Bracketed("[...", n, ']', rest);
    assert "[..." + n + [']'] + rest == s;
    assert OpensWithDots(s, '[');
  }

  lemma WildcardSegment(seg: Segment, rest: string)
    requires WellFormed(seg)
    ensures WildcardName(FileText(seg) + rest) == if seg.CatchAll? then Some(seg.name) else WildcardName(rest)
  {
    match seg
    case Static(t) =>
      PlainHasNoBrackets(t);
      WildcardSkip(t, rest);
    case Group(n) =>
      PlainHasNoBrackets(n);
      assert '[' !in "(" + n + ")";
      WildcardSkip("(" + n + ")", rest);
    case Dynamic(n) =>
      WildcardOfDynamic(n, rest);
    case CatchAll(n) =>
      WildcardOfCatchAll(n, rest);
  }

  /** The wildcard name of a rendered path followed by more text: the first catch-all's name, if any. */
  lemma {:induction false} WildcardRender(segs: seq<Segment>, rest: string)
    requires AllWellFormed(segs)
    ensures WildcardName(Render(segs, File) + rest)
         == if FirstCatchAll(segs).Some? then FirstCatchAll(segs) else WildcardName(rest)
    decreases |segs|
  {
    if segs == [] {
      assert Render(segs, File) + rest == rest;
    } else if |segs| == 1 {
      RenderOne(segs, File);
      WildcardSegment(segs[0], rest);
    } else {
      var tail := segs[1..];
      assert AllWellFormed(tail);
      RenderConsRest(segs, File, rest);
      WildcardSegment(segs[0], "/" + (Render(tail, File) + rest));
      WildcardSkip("/", Render(tail, File) + rest);
      WildcardRender(tail, rest);
    }
  }

  /** getWildcardName: the raw (not camel-cased) name of the first `[...x]`, or none. */
  lemma WildcardNameOfSegments(segs: seq<Segment>, ext: string)
    requires AllWellFormed(segs) && IsExtension(ext)
    ensures WildcardName(Render(segs, File) + "." + ext) == FirstCatchAll(segs)
  {
    PlainHasNoBrackets(ext);
    assert Render(segs, File) + "." + ext == Render(segs, File) + ("." + ext);
    WildcardRender(segs, "." + ext);
    assert "." + ext + [] == "." + ext;
    WildcardSkip("." + ext, []);
  }

  // ---------------------------------------------------------------------
  // componentNameFromPath
  // ---------------------------------------------------------------------

  /** `.ext` cannot occur in `[...n]` when n does not start with ext. */
  lemma CatchAllKeepsExtension(n: string, ext: string)
    requires IsName(n) && IsExtension(ext) && !StartsWith(n, ext)
    ensures ReplaceAll("[..." + n + "]", "." + ext, "") == "[..." + n + "]"
  {
    PlainHasNoBrackets(n);
    PlainHasNoBrackets(ext);
    var s := "[..." + n + "]";
    var t := "." + ext;
    forall i | 0 <= i < |s| ensures !ContainsAt(s, t, i) {
      if i + |t| <= |s| {
        var w := s[i..i + |t|];
        if i == 0 || i >= 4 {
          assert w[0] == s[i];
          assert s[i] != '.' by {
            if i >= 4 && i < |s| - 1 {
              assert s[i] == n[i - 4];
            }
          }
        } else if i < 3 {
          assert w[1] == s[i + 1] == '.';
          assert t[1] == ext[0] != '.';
        } else {
          CatchAllExtensionAt(n, ext, s, w);
        }
      }
    }
    ReplaceAllAbsent(s, t, "");
  }

  lemma CatchAllExtensionAt(n: string, ext: string, s: string, w: string)
    requires Plain(ext) && ext != [] && !StartsWith(n, ext)
    requires s == "[..." + n + "]" && 3 + 1 + |ext| <= |s| && w == s[3..3 + 1 + |ext|]
    ensures w != "." + ext
  {
    var m :| 0 <= m < |ext| && (m >= |n| || ext[m] != n[m]);
    assert w[m + 1] == s[4 + m];
    if m < |n| {
      assert s[4 + m] == n[m];
    } else {
      assert s[4 + m] == ']';
      assert PlainChar(ext[m]);
    }
    assert ("." + ext)[m + 1] == ext[m];
  }

  lemma NoDotNoExtension(s: string, ext: string)
    requires '.' !in s && ext != []
    ensures ReplaceAll(s, "." + ext, "") == s
  {
    forall i | 0 <= i < |s| ensures !ContainsAt(s, "." + ext, i) {
      if i + 1 + |ext| <= |s| {
        assert s[i..i + 1 + |ext|][0] == s[i];
      }
    }
    ReplaceAllAbsent(s, "." + ext, "");
  }

  /** The part's text survives `replace('.' . ext, '')`. */
  lemma PartKeepsExtension(seg: Segment, ext: string)
    requires WellFormed(seg) && IsExtension(ext)
    requires seg.CatchAll? ==> !StartsWith(seg.name, ext)
    ensures ReplaceAll(FileText(seg), "." + ext, "") == FileText(seg)
  {
    match seg
    case Static(t) =>
      PlainHasNoBrackets(t);
      NoDotNoExtension(t, ext);
    case Group(n) =>
      PlainHasNoBrackets(n);
      assert '.' !in "(" + n + ")";
      NoDotNoExtension("(" + n + ")", ext);
    case Dynamic(n) =>
      PlainHasNoBrackets(n);
      assert '.' !in "[" + n + "]";
      NoDotNoExtension("[" + n + "]", ext);
    case CatchAll(n) =>
      CatchAllKeepsExtension(n, ext);
  }

  lemma GroupMatchOfGroup(n: string)
    requires IsName(n)
    ensures FirstGroupMatch("(" + n + ")", false) == n
  {
    PlainHasNoBrackets(n);
    var s := "(" + n + ")";
    var j := |n| + 1;
    forall k | 1 <= k < j ensures s[k] != ')' {
      assert s[k] == n[k - 1];
    }
    IndexOfIs(s, ')', 1, j);
    assert GroupAt(s) == Some(j);
    assert s[1..j] == n;
  }

  /** `[inner]` with no ')' inside and nothing after: the greedy match takes the whole inner text. */
  lemma GroupMatchOfBracketed(inner: string)
    requires inner != [] && ')' !in inner
    ensures FirstGroupMatch("[" + inner + "]", true) == inner
  {
    var s := "[" + inner + "]";
    forall k | 1 <= k < |s| ensures s[k] != ')' {
      if k <= |inner| {
        assert s[k] == inner[k - 1];
      }
    }
    assert IndexOf(s, ')', 1).None?;
    assert s[..|s|] == s;
    assert LastIndexOf(s, ']') == Some(|s| - 1);
    assert GreedyParamAt(s) == Some(|s| - 1);
    assert s[1..|s| - 1] == inner;
  }

  lemma SegmentNamePiece(seg: Segment)
    requires WellFormed(seg)
    ensures SegmentComponentName(FileText(seg)) == NamePiece(seg)
  {
    match seg
    case Static(t) =>
      PlainHasNoBrackets(t);
      assert !StartsWith(t, "(") && !StartsWith(t, "[") by {
        if t != [] {
          assert PlainChar(t[0]);
        }
      }
    case Group(n) =>
      PlainHasNoBrackets(n);
      GroupMatchOfGroup(n);
      NoDotsNoChange(n, "");
    case Dynamic(n) =>
      PlainHasNoBrackets(n);
      GroupMatchOfBracketed(n);
      NoDotsNoChange(n, "");
    case CatchAll(n) =>
      PlainHasNoBrackets(n);
      assert "[..." + n + "]" == "[" + ("..." + n) + "]";
      assert ')' !in "..." + n;
      GroupMatchOfBracketed("..." + n);
      DotsOfName(n);
  }

  lemma {:induction false} PiecesOfTexts(segs: seq<Segment>, ext: string)
    requires AllWellFormed(segs) && IsExtension(ext) && NoCatchAllStartsWith(segs, ext)
    ensures ComponentNamePieces(Texts(segs, File), ext) == NamePieces(segs)
    decreases |segs|
  {
    if segs != [] {
      var texts := Texts(segs, File);
      assert texts[1..] == Texts(segs[1..], File);
      assert texts[0] == FileText(segs[0]);
      PartKeepsExtension(segs[0], ext);
      SegmentNamePiece(segs[0]);
      assert AllWellFormed(segs[1..]);
      assert NoCatchAllStartsWith(segs[1..], ext) by {
        forall i | 0 <= i < |segs[1..]| && segs[1..][i].CatchAll? ensures !StartsWith(segs[1..][i].name, ext) {
          assert segs[1..][i] == segs[i + 1];
        }
      }
      PiecesOfTexts(segs[1..], ext);
    }
  }

  lemma SplitRender(segs: seq<Segment>)
    requires AllWellFormed(segs) && |segs| >= 1
    ensures Split(Render(segs, File), '/') == Texts(segs, File)
  {
    var texts := Texts(segs, File);
    forall i | 0 <= i < |texts| ensures '/' !in texts[i] {
      assert WellFormed(segs[i]);
      FileTextHasNoSlash(segs[i]);
    }
    SplitJoin(texts, '/');
  }

  lemma FileTextHasNoSlash(seg: Segment)
    requires WellFormed(seg)
    ensures '/' !in FileText(seg)
  {
    match seg
    case Static(t) => PlainHasNoBrackets(t);
    case Group(n) => PlainHasNoBrackets(n);
    case Dynamic(n) => PlainHasNoBrackets(n);
    case CatchAll(n) => PlainHasNoBrackets(n);
  }

  /**
   * componentNameFromPath: one piece per segment, `(x)` giving Pascal(x) + "Group", `[x]` and
   * `[...x]` giving Pascal(x) + "Param", a `_layout` segment giving "Layout", any other segment
   * its Pascal form.
   */
  lemma ComponentNameOfSegments(segs: seq<Segment>, ext: string)
    requires AllWellFormed(segs) && |segs| >= 1 && IsExtension(ext) && NoCatchAllStartsWith(segs, ext)
    ensures ComponentNameFromPath(Render(segs, File) + "." + ext) == Concat(NamePieces(segs))
  {
    var p := Render(segs, File);
    PlainHasNoBrackets(ext);
    ExtensionOfSuffix(p, ext);
    WithoutExtension(p, ext);
    SplitRender(segs);
    PiecesOfTexts(segs, ext);
  }
}

=== FILE: path_segments.dfy ===
/**
 * A reference description of page paths as lists of segments, and the proof that the
 * scanner pipelines of PagePaths rewrite each kind of segment the way the router syntaxes
 * prescribe: `(group)` disappears, `[x]` becomes `:x` or `{x}`, `[...x]` becomes
 * `:y(.*)*`, `*` or `{y?}` (y studly-cased from x with its first letter's case kept), and
 * static text is kept.
 *
 * Each pipeline step is a scanner, and each step is shown to map the rendering of a
 * segment list at one `Stage` to its rendering at the next, one segment at a time.
 */
module PathSegments {
  import opened Text
  import opened PagePaths

  /** One '/'-separated piece of a page path as written in the pages directory. */
  datatype Segment =
    | Static(text: string)     // users
    | Dynamic(name: string)    // [user]
    | CatchAll(name: string)   // [...slug]
    | Group(name: string)      // (auth)

  /** Characters with no meaning to any of the patterns. */
  predicate PlainChar(c: char) { c !in "()[]{}./\n" }

  predicate Plain(t: string) { forall i :: 0 <= i < |t| ==> PlainChar(t[i]) }

  /** A parameter or group name: non-empty, plain, and not starting with a word separator. */
  predicate IsName(n: string) { |n| > 0 && Plain(n) && !IsWordSeparator(n[0]) }

  predicate WellFormed(seg: Segment)
  {
    match seg
    case Static(t) => Plain(t)
    case Dynamic(n) => IsName(n)
    case CatchAll(n) => IsName(n)
    case Group(n) => IsName(n)
  }

  predicate AllWellFormed(segs: seq<Segment>)
  {
    forall i :: 0 <= i < |segs| ==> WellFormed(segs[i])
  }

  /** How the segment is written in the file name. */
  function FileText(seg: Segment): string
  {
    match seg
    case Static(t) => t
    case Dynamic(n) => "[" + n + "]"
    case CatchAll(n) => "[..." + n + "]"
    case Group(n) => "(" + n + ")"
  }

  /**
   * The client-router form of a segment: groups vanish, parameters become `:camel(x)`, and a
   * catch-all becomes `:x(.*)*` for Vue Router or `*` for React Router. The catch-all name keeps
   * the case of its first letter: camel-casing `...x` leaves the dots at the front.
   */
  function RouterSegment(seg: Segment, fw: Framework): string
  {
    match seg
    case Static(t) => t
    case Dynamic(n) => ":" + Camel(n)
    case CatchAll(n) => if fw == Vue then ":" + StudlyFrom(n, false) + "(.*)*" else "*"
    case Group(_) => ""
  }

  /**
   * The Laravel form of a segment: `{camel(x)}` for a parameter and the optional `{y?}` for a
   * catch-all, y being x studly-cased with its first letter's case kept.
   */
  function LaravelSegment(seg: Segment): string
  {
    match seg
    case Static(t) => t
    case Dynamic(n) => "{" + Camel(n) + "}"
    case CatchAll(n) => "{" + StudlyFrom(n, false) + "?}"
    case Group(_) => ""
  }

  /** The intermediate results of the formatting pipelines. */
  datatype Stage =
    | File
    | NoGroups
    | CatchAllsDone(fw: Framework)
    | DynamicsDone(fw: Framework)
    | RouterDone(fw: Framework)
    | Braces
    | BracesNoGroups
    | BracesCamel
    | LaravelDone

  function SegmentText(seg: Segment, stage: Stage): string
  {
    match stage
    case File => FileText(seg)
    case NoGroups => if seg.Group? then "" else FileText(seg)
    case CatchAllsDone(fw) =>
      if seg.Group? then "" else if seg.CatchAll? then CatchAllRoute(fw, "..." + seg.name) else FileText(seg)
    case DynamicsDone(fw) =>
      if seg.Group? then ""
      else if seg.CatchAll? then CatchAllRoute(fw, "..." + seg.name)
      else if seg.Dynamic? then ":" + Camel(seg.name)
      else FileText(seg)
    case RouterDone(fw) => RouterSegment(seg, fw)
    case Braces =>
      if seg.Dynamic? then "{" + seg.name + "}"
      else if seg.CatchAll? then "{..." + seg.name + "}"
      else FileText(seg)
    case BracesNoGroups =>
      if seg.Group? then ""
      else if seg.Dynamic? then "{" + seg.name + "}"
      else if seg.CatchAll? then "{..." + seg.name + "}"
      else FileText(seg)
    case BracesCamel =>
      if seg.Group? then ""
      else if seg.Dynamic? then "{" + Camel(seg.name) + "}"
      else if seg.CatchAll? then "{" + Camel("..." + seg.name) + "}"
      else FileText(seg)
    case LaravelDone => LaravelSegment(seg)
  }

  function Texts(segs: seq<Segment>, stage: Stage): (texts: seq<string>)
    ensures |texts| == |segs|
    ensures forall i :: 0 <= i < |segs| ==> texts[i] == SegmentText(segs[i], stage)
  {
    if segs == [] then [] else [SegmentText(segs[0], stage)] + Texts(segs[1..], stage)
  }

  /** The segments' texts at a stage, joined by '/'. */
  function Render(segs: seq<Segment>, stage: Stage): string
  {
    Join(Texts(segs, stage), "/")
  }

  lemma RenderCons(segs: seq<Segment>, stage: Stage)
    requires |segs| >= 2
    ensures Render(segs, stage) == SegmentText(segs[0], stage) + ("/" + Render(segs[1..], stage))
  {
    assert Texts(segs, stage)[1..] == Texts(segs[1..], stage);
  }

  lemma RenderOne(segs: seq<Segment>, stage: Stage)
    requires |segs| == 1
    ensures Render(segs, stage) == SegmentText(segs[0], stage)
  {
  }

  // ---------------------------------------------------------------------
  // Locating a match
  // ---------------------------------------------------------------------

  lemma IndexOfIs(s: string, c: char, from: nat, j: nat)
    requires from <= j < |s| && s[j] == c
    requires forall k :: from <= k < j ==> s[k] != c
    ensures IndexOf(s, c, from) == Some(j)
  {
  }

  lemma LazyCloseIs(s: string, c: char, from: nat, j: nat)
    requires c != '\n'
    requires from <= j < |s| && s[j] == c
    requires forall k :: from <= k < j ==> s[k] != c && s[k] != '\n'
    ensures LazyClose(s, c, from) == Some(j)
  {
  }

  /** Bracketed text: `open` + x + `close` + rest, where x holds neither bracket nor a line break. */
  lemma Bracketed(open: string, x: string, close: char, rest: string)
    requires close != '\n' && close !in x && '\n' !in x && close !in open
    ensures var s := open + x + [close] + rest;
      LazyClose(s, close, |open|) == Some(|open| + |x|) && s[|open|..|open| + |x|] == x && s[|open| + |x| + 1..] == rest
  {
    var s := open + x + [close] + rest;
    forall k | |open| <= k < |open| + |x| ensures s[k] != close && s[k] != '\n' {
      assert s[k] == x[k - |open|];
    }
    LazyCloseIs(s, close, |open|, |open| + |x|);
    assert s[|open|..|open| + |x|] == x;
    assert s[|open| + |x| + 1..] == rest;
  }

  lemma PlainExcludes(t: string)
    requires Plain(t)
    ensures '(' !in t && ')' !in t && '[' !in t && ']' !in t && '{' !in t && '}' !in t
    ensures '.' !in t && '/' !in t && '\n' !in t
  {
    forall i | 0 <= i < |t| ensures t[i] !in "()[]{}./\n" {
      assert PlainChar(t[i]);
    }
  }

  lemma PlainHasNoDotOrSlash(t: string)
    requires Plain(t)
    ensures '.' !in t && '/' !in t
  {
    forall i | 0 <= i < |t| ensures t[i] != '.' && t[i] != '/' {
      assert PlainChar(t[i]);
    }
  }

  /** The camel-cased forms of a name keep it plain. */
  lemma CamelPlain(n: string)
    requires Plain(n)
    ensures Plain(Camel(n)) && Plain(StudlyFrom(n, false))
  {
    PlainExcludes(n);
    forall c | c in "()[]{}./\n" ensures c !in Camel(n) && c !in StudlyFrom(n, false) {
      CamelKeepsCharClass(n, c);
      StudlyKeepsCharClass(n, false, c);
    }
  }

  lemma StudlyNonEmpty(n: string)
    requires IsName(n)
    ensures |StudlyFrom(n, false)| > 0 && StudlyFrom(n, false)[0] == n[0]
  {
  }
  // ---------------------------------------------------------------------
  // Text the scanners leave alone
  // ---------------------------------------------------------------------

  lemma {:induction false} StripGroupsSkip(t: string, rest: string)
    requires '(' !in t
    ensures StripGroups(t + rest) == t + StripGroups(rest)
    decreases |t|
  {
    if t == [] {
      assert t + rest == rest;
    } else {
      assert (t + rest)[1..] == t[1..] + rest;
      StripGroupsSkip(t[1..], rest);
      HeadGlue(t, StripGroups(rest));
    }
  }

  lemma {:induction false} RewriteCatchAllsSkip(t: string, rest: string, fw: Framework)
    requires '[' !in t
    ensures RewriteCatchAlls(t + rest, fw) == t + RewriteCatchAlls(rest, fw)
    decreases |t|
  {
    if t == [] {
      assert t + rest == rest;
    } else {
      var s := t + rest;
      assert s[1..] == t[1..] + rest;
      assert s[0] == t[0] && s[0] != '[';
      assert CatchAllAt(s).None?;
      RewriteCatchAllsSkip(t[1..], rest, fw);
      HeadGlue(t, RewriteCatchAlls(rest, fw));
    }
  }

  lemma {:induction false} RewriteDynamicsSkip(t: string, rest: string)
    requires '[' !in t
    ensures RewriteDynamics(t + rest) == t + RewriteDynamics(rest)
    decreases |t|
  {
    if t == [] {
      assert t + rest == rest;
    } else {
      assert (t + rest)[1..] == t[1..] + rest;
      RewriteDynamicsSkip(t[1..], rest);
      HeadGlue(t, RewriteDynamics(rest));
    }
  }

  lemma CamelBracesPlainChar(c: char, rest: string)
    requires c != '{'
    ensures CamelBraces([c] + rest) == [c] + CamelBraces(rest)
  {
    assert ([c] + rest)[1..] == rest;
  }

  lemma {:induction false} CamelBracesSkip(t: string, rest: string)
    requires '{' !in t
    ensures CamelBraces(t + rest) == t + CamelBraces(rest)
    decreases |t|
  {
    if t == [] {
      assert t + rest == rest;
    } else {
      var u := t[1..];
      assert t + rest == [t[0]] + (u + rest);
      CamelBracesPlainChar(t[0], u + rest);
      CamelBracesSkip(u, rest);
      HeadGlue(t, CamelBraces(rest));
    }
  }

  lemma {:induction false} OptionalCatchAllsSkip(t: string, rest: string)
    requires '{' !in t
    ensures OptionalCatchAlls(t + rest) == t + OptionalCatchAlls(rest)
    decreases |t|
  {
    if t == [] {
      assert t + rest == rest;
    } else {
      assert (t + rest)[1..] == t[1..] + rest;
      assert t[0] == (t + rest)[0];
      OptionalCatchAllsSkip(t[1..], rest);
      HeadGlue(t, OptionalCatchAlls(rest));
    }
  }

  /** Text in which every '.' is followed by another character that is not '.' holds no `...`. */
  lemma DotsSkip(t: string, rest: string)
    requires forall i :: 0 <= i < |t| && t[i] == '.' ==> i + 1 < |t| && t[i + 1] != '.'
    ensures ReplaceAll(t + rest, "...", "") == t + ReplaceAll(rest, "...", "")
  {
    var s := t + rest;
    forall i | 0 <= i < |t| ensures !ContainsAt(s, "...", i) {
      if i + 3 <= |s| {
        if t[i] != '.' {
          assert s[i..i + 3][0] == t[i];
        } else {
          assert s[i..i + 3][1] == t[i + 1];
        }
      }
    }
    ReplaceAllSkips(t, rest, "...", "");
  }

  lemma DotlessSkip(t: string, rest: string)
    requires '.' !in t
    ensures ReplaceAll(t + rest, "...", "") == t + ReplaceAll(rest, "...", "")
  {
    DotsSkip(t, rest);
  }
  lemma CamelNonEmpty(n: string)
    requires |n| > 0 && !IsWordSeparator(n[0])
    ensures |Camel(n)| > 0
  {
    assert |StudlyFrom(n, true)| > 0;
  }

  lemma {:induction false} ReplaceCharConcat(a: string, b: string, c: char, d: char)
    ensures ReplaceAll(a + b, [c], [d]) == ReplaceAll(a, [c], [d]) + ReplaceAll(b, [c], [d])
    decreases |a|
  {
    if a == [] {
      assert a + b == b;
    } else {
      var s := a + b;
      assert s[1..] == a[1..] + b;
      assert s[0] == a[0];
      assert ([c] <= s) == (a[0] == c);
      assert ([c] <= a) == (a[0] == c);
      ReplaceCharConcat(a[1..], b, c, d);
    }
  }

  lemma ReplaceCharAbsent(t: string, c: char, d: char)
    requires c !in t
    ensures ReplaceAll(t, [c], [d]) == t
  {
    ReplaceCharPointwise(t, c, d);
  }

  /** str_replace of '[' by '{' and of ']' by '}'. */
  function BracesOf(s: string): string
  {
    ReplaceAll(ReplaceAll(s, "[", "{"), "]", "}")
  }

  lemma BracesConcat(a: string, b: string)
    ensures BracesOf(a + b) == BracesOf(a) + BracesOf(b)
  {
    ReplaceCharConcat(a, b, '[', '{');
    ReplaceCharConcat(ReplaceAll(a, "[", "{"), ReplaceAll(b, "[", "{"), ']', '}');
  }

  lemma BracesPlain(t: string)
    requires '[' !in t && ']' !in t
    ensures BracesOf(t) == t
  {
    ReplaceCharAbsent(t, '[', '{');
    ReplaceCharAbsent(t, ']', '}');
  }

  /** trim('{') then trim('}') of `{x}` gives x back when x neither starts nor ends with a brace. */
  lemma TrimBraces(x: string)
    requires x != []
    requires x[0] != '{' && x[0] != '}' && x[|x| - 1] != '{' && x[|x| - 1] != '}'
    ensures Trim(Trim("{" + x + "}", '{'), '}') == x
  {
    var s := "{" + x + "}";
    assert s[1..] == x + "}";
    assert TrimLeft(x + "}", '{') == x + "}";
    assert TrimLeft(s, '{') == x + "}";
    assert TrimRight(x + "}", '{') == x + "}";
    assert TrimLeft(x + "}", '}') == x + "}";
    assert (x + "}")[..|x|] == x;
    assert TrimRight(x + "}", '}') == TrimRight(x, '}');
    assert TrimRight(x, '}') == x;
  }

  // ---------------------------------------------------------------------
  // One segment at a time
  // ---------------------------------------------------------------------

  lemma StripGroupsOfGroup(n: string, rest: string)
    requires IsName(n)
    ensures StripGroups("(" + n + ")" + rest) == StripGroups(rest)
  {
    PlainExcludes(n);
    var s := "(" + n + ")" + rest;
    forall k | 1 <= k < |n| + 1 ensures s[k] != ')' {
      assert s[k] == n[k - 1];
    }
    IndexOfIs(s, ')', 1, |n| + 1);
    assert GroupAt(s) == Some(|n| + 1);
    assert s[|n| + 2..] == rest;
  }

  /** The stage reached from `from` once groups are removed. */
  function Ungrouped(from: Stage): Stage
  {
    if from == Braces then BracesNoGroups else NoGroups
  }

  lemma StripGroupsSegment(seg: Segment, from: Stage, rest: string)
    requires WellFormed(seg)
    requires from == File || from == Braces
    ensures StripGroups(SegmentText(seg, from) + rest) == SegmentText(seg, Ungrouped(from)) + StripGroups(rest)
  {
    if seg.Group? {
      assert SegmentText(seg, from) == "(" + seg.name + ")";
      StripGroupsOfGroup(seg.name, rest);
      assert SegmentText(seg, Ungrouped(from)) == "";
    } else {
      var t := SegmentText(seg, from);
      assert SegmentText(seg, Ungrouped(from)) == t;
      assert '(' !in t by {
        if seg.Static? {
          PlainExcludes(seg.text);
        } else {
          PlainExcludes(seg.name);
        }
      }
      StripGroupsSkip(t, rest);
    }
  }

  lemma RewriteCatchAllsOfDynamic(n: string, fw: Framework, rest: string)
    requires IsName(n)
    ensures RewriteCatchAlls("[" + n + "]" + rest, fw) == "[" + n + "]" + RewriteCatchAlls(rest, fw)
  {
    PlainExcludes(n);
    var s := "[" + n + "]" + rest;
    assert s[1] == n[0];
    assert CatchAllAt(s) == None;
    assert s[1..] == (n + "]") + rest;
    RewriteCatchAllsSkip(n + "]", rest, fw);
  }

  lemma RewriteCatchAllsOfCatchAll(n: string, fw: Framework, rest: string)
    requires IsName(n)
    ensures RewriteCatchAlls("[..." + n + "]" + rest, fw) == CatchAllRoute(fw, "..." + n) + RewriteCatchAlls(rest, fw)
  {
    PlainExcludes(n);
    var s := "[..." + n + "]" + rest;
    Bracketed("[...", n, ']', rest);
    assert CatchAllAt(s) == Some(4 + |n|);
    assert s[1..4 + |n|] == "..." + n;
  }

  lemma RewriteCatchAllsSegment(seg: Segment, fw: Framework, rest: string)
    requires WellFormed(seg)
    ensures RewriteCatchAlls(SegmentText(seg, NoGroups) + rest, fw) == SegmentText(seg, CatchAllsDone(fw)) + RewriteCatchAlls(rest, fw)
  {
    match seg
    case Static(t) =>
      PlainExcludes(t);
      RewriteCatchAllsSkip(t, rest, fw);
    case Group(n) =>
      assert "" + rest == rest;
    case Dynamic(n) =>
      RewriteCatchAllsOfDynamic(n, fw, rest);
    case CatchAll(n) =>
      RewriteCatchAllsOfCatchAll(n, fw, rest);
  }

  lemma RewriteDynamicsOfDynamic(n: string, rest: string)
    requires IsName(n)
    ensures RewriteDynamics("[" + n + "]" + rest) == ":" + Camel(n) + RewriteDynamics(rest)
  {
    PlainExcludes(n);
    var s := "[" + n + "]" + rest;
    Bracketed("[", n, ']', rest);
    assert DynamicAt(s) == Some(1 + |n|);
  }

  lemma RewriteDynamicsOfCatchAll(n: string, fw: Framework, rest: string)
    requires IsName(n)
    ensures RewriteDynamics(CatchAllRoute(fw, "..." + n) + rest) == CatchAllRoute(fw, "..." + n) + RewriteDynamics(rest)
  {
    PlainExcludes(n);
    CamelKeepsCharClass("..." + n, '[');
    RewriteDynamicsSkip(CatchAllRoute(fw, "..." + n), rest);
  }

  lemma RewriteDynamicsSegment(seg: Segment, fw: Framework, rest: string)
    requires WellFormed(seg)
    ensures RewriteDynamics(SegmentText(seg, CatchAllsDone(fw)) + rest) == SegmentText(seg, DynamicsDone(fw)) + RewriteDynamics(rest)
  {
    match seg
    case Static(t) =>
      PlainExcludes(t);
      RewriteDynamicsSkip(t, rest);
    case Group(n) =>
      assert "" + rest == rest;
    case Dynamic(n) =>
      RewriteDynamicsOfDynamic(n, rest);
    case CatchAll(n) =>
      RewriteDynamicsOfCatchAll(n, fw, rest);
  }

  lemma CatchAllTailDots(x: string)
    requires '.' !in x
    ensures var tail := x + "(.*)*";
      forall i :: 0 <= i < |tail| && tail[i] == '.' ==> i + 1 < |tail| && tail[i + 1] != '.'
  {
    var tail := x + "(.*)*";
    forall i | 0 <= i < |tail| ensures tail[i] == '.' ==> i + 1 < |tail| && tail[i + 1] != '.' {
      if i < |x| {
        assert tail[i] == x[i];
      }
    }
  }

  lemma DotsOfCatchAllText(x: string, rest: string)
    requires '.' !in x
    ensures ReplaceAll(":" + ("..." + ((x + "(.*)*") + rest)), "...", "") == ":" + ((x + "(.*)*") + ReplaceAll(rest, "...", ""))
  {
    var tail := x + "(.*)*";
    var y := tail + rest;
    CatchAllTailDots(x);
    DotsSkip(tail, rest);
    assert ReplaceAll(y, "...", "") == tail + ReplaceAll(rest, "...", "");
    ReplaceAllAtStart(y, "...", "");
    assert ReplaceAll("..." + y, "...", "") == ReplaceAll(y, "...", "");
    DotlessSkip(":", "..." + y);
    assert ReplaceAll(":" + ("..." + y), "...", "") == ":" + ReplaceAll("..." + y, "...", "");
  }

  lemma DotsOfVueCatchAll(n: string, rest: string)
    requires IsName(n)
    ensures ReplaceAll(CatchAllRoute(Vue, "..." + n) + rest, "...", "") == ":" + StudlyFrom(n, false) + "(.*)*" + ReplaceAll(rest, "...", "")
  {
    CamelPlain(n);
    var x := StudlyFrom(n, false);
    PlainExcludes(x);
    CamelBehindPrefix("...", n);
    assert CatchAllRoute(Vue, "..." + n) + rest == ":" + ("..." + ((x + "(.*)*") + rest));
    DotsOfCatchAllText(x, rest);
    assert ":" + ((x + "(.*)*") + ReplaceAll(rest, "...", "")) == ":" + x + "(.*)*" + ReplaceAll(rest, "...", "");
  }

  lemma DotsSegment(seg: Segment, fw: Framework, rest: string)
    requires WellFormed(seg)
    ensures ReplaceAll(SegmentText(seg, DynamicsDone(fw)) + rest, "...", "") == SegmentText(seg, RouterDone(fw)) + ReplaceAll(rest, "...", "")
  {
    match seg
    case Static(t) =>
      PlainExcludes(t);
      DotlessSkip(t, rest);
    case Group(n) =>
      assert "" + rest == rest;
    case Dynamic(n) =>
      CamelPlain(n);
      PlainExcludes(Camel(n));
      DotlessSkip(":" + Camel(n), rest);
    case CatchAll(n) =>
      if fw == React {
        DotlessSkip("*", rest);
      } else {
        DotsOfVueCatchAll(n, rest);
      }
  }

  lemma BracesOfBracketed(open: string, n: string, open2: string)
    requires '[' !in n && ']' !in n
    requires BracesOf(open) == open2
    ensures BracesOf(open + n + "]") == open2 + n + "}"
  {
    BracesConcat(open, n + "]");
    BracesConcat(n, "]");
    BracesPlain(n);
    assert BracesOf("]") == "}";
    assert open + n + "]" == open + (n + "]");
    assert open2 + n + "}" == open2 + (n + "}");
  }

  lemma BracesSegment(seg: Segment)
    requires WellFormed(seg)
    ensures BracesOf(FileText(seg)) == SegmentText(seg, Braces)
  {
    match seg
    case Static(t) =>
      PlainExcludes(t);
      BracesPlain(t);
    case Group(n) =>
      PlainExcludes(n);
      BracesPlain("(" + n + ")");
    case Dynamic(n) =>
      PlainExcludes(n);
      assert BracesOf("[") == "{";
      BracesOfBracketed("[", n, "{");
    case CatchAll(n) =>
      PlainExcludes(n);
      BracesConcat("[", "...");
      BracesPlain("...");
      assert BracesOf("[") == "{";
      assert "[" + "..." == "[...";
      BracesOfBracketed("[...", n, "{...");
  }

  lemma CamelBracesOfDynamic(n: string, rest: string)
    requires IsName(n)
    ensures CamelBraces("{" + n + "}" + rest) == "{" + Camel(n) + "}" + CamelBraces(rest)
  {
    PlainExcludes(n);
    var s := "{" + n + "}" + rest;
    Bracketed("{", n, '}', rest);
    assert BraceAt(s) == Some(1 + |n|);
    assert s[..|n| + 2] == "{" + n + "}";
    TrimBraces(n);
  }

  lemma CamelBracesOfCatchAll(n: string, rest: string)
    requires IsName(n)
    ensures CamelBraces("{..." + n + "}" + rest) == "{" + Camel("..." + n) + "}" + CamelBraces(rest)
  {
    PlainExcludes(n);
    var x := "..." + n;
    var s := "{" + x + "}" + rest;
    assert "{..." + n + "}" + rest == s;
    Bracketed("{", x, '}', rest);
    assert BraceAt(s) == Some(1 + |x|);
    assert s[..|x| + 2] == "{" + x + "}";
    TrimBraces(x);
  }

  lemma CamelBracesSegment(seg: Segment, rest: string)
    requires WellFormed(seg)
    ensures CamelBraces(SegmentText(seg, BracesNoGroups) + rest) == SegmentText(seg, BracesCamel) + CamelBraces(rest)
  {
    match seg
    case Static(t) =>
      PlainExcludes(t);
      CamelBracesSkip(t, rest);
    case Group(n) =>
      assert "" + rest == rest;
    case Dynamic(n) =>
      CamelBracesOfDynamic(n, rest);
    case CatchAll(n) =>
      CamelBracesOfCatchAll(n, rest);
  }

  lemma OptionalCatchAllsOfDynamic(n: string, rest: string)
    requires IsName(n)
    ensures OptionalCatchAlls("{" + Camel(n) + "}" + rest) == "{" + Camel(n) + "}" + OptionalCatchAlls(rest)
  {
    var c := Camel(n);
    assert c != [] && c[0] != '.' && '{' !in c by {
      CamelPlain(n);
      PlainExcludes(c);
      CamelNonEmpty(n);
    }
    OptionalCatchAllsOfBraced(c, rest);
  }

  /** `{c}` with c not starting with '.' is no catch-all and is copied whole. */
  lemma OptionalCatchAllsOfBraced(c: string, rest: string)
    requires c != [] && c[0] != '.' && '{' !in c
    ensures OptionalCatchAlls("{" + c + "}" + rest) == "{" + c + "}" + OptionalCatchAlls(rest)
  {
    var t := (c + "}") + rest;
    var o := OptionalCatchAlls(rest);
    BraceRegroup(c, rest);
    BraceRegroup(c, o);
    assert OptionalCatchAlls(['{'] + t) == ['{'] + OptionalCatchAlls(t) by {
      OptionalCatchAllsPlainHead('{', t);
    }
    assert OptionalCatchAlls(t) == (c + "}") + o by {
      OptionalCatchAllsSkip(c + "}", rest);
    }
  }

  lemma BraceRegroup(c: string, x: string)
    ensures "{" + c + "}" + x == ['{'] + ((c + "}") + x)
  {
  }

  /** A '{' not followed by "..." is copied as it is. */
  lemma OptionalCatchAllsPlainHead(h: char, t: string)
    requires t == [] || t[0] != '.'
    ensures OptionalCatchAlls([h] + t) == [h] + OptionalCatchAlls(t)
  {
    var s := [h] + t;
    assert !OpensWithDots(s, '{');
    assert s[1..] == t;
  }

  lemma BraceCatchAllInner(x: string)
    requires Plain(x) && x != []
    ensures Trim(Trim(ReplaceAll("{" + ("..." + (x + "}")), "...", ""), '{'), '}') == x
  {
    PlainExcludes(x);
    var y := x + "}";
    DotlessSkip(y, []);
    assert y + [] == y;
    assert ReplaceAll(y, "...", "") == y;
    ReplaceAllAtStart(y, "...", "");
    assert ReplaceAll("..." + y, "...", "") == y;
    DotlessSkip("{", "..." + y);
    assert ReplaceAll("{" + ("..." + y), "...", "") == "{" + y;
    assert "{" + y == "{" + x + "}";
    assert PlainChar(x[0]) && PlainChar(x[|x| - 1]);
    TrimBraces(x);
  }

  lemma OptionalCatchAllsOfCatchAllText(x: string, rest: string)
    requires Plain(x) && x != []
    ensures OptionalCatchAlls("{..." + x + "}" + rest) == "{" + x + "?}" + OptionalCatchAlls(rest)
  {
    PlainExcludes(x);
    var s := "{..." + x + "}" + rest;
    Bracketed("{...", x, '}', rest);
    assert BraceCatchAllAt(s) == Some(4 + |x|);
    var m := s[..|x| + 5];
    assert m == "{" + ("..." + (x + "}"));
    BraceCatchAllInner(x);
  }

  /** Camel-casing `...x` keeps the dots and leaves the first letter of x as it is. */
  lemma CamelOfDots(n: string)
    ensures Camel("..." + n) == "..." + StudlyFrom(n, false)
  {
    CamelBehindPrefix("...", n);
  }

  lemma OptionalCatchAllsOfDots(x: string, c: string, rest: string)
    requires Plain(x) && x != [] && c == "..." + x
    ensures OptionalCatchAlls("{" + c + "}" + rest) == "{" + x + "?}" + OptionalCatchAlls(rest)
  {
    var s := "{" + c + "}" + rest;
    assert s == "{..." + x + "}" + rest;
    OptionalCatchAllsOfCatchAllText(x, rest);
  }

  lemma OptionalCatchAllsOfCatchAll(n: string, rest: string)
    requires IsName(n)
    ensures OptionalCatchAlls("{" + Camel("..." + n) + "}" + rest) == "{" + StudlyFrom(n, false) + "?}" + OptionalCatchAlls(rest)
  {
    CamelPlain(n);
    StudlyNonEmpty(n);
    CamelOfDots(n);
    OptionalCatchAllsOfDots(StudlyFrom(n, false), Camel("..." + n), rest);
  }

  lemma OptionalCatchAllsSegment(seg: Segment, rest: string)
    requires WellFormed(seg)
    ensures OptionalCatchAlls(SegmentText(seg, BracesCamel) + rest) == SegmentText(seg, LaravelDone) + OptionalCatchAlls(rest)
  {
    match seg
    case Static(t) =>
      PlainExcludes(t);
      OptionalCatchAllsSkip(t, rest);
    case Group(n) =>
      assert "" + rest == rest;
    case Dynamic(n) =>
      OptionalCatchAllsOfDynamic(n, rest);
    case CatchAll(n) =>
      OptionalCatchAllsOfCatchAll(n, rest);
  }
  // ---------------------------------------------------------------------
  // Whole paths, one stage at a time
  // ---------------------------------------------------------------------

  lemma StripGroupsStep(h: string, h2: string, t: string, t2: string)
    requires StripGroups(h + ("/" + t)) == h2 + StripGroups("/" + t)
    requires StripGroups(t) == t2
    ensures StripGroups(h + ("/" + t)) == h2 + ("/" + t2)
  {
    StripGroupsSkip("/", t);
  }

  /** Removing groups deletes exactly the group segments' text; the separators stay. */
  lemma {:induction false} StripGroupsRender(segs: seq<Segment>, from: Stage)
    requires AllWellFormed(segs)
    requires from == File || from == Braces
    ensures StripGroups(Render(segs, from)) == Render(segs, Ungrouped(from))
    decreases |segs|
  {
    if |segs| == 1 {
      StripGroupsSegment(segs[0], from, []);
      assert SegmentText(segs[0], from) + [] == SegmentText(segs[0], from);
      assert SegmentText(segs[0], Ungrouped(from)) + [] == SegmentText(segs[0], Ungrouped(from));
    } else if |segs| >= 2 {
      RenderCons(segs, from);
      RenderCons(segs, Ungrouped(from));
      var tail := Render(segs[1..], from);
      StripGroupsSegment(segs[0], from, "/" + tail);
      assert AllWellFormed(segs[1..]);
      StripGroupsRender(segs[1..], from);
      StripGroupsStep(SegmentText(segs[0], from), SegmentText(segs[0], Ungrouped(from)), tail, Render(segs[1..], Ungrouped(from)));
    }
  }

  lemma RewriteCatchAllsStep(h: string, h2: string, t: string, t2: string, fw: Framework)
    requires RewriteCatchAlls(h + ("/" + t), fw) == h2 + RewriteCatchAlls("/" + t, fw)
    requires RewriteCatchAlls(t, fw) == t2
    ensures RewriteCatchAlls(h + ("/" + t), fw) == h2 + ("/" + t2)
  {
    RewriteCatchAllsSkip("/", t, fw);
  }

  lemma {:induction false} RewriteCatchAllsRender(segs: seq<Segment>, fw: Framework)
    requires AllWellFormed(segs)
    ensures RewriteCatchAlls(Render(segs, NoGroups), fw) == Render(segs, CatchAllsDone(fw))
    decreases |segs|
  {
    if |segs| == 1 {
      RewriteCatchAllsSegment(segs[0], fw, []);
      assert SegmentText(segs[0], NoGroups) + [] == SegmentText(segs[0], NoGroups);
      assert SegmentText(segs[0], CatchAllsDone(fw)) + [] == SegmentText(segs[0], CatchAllsDone(fw));
    } else if |segs| >= 2 {
      RenderCons(segs, NoGroups);
      RenderCons(segs, CatchAllsDone(fw));
      var tail := Render(segs[1..], NoGroups);
      RewriteCatchAllsSegment(segs[0], fw, "/" + tail);
      assert AllWellFormed(segs[1..]);
      RewriteCatchAllsRender(segs[1..], fw);
      RewriteCatchAllsStep(SegmentText(segs[0], NoGroups), SegmentText(segs[0], CatchAllsDone(fw)), tail, Render(segs[1..], CatchAllsDone(fw)), fw);
    }
  }

  lemma RewriteDynamicsStep(h: string, h2: string, t: string, t2: string)
    requires RewriteDynamics(h + ("/" + t)) == h2 + RewriteDynamics("/" + t)
    requires RewriteDynamics(t) == t2
    ensures RewriteDynamics(h + ("/" + t)) == h2 + ("/" + t2)
  {
    RewriteDynamicsSkip("/", t);
  }

  lemma {:induction false} RewriteDynamicsRender(segs: seq<Segment>, fw: Framework)
    requires AllWellFormed(segs)
    ensures RewriteDynamics(Render(segs, CatchAllsDone(fw))) == Render(segs, DynamicsDone(fw))
    decreases |segs|
  {
    if |segs| == 1 {
      RewriteDynamicsSegment(segs[0], fw, []);
      assert SegmentText(segs[0], CatchAllsDone(fw)) + [] == SegmentText(segs[0], CatchAllsDone(fw));
      assert SegmentText(segs[0], DynamicsDone(fw)) + [] == SegmentText(segs[0], DynamicsDone(fw));
    } else if |segs| >= 2 {
      RenderCons(segs, CatchAllsDone(fw));
      RenderCons(segs, DynamicsDone(fw));
      var tail := Render(segs[1..], CatchAllsDone(fw));
      RewriteDynamicsSegment(segs[0], fw, "/" + tail);
      assert AllWellFormed(segs[1..]);
      RewriteDynamicsRender(segs[1..], fw);
      RewriteDynamicsStep(SegmentText(segs[0], CatchAllsDone(fw)), SegmentText(segs[0], DynamicsDone(fw)), tail, Render(segs[1..], DynamicsDone(fw)));
    }
  }

  lemma DotsStep(h: string, h2: string, t: string, t2: string)
    requires ReplaceAll(h + ("/" + t), "...", "") == h2 + ReplaceAll("/" + t, "...", "")
    requires ReplaceAll(t, "...", "") == t2
    ensures ReplaceAll(h + ("/" + t), "...", "") == h2 + ("/" + t2)
  {
    DotlessSkip("/", t);
  }

  lemma {:induction false} DotsRender(segs: seq<Segment>, fw: Framework)
    requires AllWellFormed(segs)
    ensures ReplaceAll(Render(segs, DynamicsDone(fw)), "...", "") == Render(segs, RouterDone(fw))
    decreases |segs|
  {
    if |segs| == 1 {
      DotsSegment(segs[0], fw, []);
      assert SegmentText(segs[0], DynamicsDone(fw)) + [] == SegmentText(segs[0], DynamicsDone(fw));
      assert SegmentText(segs[0], RouterDone(fw)) + [] == SegmentText(segs[0], RouterDone(fw));
    } else if |segs| >= 2 {
      RenderCons(segs, DynamicsDone(fw));
      RenderCons(segs, RouterDone(fw));
      var tail := Render(segs[1..], DynamicsDone(fw));
      DotsSegment(segs[0], fw, "/" + tail);
      assert AllWellFormed(segs[1..]);
      DotsRender(segs[1..], fw);
      DotsStep(SegmentText(segs[0], DynamicsDone(fw)), SegmentText(segs[0], RouterDone(fw)), tail, Render(segs[1..], RouterDone(fw)));
    }
  }

  lemma CamelBracesStep(h: string, h2: string, t: string, t2: string)
    requires CamelBraces(h + ("/" + t)) == h2 + CamelBraces("/" + t)
    requires CamelBraces(t) == t2
    ensures CamelBraces(h + ("/" + t)) == h2 + ("/" + t2)
  {
    CamelBracesSkip("/", t);
  }

  lemma {:induction false} CamelBracesRender(segs: seq<Segment>)
    requires AllWellFormed(segs)
    ensures CamelBraces(Render(segs, BracesNoGroups)) == Render(segs, BracesCamel)
    decreases |segs|
  {
    if |segs| == 1 {
      CamelBracesSegment(segs[0], []);
      assert SegmentText(segs[0], BracesNoGroups) + [] == SegmentText(segs[0], BracesNoGroups);
      assert SegmentText(segs[0], BracesCamel) + [] == SegmentText(segs[0], BracesCamel);
    } else if |segs| >= 2 {
      RenderCons(segs, BracesNoGroups);
      RenderCons(segs, BracesCamel);
      var tail := Render(segs[1..], BracesNoGroups);
      CamelBracesSegment(segs[0], "/" + tail);
      assert AllWellFormed(segs[1..]);
      CamelBracesRender(segs[1..]);
      CamelBracesStep(SegmentText(segs[0], BracesNoGroups), SegmentText(segs[0], BracesCamel), tail, Render(segs[1..], BracesCamel));
    }
  }

  lemma OptionalCatchAllsStep(h: string, h2: string, t: string, t2: string)
    requires OptionalCatchAlls(h + ("/" + t)) == h2 + OptionalCatchAlls("/" + t)
    requires OptionalCatchAlls(t) == t2
    ensures OptionalCatchAlls(h + ("/" + t)) == h2 + ("/" + t2)
  {
    OptionalCatchAllsSkip("/", t);
  }

  lemma {:induction false} OptionalCatchAllsRender(segs: seq<Segment>)
    requires AllWellFormed(segs)
    ensures OptionalCatchAlls(Render(segs, BracesCamel)) == Render(segs, LaravelDone)
    decreases |segs|
  {
    if |segs| == 1 {
      OptionalCatchAllsSegment(segs[0], []);
      assert SegmentText(segs[0], BracesCamel) + [] == SegmentText(segs[0], BracesCamel);
      assert SegmentText(segs[0], LaravelDone) + [] == SegmentText(segs[0], LaravelDone);
    } else if |segs| >= 2 {
      RenderCons(segs, BracesCamel);
      RenderCons(segs, LaravelDone);
      var tail := Render(segs[1..], BracesCamel);
      OptionalCatchAllsSegment(segs[0], "/" + tail);
      assert AllWellFormed(segs[1..]);
      OptionalCatchAllsRender(segs[1..]);
      OptionalCatchAllsStep(SegmentText(segs[0], BracesCamel), SegmentText(segs[0], LaravelDone), tail, Render(segs[1..], LaravelDone));
    }
  }

  lemma {:induction false} BracesRender(segs: seq<Segment>)
    requires AllWellFormed(segs)
    ensures BracesOf(Render(segs, File)) == Render(segs, Braces)
    decreases |segs|
  {
    if |segs| == 1 {
      BracesSegment(segs[0]);
    } else if |segs| >= 2 {
      RenderCons(segs, File);
      RenderCons(segs, Braces);
      var head := FileText(segs[0]);
      var tail := Render(segs[1..], File);
      BracesSegment(segs[0]);
      BracesConcat(head + "/", tail);
      BracesConcat(head, "/");
      BracesPlain("/");
      BracesRender(segs[1..]);
    } else {
      assert Render(segs, File) == [];
      BracesPlain([]);
    }
  }
  lemma {:induction false} JoinSnoc(parts: seq<string>, x: string)
    requires |parts| >= 1
    ensures Join(parts + [x], "/") == Join(parts, "/") + ("/" + x)
    decreases |parts|
  {
    var all := parts + [x];
    assert all[0] == parts[0];
    if |parts| == 1 {
      assert all[1..] == [x];
    } else {
      assert all[1..] == parts[1..] + [x];
      JoinSnoc(parts[1..], x);
    }
  }

  lemma RenderSnoc(segs: seq<Segment>, stage: Stage)
    requires |segs| >= 2
    ensures Render(segs, stage) == Render(segs[..|segs| - 1], stage) + ("/" + SegmentText(segs[|segs| - 1], stage))
  {
    var init := segs[..|segs| - 1];
    var last := SegmentText(segs[|segs| - 1], stage);
    TextsSnoc(segs, stage);
    JoinSnoc(Texts(init, stage), last);
  }

  lemma TextsSnoc(segs: seq<Segment>, stage: Stage)
    requires |segs| >= 1
    ensures Texts(segs, stage) == Texts(segs[..|segs| - 1], stage) + [SegmentText(segs[|segs| - 1], stage)]
  {
    var n := |segs|;
    var init := segs[..n - 1];
    var a := Texts(segs, stage);
    var b := Texts(init, stage) + [SegmentText(segs[n - 1], stage)];
    assert |a| == |b|;
    forall i | 0 <= i < n ensures a[i] == b[i] {
      if i < n - 1 {
        assert init[i] == segs[i];
      }
    }
  }

  // ---------------------------------------------------------------------
  // A trailing `index`
  // ---------------------------------------------------------------------

  /** The segments after `replaceEnd('index', '')`: a final static segment loses a trailing `index`. */
  function DropIndex(segs: seq<Segment>): (r: seq<Segment>)
    ensures |r| == |segs|
    ensures forall i :: 0 <= i < |segs| - 1 ==> r[i] == segs[i]
  {
    if segs != [] && segs[|segs| - 1].Static? && EndsWith(segs[|segs| - 1].text, "index") then
      var t := segs[|segs| - 1].text;
      segs[..|segs| - 1] + [Static(t[..|t| - 5])]
    else segs
  }

  lemma DropIndexWellFormed(segs: seq<Segment>)
    requires AllWellFormed(segs)
    ensures AllWellFormed(DropIndex(segs))
  {
    var r := DropIndex(segs);
    forall i | 0 <= i < |r| ensures WellFormed(r[i]) {
      if i == |segs| - 1 && r != segs {
        var t := segs[i].text;
        assert WellFormed(segs[i]);
        assert r[i] == Static(t[..|t| - 5]);
        assert forall k :: 0 <= k < |t| - 5 ==> t[..|t| - 5][k] == t[k];
      } else {
        assert r[i] == segs[i];
      }
    }
  }

  lemma SuffixNotIndex(p: string, t: string)
    requires p == [] || p[|p| - 1] == '/'
    requires !EndsWith(t, "index")
    ensures !EndsWith(p + t, "index")
  {
    var r := p + t;
    if |r| >= 5 {
      if |t| >= 5 {
        assert r[|r| - 5..] == t[|t| - 5..];
      } else {
        assert r[|r| - 5..][4 - |t|] == p[|p| - 1];
      }
    }
  }

  /** The rendering of all segments but the last, with the separator before the last one. */
  function LastPrefix(segs: seq<Segment>, stage: Stage): (p: string)
    requires |segs| >= 1
    ensures p == [] || p[|p| - 1] == '/'
  {
    if |segs| == 1 then [] else Render(segs[..|segs| - 1], stage) + "/"
  }

  lemma RenderLast(segs: seq<Segment>, stage: Stage)
    requires |segs| >= 1
    ensures Render(segs, stage) == LastPrefix(segs, stage) + SegmentText(segs[|segs| - 1], stage)
  {
    if |segs| == 1 {
      RenderOne(segs, stage);
    } else {
      RenderSnoc(segs, stage);
    }
  }

  lemma DropIndexOfStatic(segs: seq<Segment>)
    requires |segs| >= 1 && segs[|segs| - 1].Static? && EndsWith(segs[|segs| - 1].text, "index")
    ensures ReplaceEnd(Render(segs, Braces), "index", "") == Render(DropIndex(segs), Braces)
  {
    var m := |segs| - 1;
    var t := segs[m].text;
    var p := LastPrefix(segs, Braces);
    var segs2 := DropIndex(segs);
    assert Render(segs, Braces) == p + t by {
      RenderLast(segs, Braces);
    }
    assert Render(segs2, Braces) == p + t[..|t| - 5] by {
      assert segs2 == segs[..m] + [Static(t[..|t| - 5])];
      assert segs2[..m] == segs[..m];
      assert LastPrefix(segs2, Braces) == p;
      RenderLast(segs2, Braces);
    }
    ReplaceEndIndex(p, t);
  }

  lemma ReplaceEndIndex(p: string, t: string)
    requires EndsWith(t, "index")
    ensures ReplaceEnd(p + t, "index", "") == p + t[..|t| - 5]
  {
    var r := p + t;
    assert r[|r| - 5..] == t[|t| - 5..];
    assert r[..|r| - 5] == p + t[..|t| - 5];
    assert p + t[..|t| - 5] + "" == p + t[..|t| - 5];
  }

  lemma DropIndexOfOther(segs: seq<Segment>)
    requires AllWellFormed(segs)
    requires |segs| >= 1 && !(segs[|segs| - 1].Static? && EndsWith(segs[|segs| - 1].text, "index"))
    ensures ReplaceEnd(Render(segs, Braces), "index", "") == Render(DropIndex(segs), Braces)
  {
    var last := segs[|segs| - 1];
    var t := SegmentText(last, Braces);
    RenderLast(segs, Braces);
    assert !EndsWith(t, "index") by {
      if !last.Static? {
        assert t[|t| - 1] == '}' || t[|t| - 1] == ')';
      }
    }
    SuffixNotIndex(LastPrefix(segs, Braces), t);
  }

  /** `replaceEnd('index', '')` on the braced path removes `index` from the last segment only when it is static. */
  lemma DropIndexRender(segs: seq<Segment>)
    requires AllWellFormed(segs)
    ensures ReplaceEnd(Render(segs, Braces), "index", "") == Render(DropIndex(segs), Braces)
  {
    if segs != [] {
      var last := segs[|segs| - 1];
      if last.Static? && EndsWith(last.text, "index") {
        DropIndexOfStatic(segs);
      } else {
        DropIndexOfOther(segs);
      }
    }
  }

  // ---------------------------------------------------------------------
  // The three formats of a page written as segments
  // ---------------------------------------------------------------------

  /** A file extension: non-empty and plain. */
  predicate IsExtension(ext: string) { ext != [] && Plain(ext) }

  lemma WithoutExtension(p: string, ext: string)
    requires IsExtension(ext)
    ensures RelativePathWithoutExtension(p + "." + ext) == p
  {
    PlainHasNoDotOrSlash(ext);
    WithoutSuffixExtension(p, ext);
  }

  /**
   * vueRouteFormattedPath / reactRouteFormattedPath: groups vanish, each parameter and catch-all
   * is written in router syntax, a trailing `_layout` and then `index` are dropped, and the
   * slashes are collapsed.
   */
  lemma RouterPathOfSegments(segs: seq<Segment>, ext: string, fw: Framework)
    requires AllWellFormed(segs) && IsExtension(ext)
    ensures RouterPath(Render(segs, File) + "." + ext, fw)
         == Finish(ReplaceEnd(ReplaceEnd(Render(segs, RouterDone(fw)), "_layout", ""), "index", ""))
  {
    WithoutExtension(Render(segs, File), ext);
    StripGroupsRender(segs, File);
    RewriteCatchAllsRender(segs, fw);
    RewriteDynamicsRender(segs, fw);
    DotsRender(segs, fw);
  }

  /**
   * laravelFormattedRoutePath: a trailing static `index` is dropped, groups vanish, `[x]` becomes
   * `{camel(x)}` and `[...x]` the optional `{y?}`, y being x studly-cased with its first
   * letter's case kept, and the slashes are collapsed.
   */
  lemma LaravelPathOfSegments(segs: seq<Segment>, ext: string)
    requires AllWellFormed(segs) && IsExtension(ext)
    ensures LaravelFormattedRoutePath(Render(segs, File) + "." + ext) == Finish(Render(DropIndex(segs), LaravelDone))
  {
    WithoutExtension(Render(segs, File), ext);
    BracesRender(segs);
    DropIndexRender(segs);
    var segs2 := DropIndex(segs);
    DropIndexWellFormed(segs);
    StripGroupsRender(segs2, Braces);
    CamelBracesRender(segs2);
    OptionalCatchAllsRender(segs2);
  }

  // ---------------------------------------------------------------------
  // Paths the slash collapse leaves alone
  // ---------------------------------------------------------------------

  /** Every segment text at the stage is non-empty and holds no '/'. */
  predicate SlashFree(segs: seq<Segment>, stage: Stage)
  {
    forall i :: 0 <= i < |segs| ==> SegmentText(segs[i], stage) != [] && '/' !in SegmentText(segs[i], stage)
  }

  lemma NoDoubleSlashAppend(a: string, b: string)
    requires !HasDoubleSlash(a) && !HasDoubleSlash(b)
    requires a == [] || b == [] || a[|a| - 1] != '/' || b[0] != '/'
    ensures !HasDoubleSlash(a + b)
  {
    var s := a + b;
    forall i | 0 <= i < |s| - 1 ensures !(s[i] == '/' && s[i + 1] == '/') {
      if i + 1 < |a| {
        assert s[i] == a[i] && s[i + 1] == a[i + 1];
      } else if i >= |a| {
        assert s[i] == b[i - |a|] && s[i + 1] == b[i - |a| + 1];
      }
    }
  }

  lemma NoSlashNoDoubleSlash(t: string)
    requires '/' !in t
    ensures !HasDoubleSlash(t)
  {
    forall i | 0 <= i < |t| - 1 ensures t[i] != '/' {
    }
  }

  lemma {:induction false} RenderNoDoubleSlash(segs: seq<Segment>, stage: Stage)
    requires |segs| >= 1 && SlashFree(segs, stage)
    ensures var r := Render(segs, stage); !HasDoubleSlash(r) && r != [] && r[0] != '/'
    decreases |segs|
  {
    var t := SegmentText(segs[0], stage);
    NoSlashNoDoubleSlash(t);
    if |segs| == 1 {
      RenderOne(segs, stage);
    } else {
      var tail := segs[1..];
      assert SlashFree(tail, stage) by {
        forall i | 0 <= i < |tail| ensures SegmentText(tail[i], stage) != [] && '/' !in SegmentText(tail[i], stage) {
          assert tail[i] == segs[i + 1];
        }
      }
      RenderNoDoubleSlash(tail, stage);
      var r := Render(tail, stage);
      RenderCons(segs, stage);
      NoDoubleSlashCons('/', r);
      assert "/" + r == ['/'] + r;
      NoDoubleSlashAppend(t, "/" + r);
      assert t[|t| - 1] in t;
      assert (t + ("/" + r))[0] == t[0];
    }
  }

  /** A path whose segments are non-empty and slash-free at the stage is left as it is by the final collapse. */
  lemma FinishOfSlashFree(segs: seq<Segment>, stage: Stage)
    requires |segs| >= 1 && SlashFree(segs, stage)
    ensures Finish(Render(segs, stage)) == Render(segs, stage)
  {
    RenderNoDoubleSlash(segs, stage);
    CollapseSlashesFixed(Render(segs, stage));
  }
}

=== FILE: php_blocks.dfy ===
// The `<php>` blocks of a single-file component as the editor extension sees
// them: the blocks the pattern `<php[^>]*>([\s\S]*?)</php>` finds scanning
// left to right, the PHP virtual document made from their bodies, the test
// whether an offset lies in a block, the mapping of an offset to a position
// in the virtual document, and the store of virtual documents.

module PhpBlocks {
  import opened Text

  const Open: string := "<php"
  const Close: string := "</php>"
  const Header: string := "<?php\n"
  const Separator: string := "\n\n"

  /** One match: where it starts, where its body starts (just after the first
      `>`), and where its body ends (at the `</php>` that closes it). */
  datatype Block = Block(start: nat, bodyStart: nat, bodyEnd: nat)

  /** The pattern matches at b.start with the body b.bodyStart .. b.bodyEnd:
      `[^>]*` runs up to the first `>` after `<php`, and the lazy body stops at
      the first `</php>` after that `>`. */
  predicate IsMatch(text: string, b: Block)
  {
    && ContainsAt(text, Open, b.start)
    && b.start + |Open| < b.bodyStart <= b.bodyEnd
    && ContainsAt(text, Close, b.bodyEnd)
    && text[b.bodyStart - 1] == '>'
    && (forall k :: b.start + |Open| <= k < b.bodyStart - 1 ==> text[k] != '>')
    && (forall k :: b.bodyStart <= k < b.bodyEnd ==> !ContainsAt(text, Close, k))
  }

  /** A match attempted at position i. */
  function MatchAt(text: string, i: nat): (r: Option<Block>)
    ensures r.Some? ==> r.value.start == i && IsMatch(text, r.value)
    ensures r.None? ==> !MatchStartsAt(text, i)
  {
    if !ContainsAt(text, Open, i) then None
    else match IndexOf(text, '>', i + |Open|)
      case None => None
      case Some(g) =>
        match IndexOfSub(text, Close, g + 1)
        case None => None
        case Some(e) => Some(Block(i, g + 1, e))
  }

  /** `exec` from lastIndex `from`: the leftmost match starting at or after it. */
  function NextMatch(text: string, from: nat): (r: Option<Block>)
    ensures r.Some? ==> from <= r.value.start && IsMatch(text, r.value)
    ensures r.Some? ==> NoMatchBetween(text, from, r.value.start)
    ensures r.None? ==> NoMatchFrom(text, from)
    decreases |text| - from
  {
    if from >= |text| then None
    else match MatchAt(text, from)
      case Some(b) => Some(b)
      case None =>
        var r := NextMatch(text, from + 1);
        NoMatchExtended(text, from, r);
        r
  }

  /** No match at `from`: what holds of the search from from + 1 holds from `from`. */
  lemma NoMatchExtended(text: string, from: nat, r: Option<Block>)
    requires !MatchStartsAt(text, from)
    requires r.Some? ==> from + 1 <= r.value.start && NoMatchBetween(text, from + 1, r.value.start)
    requires r.None? ==> NoMatchFrom(text, from + 1)
    ensures r.Some? ==> NoMatchBetween(text, from, r.value.start)
    ensures r.None? ==> NoMatchFrom(text, from)
  {
  }

  /** Some match of the pattern, whatever its body, starts at p. */
  ghost predicate MatchStartsAt(text: string, p: nat)
  {
    exists g, e :: IsMatch(text, Block(p, g, e))
  }

  /** No match of the pattern starts in lo .. hi - 1. */
  ghost predicate NoMatchBetween(text: string, lo: nat, hi: nat)
  {
    forall p: nat :: lo <= p < hi ==> !MatchStartsAt(text, p)
  }

  /** No match of the pattern starts at lo or later. */
  ghost predicate NoMatchFrom(text: string, lo: nat)
  {
    forall p: nat :: lo <= p ==> !MatchStartsAt(text, p)
  }

  /** Where the search for block k resumes: at `from` for the first, else just after the `</php>` of block k - 1. */
  function ResumeAt(from: nat, bs: seq<Block>, k: nat): nat
    requires k <= |bs|
  {
    if k == 0 then from else bs[k - 1].bodyEnd + |Close|
  }

  /** All matches of the global pattern from `from` on, each search resuming
      just after the previous match's `</php>`. */
  function BlocksFrom(text: string, from: nat): (bs: seq<Block>)
    ensures forall k :: 0 <= k < |bs| ==> from <= bs[k].start && IsMatch(text, bs[k])
    ensures forall j, k :: 0 <= j < k < |bs| ==> bs[j].bodyEnd + |Close| <= bs[k].start
    decreases |text| - from
  {
    match NextMatch(text, from)
    case None => []
    case Some(b) => [b] + BlocksFrom(text, b.bodyEnd + |Close|)
  }

  /** No match starts between `from` and the first block of bs, between the
      `</php>` of each block and the start of the next, or after the last. */
  ghost predicate Chain(text: string, from: nat, bs: seq<Block>)
    decreases |bs|
  {
    if bs == [] then NoMatchFrom(text, from)
    else NoMatchBetween(text, from, bs[0].start) && Chain(text, bs[0].bodyEnd + |Close|, bs[1..])
  }

  /** The global search lists the matches as a chain. */
  lemma {:induction false} BlocksFromChain(text: string, from: nat)
    ensures Chain(text, from, BlocksFrom(text, from))
    decreases |BlocksFrom(text, from)|
  {
    var r := NextMatch(text, from);
    if r.None? {
      BlocksFromNone(text, from);
      ChainNil(text, from, BlocksFrom(text, from));
    } else {
      var next := r.value.bodyEnd + |Close|;
      BlocksFromUnfold(text, from);
      BlocksFromChain(text, next);
      ChainCons(text, from, r.value, BlocksFrom(text, next), BlocksFrom(text, from));
    }
  }

  lemma BlocksFromNone(text: string, from: nat)
    requires NextMatch(text, from).None?
    ensures BlocksFrom(text, from) == []
  {
  }

  lemma ChainNil(text: string, from: nat, bs: seq<Block>)
    requires NoMatchFrom(text, from) && bs == []
    ensures Chain(text, from, bs)
  {
  }

  lemma ChainCons(text: string, from: nat, b: Block, rest: seq<Block>, bs: seq<Block>)
    requires NoMatchBetween(text, from, b.start) && Chain(text, b.bodyEnd + |Close|, rest) && bs == [b] + rest
    ensures Chain(text, from, bs)
  {
    assert bs[1..] == rest;
  }

  /** In a chain, no match starts between where the search for block k resumes
      and block k, or after the last block's `</php>`. */
  lemma {:induction false} ChainAt(text: string, from: nat, bs: seq<Block>, k: nat)
    requires Chain(text, from, bs) && k <= |bs|
    ensures k < |bs| ==> NoMatchBetween(text, ResumeAt(from, bs, k), bs[k].start)
    ensures k == |bs| ==> NoMatchFrom(text, ResumeAt(from, bs, k))
    decreases k
  {
    if k > 0 {
      var next := bs[0].bodyEnd + |Close|;
      var rest := bs[1..];
      assert Chain(text, next, rest);
      ChainAt(text, next, rest, k - 1);
      ResumeShift(from, next, bs, rest, k);
      if k < |bs| {
        GapMoved(text, ResumeAt(from, bs, k), ResumeAt(next, rest, k - 1), bs[k].start, rest[k - 1].start);
      } else {
        NoMatchFromMoved(text, ResumeAt(from, bs, k), ResumeAt(next, rest, k - 1));
      }
    }
  }

  /** Past the first block, resume points in bs are those in rest shifted by one. */
  lemma ResumeShift(from: nat, next: nat, bs: seq<Block>, rest: seq<Block>, k: nat)
    requires |bs| == 1 + |rest| && 0 < k <= |bs| && next == bs[0].bodyEnd + |Close|
    requires 1 < k ==> bs[k - 1] == rest[k - 2]
    ensures ResumeAt(from, bs, k) == ResumeAt(next, rest, k - 1)
  {
  }

  lemma GapMoved(text: string, lo: nat, lo': nat, hi: nat, hi': nat)
    requires lo == lo' && hi == hi' && NoMatchBetween(text, lo', hi')
    ensures NoMatchBetween(text, lo, hi)
  {
  }

  lemma NoMatchFromMoved(text: string, at: nat, at': nat)
    requires at == at' && NoMatchFrom(text, at')
    ensures NoMatchFrom(text, at)
  {
  }

  /** The global search skips no match: none starts between two blocks, before the first or after the last. */
  lemma BlocksFromComplete(text: string, from: nat)
    ensures var bs := BlocksFrom(text, from);
      && (forall k :: 0 <= k < |bs| ==> NoMatchBetween(text, ResumeAt(from, bs, k), bs[k].start))
      && NoMatchFrom(text, ResumeAt(from, bs, |bs|))
  {
    var bs := BlocksFrom(text, from);
    BlocksFromChain(text, from);
    forall k | 0 <= k < |bs| ensures NoMatchBetween(text, ResumeAt(from, bs, k), bs[k].start) {
      ChainAt(text, from, bs, k);
    }
    ChainAt(text, from, bs, |bs|);
  }

  /** extractPhpContent() gives `""` exactly when the pattern matches nowhere in the text. */
  lemma NoContentIffNoMatch(text: string)
    ensures ExtractPhpContent(text) == "" <==> NoMatchFrom(text, 0)
  {
    var bs := Blocks(text);
    BlocksFromComplete(text, 0);
    if bs != [] {
      assert IsMatch(text, Block(bs[0].start, bs[0].bodyStart, bs[0].bodyEnd));
      assert MatchStartsAt(text, bs[0].start);
    }
  }

  function Blocks(text: string): seq<Block>
  {
    BlocksFrom(text, 0)
  }

  /** The captured body of a block (`match[1]`). */
  function Body(text: string, b: Block): string
    requires IsMatch(text, b)
  {
    text[b.bodyStart..b.bodyEnd]
  }

  /** The bodies of all blocks, in document order. */
  function Bodies(text: string): (bodies: seq<string>)
    ensures |bodies| == |Blocks(text)|
    ensures forall k :: 0 <= k < |bodies| ==> bodies[k] == Body(text, Blocks(text)[k])
  {
    var bs := Blocks(text);
    seq(|bs|, k requires 0 <= k < |bs| => Body(text, bs[k]))
  }

  /** extractPhpContent(): `""` without blocks, else the PHP header followed by
      the bodies separated by blank lines. */
  function ExtractPhpContent(text: string): (r: string)
    ensures r == "" <==> Blocks(text) == []
    ensures r != "" ==> StartsWith(r, Header)
  {
    var bodies := Bodies(text);
    if bodies == [] then "" else Header + Join(bodies, Separator)
  }

  // ---------------------------------------------------------------------
  // offsets in blocks
  // ---------------------------------------------------------------------

  /** The first block whose body range, both ends included, holds the offset. */
  function Containing(bs: seq<Block>, offset: int): (r: Option<nat>)
    ensures r.Some? ==> r.value < |bs| && bs[r.value].bodyStart <= offset <= bs[r.value].bodyEnd
    ensures r.Some? ==> forall j :: 0 <= j < r.value ==> !(bs[j].bodyStart <= offset <= bs[j].bodyEnd)
    ensures r.None? <==> forall j :: 0 <= j < |bs| ==> !(bs[j].bodyStart <= offset <= bs[j].bodyEnd)
  {
    if bs == [] then None
    else if bs[0].bodyStart <= offset <= bs[0].bodyEnd then Some(0)
    else match Containing(bs[1..], offset)
      case None => None
      case Some(k) => Some(k + 1)
  }

  /** isInPhpBlock(): the offset lies in the body of some block, both ends included. */
  function IsInPhpBlock(text: string, offset: int): (r: bool)
    ensures r <==> exists k :: 0 <= k < |Blocks(text)| && Blocks(text)[k].bodyStart <= offset <= Blocks(text)[k].bodyEnd
  {
    Containing(Blocks(text), offset).Some?
  }

  /** A position in a document: zero-based line and character. */
  datatype Position = Position(line: nat, character: nat)

  /** convertToPhpPosition() as written: the line is one past the number of
      line breaks in the body before the offset, and the character is the
      length of the text after the last of them. */
  function ConvertToPhpPosition(text: string, offset: int): Option<Position>
  {
    var bs := Blocks(text);
    match Containing(bs, offset)
    case None => None
    case Some(k) => Some(LinePosition(text[bs[k].bodyStart..offset]))
  }

  /**
   * The position computed from the body text before the offset, split at line breaks: the
   * index of the last line plus one for the `<?php` line, and the length of the last line.
   */
  function LinePosition(piece: string): Position
  {
    var lines := Split(piece, '\n');
    Position(|lines|, |lines[|lines| - 1]|)
  }

  // ---------------------------------------------------------------------
  // line and column of the end of a text
  // ---------------------------------------------------------------------

  /** The number of line breaks in s: the line on which s ends. */
  function Newlines(s: string): nat
    decreases |s|
  {
    if s == [] then 0 else Newlines(s[..|s| - 1]) + (if s[|s| - 1] == '\n' then 1 else 0)
  }

  /** The number of characters after the last line break of s. */
  function Column(s: string): nat
    decreases |s|
  {
    if s == [] then 0 else if s[|s| - 1] == '\n' then 0 else Column(s[..|s| - 1]) + 1
  }

  /** The position just after the text s, as an editor counts it. */
  function EndPosition(s: string): Position
  {
    Position(Newlines(s), Column(s))
  }

  lemma {:induction false} NewlinesNone(s: string)
    ensures Newlines(s) == 0 <==> '\n' !in s
    ensures Newlines(s) == 0 ==> Column(s) == |s|
    decreases |s|
  {
    if s != [] {
      NewlinesNone(s[..|s| - 1]);
      assert s == s[..|s| - 1] + [s[|s| - 1]];
      if '\n' in s[..|s| - 1] {
        var i :| 0 <= i < |s| - 1 && s[..|s| - 1][i] == '\n';
        assert s[i] == '\n';
      }
    }
  }

  lemma {:induction false} EndPositionConcat(a: string, b: string)
    ensures Newlines(a + b) == Newlines(a) + Newlines(b)
    ensures Column(a + b) == if Newlines(b) == 0 then Column(a) + |b| else Column(b)
    decreases |b|
  {
    if b == [] {
      assert a + b == a;
    } else {
      assert (a + b)[..|a + b| - 1] == a + b[..|b| - 1];
      EndPositionConcat(a, b[..|b| - 1]);
    }
  }

  /** split("\n") has one more piece than there are line breaks, and the last
      piece is as long as the text after the last line break. */
  lemma {:induction false} SplitLines(s: string)
    ensures |Split(s, '\n')| == Newlines(s) + 1
    ensures |Split(s, '\n')[|Split(s, '\n')| - 1]| == Column(s)
    decreases |s|
  {
    match IndexOf(s, '\n', 0)
    case None =>
      assert Split(s, '\n') == [s];
      assert '\n' !in s;
      NewlinesNone(s);
    case Some(i) =>
      var rest := s[i + 1..];
      var parts := Split(s, '\n');
      assert parts == [s[..i]] + Split(rest, '\n');
      SplitLines(rest);
      NewlineCut(s, i);
      assert parts[|parts| - 1] == Split(rest, '\n')[|Split(rest, '\n')| - 1];
  }

  /** Cutting s at its first line break: the rest holds one line break fewer
      and ends on the same column. */
  lemma NewlineCut(s: string, i: nat)
    requires i < |s| && s[i] == '\n' && '\n' !in s[..i]
    ensures Newlines(s) == Newlines(s[i + 1..]) + 1 && Column(s) == Column(s[i + 1..])
  {
    var head := s[..i];
    var rest := s[i + 1..];
    var tail := ['\n'] + rest;
    assert s == head + tail;
    assert Newlines(tail) == Newlines(rest) + 1 && Column(tail) == Column(rest) by {
      assert Newlines(['\n']) == 1 && Column(['\n']) == 0 by {
        assert ['\n'][..0] == [];
      }
      NewlinesNone(rest);
      EndPositionConcat(['\n'], rest);
    }
    NewlinesNone(head);
    EndPositionConcat(head, tail);
  }

  lemma HeaderEnd()
    ensures Newlines(Header) == 1 && Column(Header) == 0
  {
    assert Header == "<?php" + ['\n'];
    EndPositionConcat("<?php", ['\n']);
    NewlinesNone("<?php");
    assert ['\n'][..0] == [];
  }

  lemma SeparatorEnd()
    ensures Newlines(Separator) == 2 && Column(Separator) == 0
  {
    assert Separator == ['\n'] + ['\n'];
    EndPositionConcat(['\n'], ['\n']);
    assert ['\n'][..0] == [];
  }

  /** The computed position is that of the end of the piece in a document
      holding only the header and the piece. */
  lemma LinePositionIsLocal(piece: string)
    ensures LinePosition(piece) == EndPosition(Header + piece)
  {
    SplitLines(piece);
    EndPositionConcat(Header, piece);
    HeaderEnd();
  }

  /** As written, the position is that of the offset in a document holding
      only the header and this one block's body. */
  lemma AsWrittenIsBlockLocal(text: string, offset: int)
    requires IsInPhpBlock(text, offset)
    ensures
      var bs := Blocks(text);
      var k := Containing(bs, offset).value;
      ConvertToPhpPosition(text, offset) == Some(EndPosition(Header + text[bs[k].bodyStart..offset]))
  {
    var bs := Blocks(text);
    var k := Containing(bs, offset).value;
    LinePositionIsLocal(text[bs[k].bodyStart..offset]);
  }

  // ---------------------------------------------------------------------
  // where each body sits in the virtual document
  // ---------------------------------------------------------------------

  /** The length of the first b parts, each followed by a separator of length sepLength. */
  function PrefixLength(parts: seq<string>, b: nat, sepLength: nat): nat
    requires b <= |parts|
    decreases b
  {
    if b == 0 then 0 else |parts[0]| + sepLength + PrefixLength(parts[1..], b - 1, sepLength)
  }

  lemma {:induction false} JoinStartsWithFirst(parts: seq<string>, sep: string, n: nat)
    requires parts != [] && n <= |parts[0]|
    ensures n <= |Join(parts, sep)| && Join(parts, sep)[..n] == parts[0][..n]
  {
    if |parts| > 1 {
      assert Join(parts, sep) == parts[0] + (sep + Join(parts[1..], sep));
    }
  }

  /** Cut the joined text n characters into part b: the parts before it joined,
      one separator, then the first n characters of part b. */
  lemma {:induction false} JoinCut(parts: seq<string>, sep: string, b: nat, n: nat)
    requires 1 <= b < |parts| && n <= |parts[b]|
    ensures PrefixLength(parts, b, |sep|) + n <= |Join(parts, sep)|
    ensures Join(parts, sep)[..PrefixLength(parts, b, |sep|) + n] == Join(parts[..b], sep) + sep + parts[b][..n]
    decreases b
  {
    var rest := parts[1..];
    var joined := Join(rest, sep);
    assert Join(parts, sep) == parts[0] + sep + joined;
    if b == 1 {
      JoinStartsWithFirst(rest, sep, n);
      assert parts[..1] == [parts[0]];
      assert PrefixLength(parts, 1, |sep|) == |parts[0]| + |sep| + PrefixLength(rest, 0, |sep|);
      CutAfterHead(parts[0], sep, joined, n);
    } else {
      var b1 := b - 1;
      JoinCut(rest, sep, b1, n);
      var m := PrefixLength(rest, b1, |sep|) + n;
      CutAfterHead(parts[0], sep, joined, m);
      JoinOfHead(parts, sep, b);
    }
  }

  lemma CutAfterHead(a: string, sep: string, t: string, m: nat)
    requires m <= |t|
    ensures (a + sep + t)[..|a| + |sep| + m] == a + sep + t[..m]
  {
  }

  lemma JoinOfHead(parts: seq<string>, sep: string, b: nat)
    requires 2 <= b <= |parts|
    ensures Join(parts[..b], sep) == parts[0] + sep + Join(parts[1..][..b - 1], sep)
  {
    assert parts[..b][1..] == parts[1..][..b - 1];
  }

  /** The virtual-document offset of the character at `offset` in block k: the
      header, every earlier body with its separator, then the offset into the
      body. This is the `phpOffset` that convertToPhpPosition accumulates. */
  function VirtualOffset(text: string, k: nat, offset: int): int
    requires k < |Blocks(text)|
  {
    |Header| + PrefixLength(Bodies(text), k, |Separator|) + (offset - Blocks(text)[k].bodyStart)
  }

  /** The header and the parts joined, cut n characters into part k. */
  lemma JoinedPrefix(parts: seq<string>, k: nat, n: nat)
    requires k < |parts| && n <= |parts[k]|
    ensures |Header| + PrefixLength(parts, k, |Separator|) + n <= |Header + Join(parts, Separator)|
    ensures (Header + Join(parts, Separator))[..|Header| + PrefixLength(parts, k, |Separator|) + n] ==
      if k == 0 then Header + parts[0][..n] else Header + Join(parts[..k], Separator) + Separator + parts[k][..n]
  {
    var m := PrefixLength(parts, k, |Separator|) + n;
    if k == 0 {
      JoinStartsWithFirst(parts, Separator, n);
    } else {
      JoinCut(parts, Separator, k, n);
    }
    assert (Header + Join(parts, Separator))[..|Header| + m] == Header + Join(parts, Separator)[..m];
  }

  /** What the virtual document holds ahead of body k: the header, then for a
      later block the earlier bodies joined and one separator. */
  function BeforeBody(text: string, k: nat): string
    requires k < |Blocks(text)|
  {
    if k == 0 then Header else Header + Join(Bodies(text)[..k], Separator) + Separator
  }

  /** The virtual document up to the offset: what comes ahead of body k, then
      the body up to the offset. */
  lemma VirtualPrefix(text: string, k: nat, offset: int)
    requires k < |Blocks(text)| && Blocks(text)[k].bodyStart <= offset <= Blocks(text)[k].bodyEnd
    ensures 0 <= VirtualOffset(text, k, offset) <= |ExtractPhpContent(text)|
    ensures
      ExtractPhpContent(text)[..VirtualOffset(text, k, offset)] ==
        BeforeBody(text, k) + text[Blocks(text)[k].bodyStart..offset]
  {
    var bodies := Bodies(text);
    var b := Blocks(text)[k];
    var n := offset - b.bodyStart;
    BodyAt(text, k);
    SliceOfSlice(text, b.bodyStart, b.bodyEnd, n);
    ExtractNonEmpty(text);
    AssemblePrefix(ExtractPhpContent(text), bodies, k, n, VirtualOffset(text, k, offset), BeforeBody(text, k), text[b.bodyStart..offset]);
  }

  /** The header and the parts joined, cut n characters into part k, is what comes ahead of part k and its first n characters. */
  lemma AssemblePrefix(v: string, parts: seq<string>, k: nat, n: nat, m: int, before: string, piece: string)
    requires k < |parts| && n <= |parts[k]|
    requires v == Header + Join(parts, Separator)
    requires m == |Header| + PrefixLength(parts, k, |Separator|) + n
    requires piece == parts[k][..n]
    requires before == if k == 0 then Header else Header + Join(parts[..k], Separator) + Separator
    ensures 0 <= m <= |v| && v[..m] == before + piece
  {
    JoinedPrefix(parts, k, n);
  }

  lemma BodyAt(text: string, k: nat)
    requires k < |Blocks(text)|
    ensures Blocks(text)[k].bodyStart <= Blocks(text)[k].bodyEnd <= |text|
    ensures Bodies(text)[k] == text[Blocks(text)[k].bodyStart..Blocks(text)[k].bodyEnd]
  {
  }

  lemma ExtractNonEmpty(text: string)
    requires Blocks(text) != []
    ensures ExtractPhpContent(text) == Header + Join(Bodies(text), Separator)
  {
  }

  lemma SliceOfSlice(s: string, i: nat, j: nat, n: nat)
    requires i <= j <= |s| && n <= j - i
    ensures s[i..j][..n] == s[i..i + n]
  {
  }

  /** The position the offset should map to: that of the same character in the
      virtual document. */
  function PhpPosition(text: string, offset: int): (r: Option<Position>)
    ensures r.None? <==> !IsInPhpBlock(text, offset)
  {
    var bs := Blocks(text);
    match Containing(bs, offset)
    case None => None
    case Some(k) =>
      VirtualPrefix(text, k, offset);
      Some(EndPosition(ExtractPhpContent(text)[..VirtualOffset(text, k, offset)]))
  }

  /** The intended mapping lands on the same character: the virtual document holds
      at the mapped offset the character the offset points at in the component. */
  lemma VirtualCharacter(text: string, k: nat, offset: int)
    requires k < |Blocks(text)| && Blocks(text)[k].bodyStart <= offset < Blocks(text)[k].bodyEnd
    ensures 0 <= VirtualOffset(text, k, offset) < |ExtractPhpContent(text)|
    ensures ExtractPhpContent(text)[VirtualOffset(text, k, offset)] == text[offset]
  {
    var b := Blocks(text)[k];
    VirtualPrefix(text, k, offset + 1);
    LastOfPrefix(ExtractPhpContent(text), VirtualOffset(text, k, offset + 1), BeforeBody(text, k), text, b.bodyStart, offset + 1);
  }

  /** A prefix of v that ends with src[i..j] has src[j - 1] as its last character. */
  lemma LastOfPrefix(v: string, m: int, before: string, src: string, i: nat, j: nat)
    requires i < j <= |src| && 0 <= m <= |v| && v[..m] == before + src[i..j]
    ensures 1 <= m && v[m - 1] == src[j - 1]
  {
    assert v[m - 1] == v[..m][m - 1];
    assert src[i..j][j - i - 1] == src[j - 1];
  }

  /** In the first block, the position as written is the intended one. */
  lemma FirstBlockExact(text: string, offset: int)
    requires Containing(Blocks(text), offset) == Some(0)
    ensures ConvertToPhpPosition(text, offset) == PhpPosition(text, offset)
  {
    AsWrittenIsBlockLocal(text, offset);
    VirtualPrefix(text, 0, offset);
  }

  /** In any later block, the line as written is at least two short of the line
      of the same character in the virtual document: every earlier body and its
      blank-line separator are left out of the count. */
  lemma LaterBlockShifted(text: string, offset: int)
    requires IsInPhpBlock(text, offset) && Containing(Blocks(text), offset).value >= 1
    ensures ConvertToPhpPosition(text, offset).Some? && PhpPosition(text, offset).Some?
    ensures ConvertToPhpPosition(text, offset).value.line + 2 <= PhpPosition(text, offset).value.line
  {
    var bs := Blocks(text);
    var k := Containing(bs, offset).value;
    var piece := text[bs[k].bodyStart..offset];
    var earlier := Join(Bodies(text)[..k], Separator);
    AsWrittenIsBlockLocal(text, offset);
    VirtualPrefix(text, k, offset);
    EndPositionConcat(Header, piece);
    EndPositionConcat(Header + earlier + Separator, piece);
    EndPositionConcat(Header + earlier, Separator);
    EndPositionConcat(Header, earlier);
    SeparatorEnd();
  }

  /** Two blocks `<php>x</php><php>y</php>` with bodies free of `<`, `>` and line
      breaks: the first character of the second body maps, as written, to line 1,
      where the virtual document holds the first body; that character is on line 3. */
  lemma SecondBlockCounterexample(x: string, y: string)
    requires '<' !in x && '>' !in x && '\n' !in x && '<' !in y && '>' !in y && y != ""
    ensures
      var text := "<php>" + x + "</php><php>" + y + "</php>";
      var offset := |x| + 16;
      && ConvertToPhpPosition(text, offset) == Some(Position(1, 0))
      && PhpPosition(text, offset) == Some(Position(3, 0))
  {
    SecondBlockAsWritten(x, y);
    SecondBlockIntended(x, y);
  }

  /** As written, the first character of the second body is put on line 1, column 0. */
  lemma SecondBlockAsWritten(x: string, y: string)
    requires '<' !in x && '>' !in x && '<' !in y && '>' !in y && y != ""
    ensures ConvertToPhpPosition("<php>" + x + "</php><php>" + y + "</php>", |x| + 16) == Some(Position(1, 0))
  {
    var text := "<php>" + x + "</php><php>" + y + "</php>";
    var offset := |x| + 16;
    assert Containing(Blocks(text), offset) == Some(1) by {
      TwoBlocks(x, y);
    }
    assert ConvertToPhpPosition(text, offset) == Some(EndPosition(Header + text[16 + |x|..offset])) by {
      TwoBlocks(x, y);
      AsWrittenIsBlockLocal(text, offset);
    }
    assert text[16 + |x|..offset] == "";
    assert Header + "" == Header;
    HeaderEnd();
  }

  /** The first character of the second body is on line 3, column 0 of the virtual document. */
  lemma SecondBlockIntended(x: string, y: string)
    requires '<' !in x && '>' !in x && '\n' !in x && '<' !in y && '>' !in y && y != ""
    ensures PhpPosition("<php>" + x + "</php><php>" + y + "</php>", |x| + 16) == Some(Position(3, 0))
  {
    var text := "<php>" + x + "</php><php>" + y + "</php>";
    var offset := |x| + 16;
    SecondBlockLocated(x, y);
    PhpPositionInBlock(text, 1, offset);
    OneBodyPrefix(Bodies(text), x, text[offset..offset]);
    AfterFirstBody(x);
  }

  /** The intended position of an offset in block k, as the end of the virtual
      document's text before it. */
  lemma PhpPositionInBlock(text: string, k: nat, offset: int)
    requires Containing(Blocks(text), offset) == Some(k)
    ensures
      var piece := text[Blocks(text)[k].bodyStart..offset];
      PhpPosition(text, offset) == Some(EndPosition(BeforeBody(text, k) + piece))
  {
    VirtualPrefix(text, k, offset);
  }

  lemma OneBodyPrefix(bodies: seq<string>, x: string, piece: string)
    requires |bodies| >= 1 && bodies[..1] == [x] && piece == ""
    ensures Header + Join(bodies[..1], Separator) + Separator + piece == (Header + x) + Separator
  {
    assert Join([x], Separator) == x;
  }

  /** In `<php>x</php><php>y</php>`, the offset |x| + 16 starts the body of the second block. */
  lemma SecondBlockLocated(x: string, y: string)
    requires '<' !in x && '>' !in x && '<' !in y && '>' !in y && y != ""
    ensures var text := "<php>" + x + "</php><php>" + y + "</php>";
      && Containing(Blocks(text), |x| + 16) == Some(1)
      && Blocks(text)[1].bodyStart == |x| + 16 <= Blocks(text)[1].bodyEnd
      && Bodies(text)[..1] == [x]
  {
    SecondBlockContains(x, y);
    FirstBody(x, y);
  }

  lemma SecondBlockContains(x: string, y: string)
    requires '<' !in x && '>' !in x && '<' !in y && '>' !in y && y != ""
    ensures var bs := Blocks("<php>" + x + "</php><php>" + y + "</php>");
      && |bs| == 2
      && Containing(bs, |x| + 16) == Some(1)
      && bs[1].bodyStart == |x| + 16 <= bs[1].bodyEnd
  {
    var bs := Blocks("<php>" + x + "</php><php>" + y + "</php>");
    TwoBlocks(x, y);
    assert !(bs[0].bodyStart <= |x| + 16 <= bs[0].bodyEnd);
    assert bs[1].bodyStart <= |x| + 16 <= bs[1].bodyEnd;
  }

  lemma FirstBody(x: string, y: string)
    requires '<' !in x && '>' !in x && '<' !in y && '>' !in y
    ensures var bodies := Bodies("<php>" + x + "</php><php>" + y + "</php>");
      |bodies| == 2 && bodies[..1] == [x]
  {
    var text := "<php>" + x + "</php><php>" + y + "</php>";
    TwoBlocks(x, y);
    assert text[5..5 + |x|] == x;
    assert Bodies(text)[0] == x;
  }

  /** The header, a body without line breaks, and the separator end on line 3, column 0. */
  lemma AfterFirstBody(x: string)
    requires '\n' !in x
    ensures EndPosition((Header + x) + Separator) == Position(3, 0)
  {
    NewlinesNone(x);
    EndPositionConcat(Header + x, Separator);
    EndPositionConcat(Header, x);
    HeaderEnd();
    SeparatorEnd();
  }

  /** The two matches of `<php>x</php><php>y</php>`. */
  lemma TwoBlocks(x: string, y: string)
    requires '<' !in x && '>' !in x && '<' !in y && '>' !in y
    ensures var bs := Blocks("<php>" + x + "</php><php>" + y + "</php>");
      && |bs| == 2
      && bs[0] == Block(0, 5, 5 + |x|)
      && bs[1] == Block(11 + |x|, 16 + |x|, 16 + |x| + |y|)
  {
    var text := "<php>" + x + "</php><php>" + y + "</php>";
    var b1, b2 := Block(0, 5, 5 + |x|), Block(11 + |x|, 16 + |x|, 16 + |x| + |y|);
    TwoFound(x, y, text);
    BlocksFromFound(text, 0, b1);
    BlocksFromFound(text, b2.start, b2);
    BlocksFromEnd(text, b2.bodyEnd + 6);
  }

  /** The search from the start finds the first block; resumed after it, the second. */
  lemma TwoFound(x: string, y: string, text: string)
    requires text == "<php>" + x + "</php><php>" + y + "</php>"
    requires '<' !in x && '>' !in x && '<' !in y && '>' !in y
    ensures |text| == 22 + |x| + |y|
    ensures NextMatch(text, 0) == Some(Block(0, 5, 5 + |x|))
    ensures NextMatch(text, 11 + |x|) == Some(Block(11 + |x|, 16 + |x|, 16 + |x| + |y|))
  {
    TwoBlocksLayout(x, y);
    FirstFound(x, y, text);
    SecondFound(x, y, text);
  }

  lemma FirstFound(x: string, y: string, text: string)
    requires text == "<php>" + x + "</php><php>" + y + "</php>"
    requires '<' !in x && '>' !in x
    ensures NextMatch(text, 0) == Some(Block(0, 5, 5 + |x|))
  {
    TwoBlocksLayout(x, y);
    FoundAt(text, 0, 5 + |x|, x);
  }

  lemma SecondFound(x: string, y: string, text: string)
    requires text == "<php>" + x + "</php><php>" + y + "</php>"
    requires '<' !in y && '>' !in y
    ensures NextMatch(text, 11 + |x|) == Some(Block(11 + |x|, 16 + |x|, 16 + |x| + |y|))
  {
    TwoBlocksLayout(x, y);
    FoundAt(text, 11 + |x|, 16 + |x| + |y|, y);
  }

  /** `<php>` + body + `</php>` at s is what the search from s finds. */
  lemma FoundAt(text: string, s: nat, e: nat, body: string)
    requires s + 5 + |body| == e && e + 6 <= |text|
    requires text[s..s + 5] == "<php>" && text[s + 5..e] == body && text[e..e + 6] == "</php>"
    requires '<' !in body && '>' !in body
    ensures NextMatch(text, s) == Some(Block(s, s + 5, e))
  {
    OnlyMatch(text, s, e, body);
    NextMatchAt(text, s, Block(s, s + 5, e));
  }

  /** The block the search finds comes first, the later blocks after it. */
  lemma BlocksFromFound(text: string, from: nat, b: Block)
    requires NextMatch(text, from) == Some(b)
    ensures var bs, rest := BlocksFrom(text, from), BlocksFrom(text, b.bodyEnd + 6);
      && |bs| == 1 + |rest|
      && bs[0] == b
      && (rest != [] ==> bs[1] == rest[0])
  {
    BlocksFromUnfold(text, from);
  }

  /** A match at `from` is what the search from `from` finds. */
  lemma NextMatchAt(text: string, from: nat, b: Block)
    requires from < |text| && MatchAt(text, from) == Some(b)
    ensures NextMatch(text, from) == Some(b)
  {
  }

  /** The search resumes after the `</php>` of the block it found. */
  lemma BlocksFromUnfold(text: string, from: nat)
    ensures NextMatch(text, from).Some? ==>
      BlocksFrom(text, from) == [NextMatch(text, from).value] + BlocksFrom(text, NextMatch(text, from).value.bodyEnd + |Close|)
  {
  }

  lemma BlocksFromEnd(text: string, from: nat)
    requires from >= |text|
    ensures BlocksFrom(text, from) == []
  {
  }

  /** Where the pieces of `<php>x</php><php>y</php>` sit. */
  lemma TwoBlocksLayout(x: string, y: string)
    ensures var text := "<php>" + x + "</php><php>" + y + "</php>";
      var e1 := 5 + |x|;
      var s2 := 11 + |x|;
      var e2 := 16 + |x| + |y|;
      && |text| == e2 + 6
      && text[..5] == "<php>" && text[5..e1] == x && text[e1..s2] == "</php>"
      && text[s2..s2 + 5] == "<php>" && text[s2 + 5..e2] == y && text[e2..e2 + 6] == "</php>"
  {
    var text := "<php>" + x + "</php><php>" + y + "</php>";
    var e1 := 5 + |x|;
    var s2 := 11 + |x|;
    var e2 := 16 + |x| + |y|;
    assert text[..5] == "<php>";
    assert text[5..e1] == x;
    assert text[e1..s2] == "</php>";
    assert text[s2..s2 + 5] == "<php>";
    assert text[s2 + 5..e2] == y;
    assert text[e2..e2 + 6] == "</php>";
  }

  /** `<php>` + body + `</php>` at position s, with a body free of `<` and `>`:
      the match at s has exactly that body. */
  lemma OnlyMatch(text: string, s: nat, e: nat, body: string)
    requires s + 5 + |body| == e && e + 6 <= |text|
    requires text[s..s + 5] == "<php>" && text[s + 5..e] == body && text[e..e + 6] == "</php>"
    requires '<' !in body && '>' !in body
    ensures MatchAt(text, s) == Some(Block(s, s + 5, e))
  {
    assert ContainsAt(text, Open, s) && text[s + 4] == '>' by {
      var open := text[s..s + 5];
      assert text[s..s + 4] == open[..4];
      assert text[s + 4] == open[4];
    }
    assert IndexOf(text, '>', s + 4) == Some(s + 4);
    assert IndexOfSub(text, Close, s + 5) == Some(e) by {
      assert ContainsAt(text, Close, e);
      forall k | s + 5 <= k < e ensures !ContainsAt(text, Close, k) {
        assert text[k] == body[k - s - 5];
      }
    }
  }

  // ---------------------------------------------------------------------
  // the store of virtual documents
  // ---------------------------------------------------------------------

  /** The URI under which the PHP of the component at fsPath is published. */
  function VirtualUri(fsPath: string): string
  {
    "php-in-vue:" + fsPath + ".php"
  }

  /** The virtual documents map shared by the extension and its content provider. */
  class VirtualDocuments {
    var documents: map<string, string>

    constructor ()
      ensures documents == map[]
    {
      documents := map[];
    }

    /** provideTextDocumentContent(): the stored text, or `""` for an unknown URI. */
    function ProvideTextDocumentContent(uri: string): (r: string)
      reads this
      ensures uri in documents ==> r == documents[uri]
      ensures uri !in documents ==> r == ""
    {
      if uri in documents then documents[uri] else ""
    }

    /** The provider's update(): stores the content under the URI. */
    method Update(uri: string, content: string)
      modifies this
      ensures documents == old(documents)[uri := content]
    {
      documents := documents[uri := content];
    }

    /** updateVirtualDocument(): publishes the extracted PHP only when there is some. */
    method UpdateVirtualDocument(fsPath: string, text: string)
      modifies this
      ensures Blocks(text) != [] ==> documents == old(documents)[VirtualUri(fsPath) := ExtractPhpContent(text)]
      ensures Blocks(text) == [] ==> documents == old(documents)
    {
      var phpContent := ExtractPhpContent(text);
      if phpContent != "" {
        var virtualUri := VirtualUri(fsPath);
        documents := documents[virtualUri := phpContent];
        Update(virtualUri, phpContent);
      }
    }
  }
}

=== FILE: registry.dfy ===
/**
  The Viper registry: the cache of page components keyed by absolute path,
  the model namespace used for route binding, and the score that orders
  route registration.

  The pages directory, the output directory, the framework and the set of
  files that exist are fixed when the registry is made; the configuration
  and File::exists are read through them.
*/
module Registry {
  import opened Text
  import opened PagePaths
  import opened Layouts

  /** The namespace models are looked up in unless told otherwise: \App\Models. */
  const DefaultModelPath: string := "\\App\\Models"

  /**
    A page component: the pages directory, its own absolute path and the
    absolute paths of its layouts, root first. Layouts are themselves
    registry entries, so a path stands for the component.
  */
  datatype Page = Page(basePath: string, absolutePath: string, layouts: seq<string>)

  /** The argument of autoDiscoverModels: a flag, or a namespace. */
  datatype ModelDiscovery = Toggle(enabled: bool) | Namespace(ns: string)

  /** The model namespace after autoDiscoverModels(arg). */
  function DiscoveredModelPath(arg: ModelDiscovery): (r: Option<string>)
    ensures arg == Toggle(true) ==> r == Some(DefaultModelPath)
    ensures arg == Toggle(false) ==> r == None
    ensures arg.Namespace? ==> r == Some(arg.ns)
  {
    match arg
    case Toggle(enabled) => if enabled then Some(DefaultModelPath) else None
    case Namespace(ns) => Some(ns)
  }

  /**
   * Only `false` switches model discovery off, `true` is shorthand for the default namespace,
   * and a namespace is kept as given, so two different namespaces never resolve alike.
   */
  lemma DiscoveryModes(arg: ModelDiscovery, other: ModelDiscovery)
    ensures DiscoveredModelPath(arg).None? <==> arg == Toggle(false)
    ensures DiscoveredModelPath(arg) == Some(DefaultModelPath) <==> arg == Toggle(true) || arg == Namespace(DefaultModelPath)
    ensures arg.Namespace? && other.Namespace? ==> (DiscoveredModelPath(arg) == DiscoveredModelPath(other) <==> arg == other)
  {
  }

  /** The paths of xs appended, left to right, to seen when they are not in it yet. */
  function Appended(seen: seq<string>, xs: seq<string>): seq<string>
    decreases |xs|
  {
    if xs == [] then seen
    else Appended(if xs[0] in seen then seen else seen + [xs[0]], xs[1..])
  }

  class Viper {
    const pagesPath: string
    const outputPath: string
    const framework: Framework
    const files: set<string>

    /**
      The layouts of a page of this pages directory: the layout chain
      getLayouts() is meant to find over the files that exist, which is what
      its loop finds whenever the page's parts read as directories (see
      Layouts.IntendedLayoutChain and Layouts.LayoutChainOfDirectories).
    */
    const layoutsOf: string -> seq<string>

    var modelPath: Option<string>
    /** The registered components by absolute path; `order` is the insertion order of its keys. */
    var pageComponents: map<string, Page>
    var order: seq<string>

    /** The component `new PageComponent(pagesPath, abs)` makes. */
    function Construct(abs: string): Page
    {
      Page(pagesPath, abs, layoutsOf(abs))
    }

    /**
      A layout found for a page has no layouts of its own. Every entry is
      the component built for its path, every layout of an entry is itself
      an entry, and `order` lists the keys once each.
    */
    ghost predicate Valid()
      reads this
    {
      (forall abs, l :: l in layoutsOf(abs) ==> layoutsOf(l) == []) &&
      Consistent(pageComponents, order)
    }

    /** The cache invariant on a map of components and its key order. */
    ghost predicate Consistent(m: map<string, Page>, o: seq<string>)
    {
      (forall k :: k in m <==> k in o) &&
      (forall i, j :: 0 <= i < j < |o| ==> o[i] != o[j]) &&
      (forall k :: k in m ==> m[k] == Construct(k)) &&
      (forall k, l :: k in m && l in m[k].layouts ==> l in m)
    }

    /** Registering a new component whose layouts are all registered keeps the cache consistent. */
    lemma ConsistentInsert(m: map<string, Page>, o: seq<string>, abs: string)
      requires Consistent(m, o) && abs !in m
      requires forall l :: l in layoutsOf(abs) ==> l in m
      ensures Consistent(m[abs := Construct(abs)], o + [abs])
    {
    }

    constructor (pagesPath: string, outputPath: string, framework: Framework, files: set<string>)
      ensures this.pagesPath == pagesPath && this.outputPath == outputPath
      ensures this.framework == framework && this.files == files
      ensures forall abs :: layoutsOf(abs) == IntendedLayoutChain(pagesPath, abs, framework, files)
      ensures modelPath == Some(DefaultModelPath)
      ensures pageComponents == map[] && order == []
      ensures Valid()
    {
      this.pagesPath := pagesPath;
      this.outputPath := outputPath;
      this.framework := framework;
      this.files := files;
      this.layoutsOf := abs => IntendedLayoutChain(pagesPath, abs, framework, files);
      modelPath := Some(DefaultModelPath);
      pageComponents := map[];
      order := [];
      new;
      LayoutChainsClosed(pagesPath, framework, files);
    }

    /** autoDiscoverModels(arg): the namespace is set; the registry is untouched. */
    method AutoDiscoverModels(arg: ModelDiscovery)
      modifies this
      ensures modelPath == DiscoveredModelPath(arg)
      ensures pageComponents == old(pageComponents) && order == old(order)
      ensures forall className :: (ResolveModel(className) ==
        (if arg == Toggle(false) then None
         else if arg == Toggle(true) then Some(DefaultModelPath + "\\" + className)
         else Some(arg.ns + "\\" + className)))
    {
      match arg {
        case Toggle(enabled) =>
          if enabled {
            modelPath := Some(DefaultModelPath);
            return;
          }
          modelPath := None;
        case Namespace(ns) =>
          modelPath := Some(ns);
      }
    }

    /** resolveModel(className): no model without a namespace, else the class qualified by it. */
    function ResolveModel(className: string): (r: Option<string>)
      reads this
      ensures r.None? <==> modelPath.None?
      ensures r.Some? ==> EndsWith(r.value, "\\" + className) && StartsWith(r.value, modelPath.value)
      ensures r.Some? ==> r.value == modelPath.value + "\\" + className
    {
      if modelPath.None? then None else Some(modelPath.value + "\\" + className)
    }

    /**
      resolvePageComponent(abs): a registered path returns its cached
      component and changes nothing. Otherwise the component is built; its
      layouts are resolved first, in order, and then it is registered after
      them. No existing entry is ever replaced.
    */
    method ResolvePageComponent(abs: string) returns (page: Page)
      requires Valid()
      modifies this`pageComponents, this`order
      ensures Valid()
      ensures abs in pageComponents && page == pageComponents[abs] && page == Construct(abs)
      ensures old(abs in pageComponents) ==> pageComponents == old(pageComponents) && order == old(order)
      ensures forall k :: k in old(pageComponents) ==> k in pageComponents && pageComponents[k] == old(pageComponents)[k]
      ensures forall k :: k in pageComponents <==> k in old(pageComponents) || k in page.layouts || k == abs
      ensures order == Appended(old(order), page.layouts + [abs])
      ensures layoutsOf(abs) == [] ==> order == (if abs in old(order) then old(order) else old(order) + [abs])
      ensures layoutsOf(abs) == [] ==> forall k :: k in pageComponents <==> k in old(pageComponents) || k == abs
      decreases |layoutsOf(abs)|, 1
    {
      if abs in pageComponents {
        page := pageComponents[abs];
        AppendedKnown(order, page.layouts + [abs]);
        return;
      }
      var layouts := layoutsOf(abs);
      RegisterLayouts(abs, layouts);
      ConsistentInsert(pageComponents, order, abs);
      page := Page(pagesPath, abs, layouts);
      pageComponents := pageComponents[abs := page];
      AppendedNew(order, abs);
      AppendedSnoc(old(order), layouts, abs);
      order := order + [abs];
    }

    /** The loop of getLayouts() that resolves each layout found, in order, before the page itself is registered. */
    method RegisterLayouts(abs: string, layouts: seq<string>)
      requires Valid()
      requires abs !in pageComponents
      requires layouts == layoutsOf(abs)
      modifies this`pageComponents, this`order
      ensures Valid()
      ensures abs !in pageComponents
      ensures forall k :: k in old(pageComponents) ==> k in pageComponents && pageComponents[k] == old(pageComponents)[k]
      ensures forall k :: k in pageComponents <==> k in old(pageComponents) || k in layouts
      ensures order == Appended(old(order), layouts)
      decreases |layoutsOf(abs)|, 0
    {
      for i := 0 to |layouts|
        invariant Valid()
        invariant abs !in pageComponents
        invariant forall k :: k in pageComponents <==> k in old(pageComponents) || k in layouts[..i]
        invariant forall k :: k in old(pageComponents) ==> k in pageComponents && pageComponents[k] == old(pageComponents)[k]
        invariant order == Appended(old(order), layouts[..i])
      {
        var l := layouts[i];
        assert layouts[..i + 1] == layouts[..i] + [l];
        assert forall k :: k in layouts[..i + 1] <==> k in layouts[..i] || k == l;
        AppendedOne(old(order), layouts[..i], l);
        LayoutIsFlat(abs, l);
        assert l != abs;
        var _ := ResolvePageComponent(l);
      }
      assert layouts[..|layouts|] == layouts;
    }

    /** A layout of any page has no layouts itself. */
    lemma LayoutIsFlat(abs: string, l: string)
      requires Valid() && l in layoutsOf(abs)
      ensures layoutsOf(l) == []
    {
    }

    /** The compiled path of a registered component. */
    function CompiledPathOf(page: Page): string
    {
      CompiledPath(outputPath, RelativePath(page.basePath, page.absolutePath), framework)
    }

    /**
      pageComponentFromCompiledPath(c): the first component in registration
      order whose compiled path is c, or none when no component has it.
    */
    method PageComponentFromCompiledPath(compiled: string) returns (r: Option<Page>)
      requires Valid()
      ensures r.None? <==> forall k :: k in pageComponents ==> CompiledPathOf(pageComponents[k]) != compiled
      ensures r.Some? ==> exists i :: (0 <= i < |order| && r.value == pageComponents[order[i]] &&
        CompiledPathOf(r.value) == compiled &&
        forall j :: 0 <= j < i ==> CompiledPathOf(pageComponents[order[j]]) != compiled)
    {
      for i := 0 to |order|
        invariant forall j :: 0 <= j < i ==> CompiledPathOf(pageComponents[order[j]]) != compiled
      {
        var page := pageComponents[order[i]];
        if CompiledPathOf(page) == compiled {
          return Some(page);
        }
        assert forall j :: 0 <= j < i + 1 ==> CompiledPathOf(pageComponents[order[j]]) != compiled by {
          forall j | 0 <= j < i + 1 ensures CompiledPathOf(pageComponents[order[j]]) != compiled {
            if j == i {
              assert pageComponents[order[j]] == page;
            }
          }
        }
      }
      forall k | k in pageComponents
        ensures CompiledPathOf(pageComponents[k]) != compiled
      {
        var j :| 0 <= j < |order| && order[j] == k;
      }
      return None;
    }
  }

  /** A layout found for any page is a layout file, and layout files have no layouts. */
  lemma LayoutChainsClosed(basePath: string, fw: Framework, files: set<string>)
    ensures forall abs, l :: l in IntendedLayoutChain(basePath, abs, fw, files) ==> IntendedLayoutChain(basePath, l, fw, files) == []
  {
    forall abs, l | l in IntendedLayoutChain(basePath, abs, fw, files)
      ensures IntendedLayoutChain(basePath, l, fw, files) == []
    {
      LayoutFileHasNoLayouts(basePath, l, fw, files);
    }
  }

  // ---------------------------------------------------------------------
  // Insertion order
  // ---------------------------------------------------------------------

  /** Paths already seen leave the order as it is. */
  lemma {:induction false} AppendedKnown(seen: seq<string>, xs: seq<string>)
    requires forall x :: x in xs ==> x in seen
    ensures Appended(seen, xs) == seen
  {
    if xs != [] {
      assert xs[0] in xs;
      AppendedKnown(seen, xs[1..]);
    }
  }

  /** A path not seen yet is appended at the end. */
  lemma AppendedNew(seen: seq<string>, x: string)
    requires x !in seen
    ensures Appended(seen, [x]) == seen + [x]
  {
    assert [x][1..] == [];
  }

  /** One more path: it is appended unless the order already holds it. */
  lemma AppendedOne(seen: seq<string>, xs: seq<string>, x: string)
    ensures var a := Appended(seen, xs); Appended(seen, xs + [x]) == (if x in a then a else a + [x])
  {
    AppendedSnoc(seen, xs, x);
    assert [x][1..] == [];
  }

  /** Appending path by path: the order after xs + [x] is the order after xs, then x. */
  lemma {:induction false} AppendedSnoc(seen: seq<string>, xs: seq<string>, x: string)
    ensures Appended(seen, xs + [x]) == Appended(Appended(seen, xs), [x])
    decreases |xs|
  {
    if xs != [] {
      assert (xs + [x])[0] == xs[0];
      assert (xs + [x])[1..] == xs[1..] + [x];
      AppendedSnoc(if xs[0] in seen then seen else seen + [xs[0]], xs[1..], x);
    }
  }

  // ---------------------------------------------------------------------
  // Route registration order
  // ---------------------------------------------------------------------

  /** A bracketed segment, `[x]` or `[...x]`. */
  predicate Bracketed(segment: string)
  {
    StartsWith(segment, "[") && EndsWith(segment, "]")
  }

  predicate HasEllipsis(segment: string)
  {
    IndexOfSub(segment, "...", 0).Some?
  }

  /** The score of one segment: 10 when bracketed, else 100 when it holds `...`, else 0. */
  function SegmentScore(segment: string): (r: int)
    ensures r == 10 <==> Bracketed(segment)
    ensures r == 100 <==> !Bracketed(segment) && HasEllipsis(segment)
    ensures r == 0 <==> !Bracketed(segment) && !HasEllipsis(segment)
  {
    if Bracketed(segment) then 10
    else if HasEllipsis(segment) then 100
    else 0
  }

  /** The segments a path is scored on: slashes trimmed, a trailing `.vue` stripped, split on `/`. */
  function ScoredSegments(path: string): seq<string>
  {
    Split(ReplaceEnd(Trim(path, '/'), ".vue", ""), '/')
  }

  /** The reduce over the segments, from 0, left to right. */
  function ScoreFold(segments: seq<string>): int
  {
    if segments == [] then 0 else ScoreFold(segments[..|segments| - 1]) + SegmentScore(segments[|segments| - 1])
  }

  /** scoreRoute(path). */
  function ScoreRoute(path: string): int
  {
    ScoreFold(ScoredSegments(path))
  }

  /** A fold never goes below 0 and is 0 exactly when every segment is plain. */
  lemma {:induction false} ScoreFoldZero(segments: seq<string>)
    ensures ScoreFold(segments) >= 0
    ensures ScoreFold(segments) == 0 <==> forall i :: 0 <= i < |segments| ==> SegmentScore(segments[i]) == 0
  {
    if segments != [] {
      var n := |segments| - 1;
      ScoreFoldZero(segments[..n]);
      assert forall i :: 0 <= i < n ==> segments[..n][i] == segments[i];
    }
  }

  /** Scores are never negative, and a path scores 0 iff none of its segments is bracketed or holds `...`. */
  lemma ScoreRouteZero(path: string)
    ensures ScoreRoute(path) >= 0
    ensures ScoreRoute(path) == 0 <==> forall s :: s in ScoredSegments(path) ==> !Bracketed(s) && !HasEllipsis(s)
  {
    ScoreFoldZero(ScoredSegments(path));
  }

  /** The routes() comparator: by score, then by length; negative means a is registered first. */
  function CompareRoutes(a: string, b: string): (r: int)
    ensures r < 0 <==> ScoreRoute(a) < ScoreRoute(b) || (ScoreRoute(a) == ScoreRoute(b) && |a| < |b|)
    ensures r == 0 <==> ScoreRoute(a) == ScoreRoute(b) && |a| == |b|
  {
    var sa, sb := ScoreRoute(a), ScoreRoute(b);
    if sa != sb then (if sa < sb then -1 else 1)
    else if |a| < |b| then -1 else if |a| == |b| then 0 else 1
  }

  /** The comparator is a total preorder: antisymmetric in sign and transitive. */
  lemma CompareRoutesOrder(a: string, b: string, c: string)
    ensures CompareRoutes(a, b) == -CompareRoutes(b, a)
    ensures CompareRoutes(a, b) <= 0 && CompareRoutes(b, c) <= 0 ==> CompareRoutes(a, c) <= 0
  {
  }

  lemma TrimUntouched(x: string, c: char)
    requires x != [] && x[0] != c && x[|x| - 1] != c
    ensures Trim(x, c) == x
  {
    assert TrimLeft(x, c) == x;
  }

  /** A path written as its segments joined by `/` with `.vue` appended is scored on exactly those segments. */
  lemma ScoredSegmentsOf(parts: seq<string>)
    requires |parts| >= 1 && parts[0] != [] && parts[0][0] != '/'
    requires forall i :: 0 <= i < |parts| ==> '/' !in parts[i]
    ensures ScoredSegments(Join(parts, "/") + ".vue") == parts
  {
    var p := Join(parts, "/");
    JoinHead(parts);
    var x := p + ".vue";
    TrimUntouched(x, '/');
    assert Trim(x, '/') == x;
    ReplaceEndOfSuffix(p, ".vue");
    assert ReplaceEnd(x, ".vue", "") == p;
    SplitJoin(parts, '/');
    assert Split(p, '/') == parts;
  }

  lemma JoinHead(parts: seq<string>)
    requires |parts| >= 1 && parts[0] != []
    ensures Join(parts, "/") != [] && Join(parts, "/")[0] == parts[0][0]
  {
    if |parts| > 1 {
      assert Join(parts, "/") == parts[0] + "/" + Join(parts[1..], "/");
    }
  }

  lemma NoDotNoEllipsis(segment: string)
    requires '.' !in segment
    ensures !HasEllipsis(segment)
  {
    forall k: nat
      ensures !ContainsAt(segment, "...", k)
    {
      if k + 3 <= |segment| {
        assert segment[k..k + 3][0] == segment[k];
      }
    }
  }

  lemma ScoreOne(segment: string)
    ensures ScoreFold([segment]) == SegmentScore(segment)
  {
    assert [segment][..0] == [];
  }

  lemma ScoreTwo(a: string, b: string)
    ensures ScoreFold([a, b]) == SegmentScore(a) + SegmentScore(b)
  {
    assert [a, b][..1] == [a];
    ScoreOne(a);
  }

  /** A one-segment page is scored on that segment alone. */
  lemma ScoreSingle(segment: string)
    requires segment != [] && segment[0] != '/' && '/' !in segment
    ensures ScoreRoute(segment + ".vue") == SegmentScore(segment)
  {
    SingleSegment(segment);
    ScoreOne(segment);
  }

  /** A two-segment page is scored on both. */
  lemma ScorePair(a: string, b: string)
    requires a != [] && a[0] != '/' && '/' !in a && '/' !in b
    ensures ScoreRoute(a + "/" + b + ".vue") == SegmentScore(a) + SegmentScore(b)
  {
    assert Join([a, b], "/") == a + "/" + b by {
      assert Join([a, b], "/") == a + "/" + Join([b], "/");
    }
    ScoredSegmentsOf([a, b]);
    ScoreTwo(a, b);
  }

  /** A plain page name scores 0. */
  lemma PlainScore(name: string)
    requires name != [] && name[0] != '[' && '/' !in name && '.' !in name
    ensures ScoreRoute(name + ".vue") == 0
  {
    NoDotNoEllipsis(name);
    ScoreSingle(name);
  }

  /** A parameter page [name].vue scores 10. */
  lemma ParamScore(name: string)
    requires '/' !in name
    ensures ScoreRoute("[" + name + "].vue") == 10
  {
    var segment := "[" + name + "]";
    assert "[" + name + "].vue" == segment + ".vue";
    assert Bracketed(segment);
    ScoreSingle(segment);
  }

  /** A catch-all page [...name].vue also scores 10, not 100: the bracket test runs first. */
  lemma CatchAllScore(name: string)
    requires '/' !in name
    ensures ScoreRoute("[..." + name + "].vue") == 10
  {
    var segment := "[..." + name + "]";
    assert "[..." + name + "].vue" == segment + ".vue";
    assert Bracketed(segment);
    ScoreSingle(segment);
  }

  /**
    Registration order of static.vue, [id].vue and [...slug].vue: a plain
    page comes before a parameter page, and a parameter page comes before a
    catch-all page only when its path is shorter.
  */
  lemma RegistrationOrder(plain: string, param: string, rest: string)
    requires plain != [] && plain[0] != '[' && '/' !in plain && '.' !in plain
    requires '/' !in param && '/' !in rest
    ensures CompareRoutes(plain + ".vue", "[" + param + "].vue") < 0
    ensures CompareRoutes("[" + param + "].vue", "[..." + rest + "].vue") < 0 <==> |param| < |rest| + 3
  {
    PlainScore(plain);
    ParamScore(param);
    CatchAllScore(rest);
  }

  // ---------------------------------------------------------------------
  // Catch-all scoring
  // ---------------------------------------------------------------------

  /**
    As written, a top-level catch-all page scores like a parameter page one
    level down, so the catch-all, when its path is the shorter, is
    registered first and its greedy route is matched first
    ([...all].vue before posts/[id].vue).
  */
  lemma CatchAllRegisteredFirst(name: string, dir: string, param: string)
    requires '/' !in name && '/' !in param
    requires dir != [] && dir[0] != '[' && '/' !in dir && '.' !in dir
    requires |name| + 2 < |dir| + |param|
    ensures ScoreRoute("[..." + name + "].vue") == ScoreRoute(dir + "/[" + param + "].vue") == 10
    ensures CompareRoutes("[..." + name + "].vue", dir + "/[" + param + "].vue") < 0
  {
    var catchAll := "[..." + name + "].vue";
    var segment := "[" + param + "]";
    var other := dir + "/" + segment + ".vue";
    assert ScoreRoute(catchAll) == 10 by {
      CatchAllScore(name);
    }
    assert dir + "/[" + param + "].vue" == other && ScoreRoute(other) == 10 by {
      NestedParamPage(dir, param);
      BracketedParam(param);
      NoDotNoEllipsis(dir);
      ScorePair(dir, segment);
    }
    assert |catchAll| < |other|;
  }

  /** The intended segment score: 100 for a catch-all, 10 for a parameter, 0 otherwise. */
  function IntendedSegmentScore(segment: string): (r: int)
    ensures r == 100 <==> HasEllipsis(segment)
    ensures r == 10 <==> !HasEllipsis(segment) && Bracketed(segment)
    ensures 0 <= r <= 100
  {
    if HasEllipsis(segment) then 100
    else if Bracketed(segment) then 10
    else 0
  }

  function IntendedScoreFold(segments: seq<string>): int
  {
    if segments == [] then 0
    else IntendedScoreFold(segments[..|segments| - 1]) + IntendedSegmentScore(segments[|segments| - 1])
  }

  function IntendedScoreRoute(path: string): int
  {
    IntendedScoreFold(ScoredSegments(path))
  }

  /** The comparator over the intended score. */
  function IntendedCompareRoutes(a: string, b: string): (r: int)
    ensures r < 0 <==> (IntendedScoreRoute(a) < IntendedScoreRoute(b) ||
      (IntendedScoreRoute(a) == IntendedScoreRoute(b) && |a| < |b|))
  {
    var sa, sb := IntendedScoreRoute(a), IntendedScoreRoute(b);
    if sa != sb then (if sa < sb then -1 else 1)
    else if |a| < |b| then -1 else if |a| == |b| then 0 else 1
  }

  /** A path with a catch-all scores at least 100; one without scores at most 10 per segment. */
  lemma {:induction false} IntendedScoreBounds(segments: seq<string>)
    ensures IntendedScoreFold(segments) >= 0
    ensures (exists i :: 0 <= i < |segments| && HasEllipsis(segments[i])) ==> IntendedScoreFold(segments) >= 100
    ensures (forall i :: 0 <= i < |segments| ==> !HasEllipsis(segments[i])) ==> IntendedScoreFold(segments) <= 10 * |segments|
  {
    if segments != [] {
      var n := |segments| - 1;
      IntendedScoreBounds(segments[..n]);
      assert forall i :: 0 <= i < n ==> segments[..n][i] == segments[i];
    }
  }

  /**
    With the intended score, a page with a catch-all segment is registered
    after every page without one that has fewer than ten segments.
  */
  lemma CatchAllRegisteredLast(catchAll: string, other: string)
    requires exists s :: s in ScoredSegments(catchAll) && HasEllipsis(s)
    requires forall s :: s in ScoredSegments(other) ==> !HasEllipsis(s)
    requires |ScoredSegments(other)| < 10
    ensures IntendedCompareRoutes(other, catchAll) < 0
  {
    IntendedScoreBounds(ScoredSegments(catchAll));
    IntendedScoreBounds(ScoredSegments(other));
  }

  lemma SingleSegment(segment: string)
    requires segment != [] && segment[0] != '/' && '/' !in segment
    ensures ScoredSegments(segment + ".vue") == [segment]
  {
    assert Join([segment], "/") == segment;
    ScoredSegmentsOf([segment]);
  }

  lemma CatchAllSegments(name: string)
    requires '/' !in name
    ensures ScoredSegments("[..." + name + "].vue") == ["[..." + name + "]"]
    ensures HasEllipsis("[..." + name + "]")
  {
    var all := "[..." + name + "]";
    assert "[..." + name + "].vue" == all + ".vue";
    SingleSegment(all);
    assert all == "[..." + (name + "]");
    EllipsisAfterBracket(name + "]");
  }

  lemma PairSegments(dir: string, segment: string)
    requires dir != [] && dir[0] != '/' && '/' !in dir && '/' !in segment
    ensures ScoredSegments(dir + "/" + segment + ".vue") == [dir, segment]
  {
    assert Join([dir, segment], "/") == dir + "/" + segment by {
      assert Join([dir, segment], "/") == dir + "/" + Join([segment], "/");
    }
    ScoredSegmentsOf([dir, segment]);
  }

  /** The pages of CatchAllRegisteredFirst in the intended order: the parameter page first. */
  lemma CatchAllFixed(name: string, dir: string, param: string)
    requires '/' !in name && '/' !in param && '.' !in param
    requires dir != [] && dir[0] != '[' && '/' !in dir && '.' !in dir
    ensures IntendedCompareRoutes(dir + "/[" + param + "].vue", "[..." + name + "].vue") < 0
  {
    var catchAll, segment := "[..." + name + "].vue", "[" + param + "]";
    var other := dir + "/" + segment + ".vue";
    NestedParamPage(dir, param);
    assert exists s :: s in ScoredSegments(catchAll) && HasEllipsis(s) by {
      CatchAllSegments(name);
      assert ScoredSegments(catchAll)[0] in ScoredSegments(catchAll);
    }
    assert ScoredSegments(other) == [dir, segment] by {
      BracketedParam(param);
      PairSegments(dir, segment);
    }
    NoDotNoEllipsis(dir);
    ParamNoEllipsis(param);
    NeitherHasEllipsis(dir, segment);
    CatchAllRegisteredLast(catchAll, other);
  }

  lemma NeitherHasEllipsis(a: string, b: string)
    requires !HasEllipsis(a) && !HasEllipsis(b)
    ensures forall s :: s in [a, b] ==> !HasEllipsis(s)
  {
  }

  /** A parameter segment `[x]` with a slash-free x is bracketed and slash-free. */
  lemma BracketedParam(param: string)
    requires '/' !in param
    ensures Bracketed("[" + param + "]") && '/' !in "[" + param + "]"
  {
    var segment := "[" + param + "]";
    assert segment == ['['] + param + [']'];
    assert segment[..1] == "[" && segment[|segment| - 1..] == "]";
  }

  lemma ParamNoEllipsis(param: string)
    requires '.' !in param
    ensures !HasEllipsis("[" + param + "]")
  {
    NoDotNoEllipsis("[" + param + "]");
  }

  /** The path of a parameter page one directory down, regrouped around its segment. */
  lemma NestedParamPage(dir: string, param: string)
    ensures dir + "/[" + param + "].vue" == dir + "/" + ("[" + param + "]") + ".vue"
  {
  }

  lemma EllipsisAfterBracket(x: string)
    ensures HasEllipsis("[..." + x)
  {
    var segment := "[..." + x;
    assert segment[1..4] == "...";
    assert ContainsAt(segment, "...", 1);
  }
}

=== FILE: route_groups.dfy ===
/**
 * Route groups deleted together with the '/' that follows them.
 *
 * The three formatters of src/PageComponent.php delete a group with the pattern
 * `\(([^)]+)\)` and keep the '/' after it, so `(auth)/login.vue` formats to "/login"
 * (PathExamples.GroupedLoginRoutes), while the page component tests expect "login", the
 * route of `login.vue`. The formatters below delete a group with `\(([^)]+)\)/?` instead,
 * and a group then contributes nothing: a page inside groups gets exactly the route of the
 * same page with its groups left out.
 */
module RouteGroups {
  import opened Text
  import opened PagePaths
  import opened PathSegments
  import opened PathExamples

  /** replaceMatches('/\(([^)]+)\)\/?/', ''): every route group is deleted with the '/' after it. */
  function StripGroupsWithSlash(s: string): (r: string)
    ensures |r| <= |s|
    decreases |s|
  {
    if s == [] then []
    else match GroupAt(s)
      case Some(j) => StripGroupsWithSlash(if j + 1 < |s| && s[j + 1] == '/' then s[j + 2..] else s[j + 1..])
      case None => [s[0]] + StripGroupsWithSlash(s[1..])
  }

  /** vueRouteFormattedPath() / reactRouteFormattedPath() with groups deleted with their '/'. */
  function IntendedRouterPath(rel: string, fw: Framework): (r: string)
    ensures r != [] && !HasDoubleSlash(r)
  {
    var stripped := StripGroupsWithSlash(RelativePathWithoutExtension(rel));
    var tokens := ReplaceAll(RewriteDynamics(RewriteCatchAlls(stripped, fw)), "...", "");
    Finish(ReplaceEnd(ReplaceEnd(tokens, "_layout", ""), "index", ""))
  }

  /** laravelFormattedRoutePath() with groups deleted with their '/'. */
  function IntendedLaravelFormattedRoutePath(rel: string): (r: string)
    ensures r != [] && !HasDoubleSlash(r)
  {
    var p := BracesWithoutIndex(RelativePathWithoutExtension(rel));
    Finish(OptionalCatchAlls(CamelBraces(StripGroupsWithSlash(p))))
  }

  // ---------------------------------------------------------------------
  // The segments of a path without its groups
  // ---------------------------------------------------------------------

  /** The segments of a path with its route groups left out, in order. */
  function WithoutGroups(segs: seq<Segment>): (r: seq<Segment>)
    ensures |r| <= |segs|
    ensures forall seg :: seg in r <==> seg in segs && !seg.Group?
  {
    if segs == [] then []
    else
      assert segs == [segs[0]] + segs[1..];
      if segs[0].Group? then WithoutGroups(segs[1..])
      else [segs[0]] + WithoutGroups(segs[1..])
  }

  /** A page path ends in the page's file name, never in a group. */
  predicate EndsInPage(segs: seq<Segment>)
  {
    segs != [] && !segs[|segs| - 1].Group?
  }

  lemma WithoutGroupsWellFormed(segs: seq<Segment>)
    requires AllWellFormed(segs)
    ensures AllWellFormed(WithoutGroups(segs))
  {
    var w := WithoutGroups(segs);
    forall i | 0 <= i < |w| ensures WellFormed(w[i]) {
      assert w[i] in segs;
    }
  }

  lemma {:induction false} WithoutGroupsSnoc(init: seq<Segment>, x: Segment)
    requires !x.Group?
    ensures WithoutGroups(init + [x]) == WithoutGroups(init) + [x]
    decreases |init|
  {
    if init == [] {
      assert init + [x] == [x];
      assert [x][1..] == [];
    } else {
      assert (init + [x])[0] == init[0];
      assert (init + [x])[1..] == init[1..] + [x];
      WithoutGroupsSnoc(init[1..], x);
    }
  }

  /** DropIndex only looks at the last segment. */
  lemma DropIndexSnoc(init: seq<Segment>, x: Segment)
    ensures DropIndex(init + [x]) == init + DropIndex([x])
    ensures |DropIndex([x])| == 1 && (DropIndex([x])[0].Group? <==> x.Group?)
  {
    var s := init + [x];
    assert s[|s| - 1] == x;
    assert s[..|s| - 1] == init;
    assert [x][..0] == [];
  }

  /** Dropping a trailing `index` and leaving out the groups can be done in either order. */
  lemma WithoutGroupsDropIndex(segs: seq<Segment>)
    requires EndsInPage(segs)
    ensures DropIndex(WithoutGroups(segs)) == WithoutGroups(DropIndex(segs))
    ensures EndsInPage(DropIndex(segs))
  {
    var n := |segs|;
    var init := segs[..n - 1];
    var last := segs[n - 1];
    assert segs == init + [last];
    DropIndexSnoc(init, last);
    var last2 := DropIndex([last])[0];
    assert DropIndex([last]) == [last2];
    WithoutGroupsSnoc(init, last);
    WithoutGroupsSnoc(init, last2);
    var w := WithoutGroups(init);
    DropIndexSnoc(w, last);
  }

  // ---------------------------------------------------------------------
  // Deleting the groups of a rendered path
  // ---------------------------------------------------------------------

  lemma {:induction false} StripGroupsWithSlashSkip(t: string, rest: string)
    requires '(' !in t
    ensures StripGroupsWithSlash(t + rest) == t + StripGroupsWithSlash(rest)
    decreases |t|
  {
    if t == [] {
      assert t + rest == rest;
    } else {
      assert (t + rest)[1..] == t[1..] + rest;
      StripGroupsWithSlashSkip(t[1..], rest);
      HeadGlue(t, StripGroupsWithSlash(rest));
    }
  }

  /** A group `(n)` at the front of a path closes right after its name. */
  lemma GroupOfName(n: string, tail: string)
    requires IsName(n)
    ensures GroupAt("(" + n + ")" + tail) == Some(|n| + 1)
  {
    PlainExcludes(n);
    var s := "(" + n + ")" + tail;
    forall k | 1 <= k < |n| + 1 ensures s[k] != ')' {
      assert s[k] == n[k - 1];
    }
    IndexOfIs(s, ')', 1, |n| + 1);
  }

  lemma StripGroupsWithSlashOfGroup(n: string, rest: string)
    requires IsName(n)
    ensures StripGroupsWithSlash("(" + n + ")" + ("/" + rest)) == StripGroupsWithSlash(rest)
  {
    var s := "(" + n + ")" + ("/" + rest);
    GroupOfName(n, "/" + rest);
    assert s[|n| + 2] == '/';
    assert s[|n| + 3..] == rest;
  }

  lemma NoParenInSegment(seg: Segment, from: Stage)
    requires WellFormed(seg) && !seg.Group?
    requires from == File || from == Braces
    ensures '(' !in SegmentText(seg, from)
  {
    if seg.Static? {
      PlainExcludes(seg.text);
    } else {
      PlainExcludes(seg.name);
    }
  }

  /** The rendering of a non-group segment in front of a non-empty list. */
  lemma RenderInFront(seg: Segment, w: seq<Segment>, from: Stage)
    requires w != []
    ensures Render([seg] + w, from) == SegmentText(seg, from) + "/" + Render(w, from)
  {
    assert ([seg] + w)[1..] == w;
    RenderCons([seg] + w, from);
  }

  lemma GroupHeadStripped(segs: seq<Segment>, from: Stage)
    requires |segs| >= 2 && segs[0].Group? && IsName(segs[0].name)
    requires from == File || from == Braces
    requires StripGroupsWithSlash(Render(segs[1..], from)) == Render(WithoutGroups(segs[1..]), from)
    ensures StripGroupsWithSlash(Render(segs, from)) == Render(WithoutGroups(segs), from)
  {
    RenderCons(segs, from);
    StripGroupsWithSlashOfGroup(segs[0].name, Render(segs[1..], from));
  }

  lemma OtherHeadKept(segs: seq<Segment>, from: Stage)
    requires |segs| >= 2 && WellFormed(segs[0]) && !segs[0].Group?
    requires from == File || from == Braces
    requires WithoutGroups(segs[1..]) != []
    requires StripGroupsWithSlash(Render(segs[1..], from)) == Render(WithoutGroups(segs[1..]), from)
    ensures StripGroupsWithSlash(Render(segs, from)) == Render(WithoutGroups(segs), from)
  {
    var h := SegmentText(segs[0], from);
    var tail := Render(segs[1..], from);
    RenderCons(segs, from);
    NoParenInSegment(segs[0], from);
    assert '(' !in h + "/";
    assert h + ("/" + tail) == h + "/" + tail;
    StripGroupsWithSlashSkip(h + "/", tail);
    RenderInFront(segs[0], WithoutGroups(segs[1..]), from);
  }

  /** Deleting groups with their '/' turns the rendering of a path into that of its group-free segments. */
  lemma {:induction false} StripGroupsWithSlashRender(segs: seq<Segment>, from: Stage)
    requires AllWellFormed(segs) && EndsInPage(segs)
    requires from == File || from == Braces
    ensures StripGroupsWithSlash(Render(segs, from)) == Render(WithoutGroups(segs), from)
    decreases |segs|
  {
    if |segs| == 1 {
      var h := SegmentText(segs[0], from);
      RenderOne(segs, from);
      assert WithoutGroups(segs) == segs;
      NoParenInSegment(segs[0], from);
      StripGroupsWithSlashSkip(h, []);
      assert h + [] == h;
    } else {
      assert AllWellFormed(segs[1..]);
      assert segs[1..][|segs| - 2] == segs[|segs| - 1];
      StripGroupsWithSlashRender(segs[1..], from);
      assert WellFormed(segs[0]);
      if segs[0].Group? {
        GroupHeadStripped(segs, from);
      } else {
        assert WithoutGroups(segs[1..]) != [] by {
          assert segs[|segs| - 1] in segs[1..];
        }
        OtherHeadKept(segs, from);
      }
    }
  }

  /** Without groups, the stage after the as-written group deletion renders as the stage before it. */
  lemma RenderOfUngrouped(segs: seq<Segment>, from: Stage)
    requires forall i :: 0 <= i < |segs| ==> !segs[i].Group?
    requires from == File || from == Braces
    ensures Render(segs, Ungrouped(from)) == Render(segs, from)
  {
    assert Texts(segs, Ungrouped(from)) == Texts(segs, from);
  }

  // ---------------------------------------------------------------------
  // The intended formats of a page written as segments
  // ---------------------------------------------------------------------

  /** With groups deleted with their '/', a page inside groups routes as the page outside them. */
  lemma IntendedRouterPathOfSegments(segs: seq<Segment>, ext: string, fw: Framework)
    requires AllWellFormed(segs) && EndsInPage(segs) && IsExtension(ext)
    ensures IntendedRouterPath(Render(segs, File) + "." + ext, fw) == RouterPath(Render(WithoutGroups(segs), File) + "." + ext, fw)
  {
    var w := WithoutGroups(segs);
    WithoutExtension(Render(segs, File), ext);
    WithoutExtension(Render(w, File), ext);
    StripGroupsWithSlashRender(segs, File);
    WithoutGroupsWellFormed(segs);
    StripGroupsRender(w, File);
    RenderOfUngrouped(w, File);
  }

  /** The Laravel form of a page inside groups is that of the page outside them. */
  lemma IntendedLaravelPathOfSegments(segs: seq<Segment>, ext: string)
    requires AllWellFormed(segs) && EndsInPage(segs) && IsExtension(ext)
    ensures IntendedLaravelFormattedRoutePath(Render(segs, File) + "." + ext)
         == LaravelFormattedRoutePath(Render(WithoutGroups(segs), File) + "." + ext)
  {
    var w := WithoutGroups(segs);
    WithoutGroupsWellFormed(segs);
    WithoutExtension(Render(segs, File), ext);
    WithoutExtension(Render(w, File), ext);
    IntendedLaravelStripped(segs);
    LaravelStrippedUngrouped(w);
  }

  /** Before camel-casing, the intended Laravel form of a path is the braced rendering of its group-free segments. */
  lemma IntendedLaravelStripped(segs: seq<Segment>)
    requires AllWellFormed(segs) && EndsInPage(segs)
    ensures StripGroupsWithSlash(BracesWithoutIndex(Render(segs, File))) == Render(DropIndex(WithoutGroups(segs)), Braces)
  {
    BracesRender(segs);
    DropIndexRender(segs);
    DropIndexWellFormed(segs);
    WithoutGroupsDropIndex(segs);
    StripGroupsWithSlashRender(DropIndex(segs), Braces);
  }

  /** Without groups, the as-written group deletion leaves the braced rendering as it is. */
  lemma LaravelStrippedUngrouped(w: seq<Segment>)
    requires AllWellFormed(w)
    requires forall seg :: seg in w ==> !seg.Group?
    ensures StripGroups(BracesWithoutIndex(Render(w, File))) == Render(DropIndex(w), Braces)
  {
    BracesRender(w);
    DropIndexRender(w);
    DropIndexWellFormed(w);
    var d := DropIndex(w);
    assert forall i :: 0 <= i < |d| ==> !d[i].Group? by {
      forall i | 0 <= i < |d| ensures !d[i].Group? {
        if i < |w| - 1 {
          assert d[i] == w[i] && w[i] in w;
        } else {
          assert w[i] in w;
        }
      }
    }
    StripGroupsRender(d, Braces);
    RenderOfUngrouped(d, Braces);
  }

  /** The as-written and the intended formatters agree on every path without a '('. */
  lemma {:induction false} StripGroupsUngrouped(s: string)
    requires '(' !in s
    ensures StripGroups(s) == s && StripGroupsWithSlash(s) == s
  {
    StripGroupsSkip(s, []);
    StripGroupsWithSlashSkip(s, []);
    assert s + [] == s;
  }

  lemma IntendedAgreesWithoutGroups(rel: string, fw: Framework)
    requires '(' !in RelativePathWithoutExtension(rel)
    ensures IntendedRouterPath(rel, fw) == RouterPath(rel, fw)
  {
    StripGroupsUngrouped(RelativePathWithoutExtension(rel));
  }

  // ---------------------------------------------------------------------
  // The pages of tests/Integration/PageComponentTest.php
  // ---------------------------------------------------------------------

  lemma LoginWithoutGroups()
    ensures WithoutGroups(Login) == [Static("login")]
    ensures AllWellFormed(Login) && EndsInPage(Login)
  {
    LoginWellFormed();
    assert Login[1..] == [Static("login")];
    assert [Static("login")][1..] == [];
  }

  lemma PlainLogin()
    ensures AllWellFormed([Static("login")])
    ensures Render([Static("login")], File) + "." + "vue" == "login.vue"
    ensures Render([Static("login")], File) + "." + "vue" == "login" + "." + "vue"
    ensures Render([Static("login")], RouterDone(Vue)) == "login"
    ensures Render([Static("login")], RouterDone(React)) == "login"
    ensures Render(DropIndex([Static("login")]), LaravelDone) == "login"
  {
    PlainWord("login");
    RenderOne([Static("login")], File);
    RenderOne([Static("login")], RouterDone(Vue));
    RenderOne([Static("login")], RouterDone(React));
    assert !EndsWith("login", "index");
    RenderOne([Static("login")], LaravelDone);
  }

  lemma LoginFinish()
    ensures Finish("login") == "login"
  {
    PlainWord("login");
    PlainHasNoDotOrSlash("login");
    NoSlashNoDoubleSlash("login");
    CollapseSlashesFixed("login");
  }

  /** With groups deleted with their '/', `(auth)/login.vue` routes to "login", as the tests expect. */
  lemma IntendedGroupedLoginRoutes()
    ensures IntendedRouterPath("(auth)/login.vue", Vue) == "login"
    ensures IntendedRouterPath("(auth)/login.vue", React) == "login"
    ensures IntendedLaravelFormattedRoutePath("(auth)/login.vue") == "login"
  {
    LoginWithoutGroups();
    LoginFile();
    PlainLogin();
    LoginFinish();
    VueIsExtension();
    NoRouteSuffix("login");
    IntendedRouterPathOfSegments(Login, "vue", Vue);
    IntendedRouterPathOfSegments(Login, "vue", React);
    IntendedLaravelPathOfSegments(Login, "vue");
    RouterExample([Static("login")], "vue", Vue, "login.vue", "login", "login");
    RouterExample([Static("login")], "vue", React, "login.vue", "login", "login");
    LaravelExample([Static("login")], "vue", "login.vue", "login", "login");
  }

  /** `index.vue` still routes to "/" in all three formats. */
  lemma IntendedIndexRoutes()
    ensures IntendedRouterPath("index.vue", Vue) == "/"
    ensures IntendedRouterPath("index.vue", React) == "/"
    ensures IntendedLaravelFormattedRoutePath("index.vue") == "/"
  {
    IndexFile();
    IndexRoutes();
    VueIsExtension();
    assert WithoutGroups(Index) == Index;
    IntendedRouterPathOfSegments(Index, "vue", Vue);
    IntendedRouterPathOfSegments(Index, "vue", React);
    IntendedLaravelPathOfSegments(Index, "vue");
  }
}

=== FILE: route_tree.dfy ===
// The route tree that the Vue generators build from the registered pages:
// every page's component is registered for import, and every page that is
// not a layout is hung under the nodes of its layout chain, which are found
// by component name or created on the way down.

module RouteTree {
  import opened Text
  import opened PagePaths

  /** A route object: `{path, component}` without a `children` key, or with one. */
  datatype Route =
    | Leaf(path: string, component: string)
    | Parent(path: string, component: string, children: seq<Route>)

  /** What the generator reads from one layout of a page's chain. */
  datatype LayoutRef = LayoutRef(componentName: string, vuePath: string)

  /** What the generator reads from a page: its component name, relative path,
      Vue route path, whether it is a layout or an index, and its layouts. */
  datatype GenPage = GenPage(
    componentName: string,
    relativePath: string,
    vuePath: string,
    isLayout: bool,
    isIndex: bool,
    layouts: seq<LayoutRef>)

  // ---------------------------------------------------------------------
  // component imports
  // ---------------------------------------------------------------------

  /** The lazy import expression registered for a component. */
  function ImportOf(relativePath: string): string
  {
    "() => import('./" + relativePath + "')"
  }

  /** registerComponent(): a name that already has an import keeps it. */
  function Register(imports: map<string, string>, page: GenPage): (r: map<string, string>)
    ensures r.Keys == imports.Keys + {page.componentName}
    ensures forall k :: k in imports ==> r[k] == imports[k]
    ensures page.componentName !in imports ==> r[page.componentName] == ImportOf(page.relativePath)
  {
    if page.componentName in imports then imports
    else imports[page.componentName := ImportOf(page.relativePath)]
  }

  /** The imports after registering every page in order. */
  function Imports(imports: map<string, string>, pages: seq<GenPage>): map<string, string>
    decreases |pages|
  {
    if pages == [] then imports
    else Register(Imports(imports, pages[..|pages| - 1]), pages[|pages| - 1])
  }

  /** A name has an import exactly when it had one or some page carries it. */
  lemma {:induction false} ImportsHas(imports: map<string, string>, pages: seq<GenPage>, name: string)
    ensures name in Imports(imports, pages) <==>
      (name in imports || exists i :: 0 <= i < |pages| && pages[i].componentName == name)
    decreases |pages|
  {
    if pages != [] {
      var init := pages[..|pages| - 1];
      ImportsHas(imports, init, name);
      if exists i :: 0 <= i < |pages| && pages[i].componentName == name {
        var i :| 0 <= i < |pages| && pages[i].componentName == name;
        if i < |init| {
          assert init[i].componentName == name;
        }
      }
    }
  }

  /** An import that exists is never replaced. */
  lemma {:induction false} ImportsKeep(imports: map<string, string>, pages: seq<GenPage>, name: string)
    requires name in imports
    ensures name in Imports(imports, pages) && Imports(imports, pages)[name] == imports[name]
    decreases |pages|
  {
    if pages != [] {
      ImportsKeep(imports, pages[..|pages| - 1], name);
    }
  }

  /** A new name gets the import of the first page carrying it. */
  lemma {:induction false} ImportsFirst(imports: map<string, string>, pages: seq<GenPage>, name: string, i: nat)
    requires i < |pages| && pages[i].componentName == name && name !in imports
    requires forall j :: 0 <= j < i ==> pages[j].componentName != name
    ensures name in Imports(imports, pages) && Imports(imports, pages)[name] == ImportOf(pages[i].relativePath)
    decreases |pages|
  {
    var init := pages[..|pages| - 1];
    if i < |init| {
      assert init[i] == pages[i];
      assert forall j :: 0 <= j < i ==> init[j] == pages[j];
      ImportsFirst(imports, init, name, i);
    } else {
      assert forall j :: 0 <= j < |init| ==> init[j] == pages[j];
      ImportsHas(imports, init, name);
    }
  }

  /** Every page, layout or not, gets an import; an existing one is never replaced,
      and a new name gets the import of the first page carrying it. */
  lemma ImportsFirstWins(imports: map<string, string>, pages: seq<GenPage>, name: string)
    ensures name in Imports(imports, pages) <==>
      (name in imports || exists i :: 0 <= i < |pages| && pages[i].componentName == name)
    ensures name in imports ==> Imports(imports, pages)[name] == imports[name]
    ensures forall i :: (0 <= i < |pages| && pages[i].componentName == name && name !in imports &&
      (forall j :: 0 <= j < i ==> pages[j].componentName != name)) ==>
        (name in Imports(imports, pages) && Imports(imports, pages)[name] == ImportOf(pages[i].relativePath))
  {
    ImportsHas(imports, pages, name);
    if name in imports {
      ImportsKeep(imports, pages, name);
    }
    forall i | 0 <= i < |pages| && pages[i].componentName == name && name !in imports &&
      (forall j :: 0 <= j < i ==> pages[j].componentName != name)
      ensures name in Imports(imports, pages) && Imports(imports, pages)[name] == ImportOf(pages[i].relativePath)
    {
      ImportsFirst(imports, pages, name, i);
    }
  }

  // ---------------------------------------------------------------------
  // sibling lists reached by index paths
  // ---------------------------------------------------------------------

  /** The sibling list reached from the top level by following the child indices
      in addr; this is what the reference `$currentRoutes` points at. */
  function Level(routes: seq<Route>, addr: seq<nat>): Option<seq<Route>>
    decreases |addr|
  {
    if addr == [] then Some(routes)
    else if addr[0] < |routes| && routes[addr[0]].Parent? then Level(routes[addr[0]].children, addr[1..])
    else None
  }

  /** Writing through the reference: the sibling list at addr becomes level. */
  function SetLevel(routes: seq<Route>, addr: seq<nat>, level: seq<Route>): (r: seq<Route>)
    requires Level(routes, addr).Some?
    ensures Level(r, addr) == Some(level)
    decreases |addr|
  {
    if addr == [] then level
    else
      var n := routes[addr[0]];
      routes[addr[0] := Parent(n.path, n.component, SetLevel(n.children, addr[1..], level))]
  }

  /** One step down: the children of the k-th sibling. */
  lemma {:induction false} LevelSnoc(routes: seq<Route>, addr: seq<nat>, k: nat)
    ensures Level(routes, addr + [k]) ==
      (if Level(routes, addr).Some? && k < |Level(routes, addr).value| && Level(routes, addr).value[k].Parent?
       then Some(Level(routes, addr).value[k].children) else None)
    decreases |addr|
  {
    if addr != [] {
      assert (addr + [k])[0] == addr[0];
      assert (addr + [k])[1..] == addr[1..] + [k];
      if addr[0] < |routes| && routes[addr[0]].Parent? {
        LevelSnoc(routes[addr[0]].children, addr[1..], k);
      }
    } else {
      assert [] + [k] == [k];
      assert [k][1..] == [];
    }
  }

  /** Writing at addr + [k] rewrites only the children of the k-th sibling at addr. */
  lemma {:induction false} SetLevelSnoc(routes: seq<Route>, addr: seq<nat>, k: nat, level: seq<Route>)
    requires Level(routes, addr + [k]).Some?
    ensures Level(routes, addr).Some? && k < |Level(routes, addr).value|
    ensures Level(SetLevel(routes, addr + [k], level), addr) ==
      Some(Level(routes, addr).value[k := Parent(Level(routes, addr).value[k].path, Level(routes, addr).value[k].component, level)])
    decreases |addr|
  {
    LevelSnoc(routes, addr, k);
    if addr == [] {
      assert [] + [k] == [k];
    } else {
      var n := routes[addr[0]];
      assert (addr + [k])[0] == addr[0];
      assert (addr + [k])[1..] == addr[1..] + [k];
      SetLevelSnoc(n.children, addr[1..], k, level);
    }
  }

  // ---------------------------------------------------------------------
  // the walk down a layout chain
  // ---------------------------------------------------------------------

  /** The first sibling whose component is the given name (matching is by component only). */
  function FirstWith(level: seq<Route>, component: string): (r: Option<nat>)
    ensures r.Some? ==> r.value < |level| && level[r.value].component == component
    ensures r.Some? ==> forall j :: 0 <= j < r.value ==> level[j].component != component
    ensures r.None? <==> forall j :: 0 <= j < |level| ==> level[j].component != component
  {
    if level == [] then None
    else if level[0].component == component then Some(0)
    else match FirstWith(level[1..], component)
      case None => None
      case Some(k) => Some(k + 1)
  }

  /** A found node gets a `children` list if it has none; an existing one is kept. */
  function Opened(n: Route): (r: Route)
    ensures r.Parent? && r.path == n.path && r.component == n.component
    ensures n.Parent? ==> r == n
    ensures n.Leaf? ==> r.children == []
  {
    if n.Parent? then n else Parent(n.path, n.component, [])
  }

  /** The full path with the prefix `accumulated + '/'` removed, when the
      accumulated path is truthy (neither '' nor '0') and that prefix is there. */
  function Relative(full: string, accumulated: string): (r: string)
    ensures Truthy(accumulated) && StartsWith(full, accumulated + "/") ==> full == accumulated + "/" + r
    ensures !(Truthy(accumulated) && StartsWith(full, accumulated + "/")) ==> r == full
  {
    if Truthy(accumulated) && StartsWith(full, accumulated + "/") then full[|accumulated| + 1..] else full
  }

  /** The leaf's path: relative to the deepest layout's path, `''` when it is that
      path, and the full path otherwise. */
  function LeafPath(full: string, accumulated: string): (r: string)
    ensures Truthy(accumulated) && StartsWith(full, accumulated + "/") ==> full == accumulated + "/" + r
    ensures full == accumulated ==> r == ""
    ensures !(Truthy(accumulated) && StartsWith(full, accumulated + "/")) && full != accumulated ==> r == full
  {
    if Truthy(accumulated) && StartsWith(full, accumulated + "/") then full[|accumulated| + 1..]
    else if full == accumulated then ""
    else full
  }

  /** PHP's `empty('0')` holds, so under a layout whose path is `0` nothing is
      made relative: the page keeps its full path. */
  lemma ZeroLayoutKeepsFullPath(t: string)
    ensures LeafPath("0/" + t, "0") == "0/" + t
    ensures Relative("0/" + t, "0") == "0/" + t
  {
    assert !Truthy("0");
    assert "0/" + t != "0";
  }

  /** Where the walk stands: the tree, the index path of `$currentRoutes`, and `$accumulatedPath`. */
  datatype Cursor = Cursor(routes: seq<Route>, addr: seq<nat>, accumulated: string)

  predicate Placed(c: Cursor)
  {
    Level(c.routes, c.addr).Some?
  }

  /** One layout of the chain: descend into the first sibling with the layout's
      component, or append a new layout node with empty children and descend into it. */
  function Step(c: Cursor, layout: LayoutRef): (d: Cursor)
    requires Placed(c)
    ensures Placed(d)
  {
    var level := Level(c.routes, c.addr).value;
    var full := Trim(layout.vuePath, '/');
    match FirstWith(level, layout.componentName)
    case Some(i) =>
      var routes := SetLevel(c.routes, c.addr, level[i := Opened(level[i])]);
      LevelSnoc(routes, c.addr, i);
      Cursor(routes, c.addr + [i], full)
    case None =>
      var routes := SetLevel(c.routes, c.addr, level + [Parent(Relative(full, c.accumulated), layout.componentName, [])]);
      LevelSnoc(routes, c.addr, |level|);
      Cursor(routes, c.addr + [|level|], full)
  }

  /** The walk over the first layouts of a chain. */
  function Walk(c: Cursor, layouts: seq<LayoutRef>): (d: Cursor)
    requires Placed(c)
    ensures Placed(d)
    decreases |layouts|
  {
    if layouts == [] then c
    else Step(Walk(c, layouts[..|layouts| - 1]), layouts[|layouts| - 1])
  }

  function Top(routes: seq<Route>): (c: Cursor)
    ensures Placed(c)
  {
    Cursor(routes, [], "")
  }

  /** addChildToLayout(): the tree after hanging one page under its layout chain. */
  function AddChild(routes: seq<Route>, page: GenPage): seq<Route>
  {
    var full := Trim(page.vuePath, '/');
    if page.layouts == [] then routes + [Leaf(full, page.componentName)]
    else
      var c := Walk(Top(routes), page.layouts);
      SetLevel(c.routes, c.addr, Level(c.routes, c.addr).value + [Leaf(LeafPath(full, c.accumulated), page.componentName)])
  }

  /** generate(): the tree after every page in order; layout pages are not hung. */
  function Build(routes: seq<Route>, pages: seq<GenPage>): seq<Route>
    decreases |pages|
  {
    if pages == [] then routes
    else
      var prev := Build(routes, pages[..|pages| - 1]);
      var page := pages[|pages| - 1];
      if page.isLayout then prev else AddChild(prev, page)
  }

  // ---------------------------------------------------------------------
  // what one layout step and one page do to the tree
  // ---------------------------------------------------------------------

  /** Find-or-create at one level: the walk descends into the first sibling that
      carries the layout's component, found or newly appended, and that node has a
      children list; existing siblings keep their path and component, and at most
      one sibling is added, only when none carried the component. */
  lemma StepFindOrCreate(c: Cursor, layout: LayoutRef)
    requires Placed(c)
    ensures Level(Step(c, layout).routes, c.addr).Some?
    ensures |Step(c, layout).addr| == |c.addr| + 1 && Step(c, layout).addr[..|c.addr|] == c.addr
    ensures Step(c, layout).accumulated == Trim(layout.vuePath, '/')
    ensures
      var level := Level(c.routes, c.addr).value;
      var after := Level(Step(c, layout).routes, c.addr).value;
      var k := Step(c, layout).addr[|c.addr|];
      && Extends(level, after)
      && k < |after| && after[k].Parent? && after[k].component == layout.componentName
      && (forall j :: 0 <= j < k ==> after[j].component != layout.componentName)
      && (|after| == |level| <==> (exists j :: 0 <= j < |level| && level[j].component == layout.componentName))
      && (|after| == |level| || |after| == |level| + 1)
      && (k == |level| ==> after[k] == Parent(Relative(Trim(layout.vuePath, '/'), c.accumulated), layout.componentName, []))
  {
    var level := Level(c.routes, c.addr).value;
    var d := Step(c, layout);
    var after := Level(d.routes, c.addr).value;
    match FirstWith(level, layout.componentName)
    case Some(i) =>
      assert after == level[i := Opened(level[i])];
      assert d.addr == c.addr + [i];
      forall j | 0 <= j < |level| ensures NodeExtends(level[j], after[j]) {
        if j != i || level[j].Parent? {
          NodeExtendsRefl(level[j]);
        }
      }
    case None =>
      assert after == level + [Parent(Relative(Trim(layout.vuePath, '/'), c.accumulated), layout.componentName, [])];
      assert d.addr == c.addr + [|level|];
      forall j | 0 <= j < |level| ensures NodeExtends(level[j], after[j]) {
        NodeExtendsRefl(level[j]);
      }
  }

  /** The walk descends exactly one level per layout, and leaves the accumulated
      path at the last layout's trimmed path. */
  lemma {:induction false} WalkDepth(c: Cursor, layouts: seq<LayoutRef>)
    requires Placed(c)
    ensures |Walk(c, layouts).addr| == |c.addr| + |layouts|
    ensures Walk(c, layouts).addr[..|c.addr|] == c.addr
    ensures layouts == [] ==> Walk(c, layouts).accumulated == c.accumulated
    ensures layouts != [] ==> Walk(c, layouts).accumulated == Trim(layouts[|layouts| - 1].vuePath, '/')
    decreases |layouts|
  {
    if layouts != [] {
      var init := layouts[..|layouts| - 1];
      var last := layouts[|layouts| - 1];
      var prev := Walk(c, init);
      WalkDepth(c, init);
      StepShape(prev, last);
      var d := Step(prev, last);
      assert d.addr[..|c.addr|] == d.addr[..|prev.addr|][..|c.addr|];
    }
  }

  /** One step goes one level down and restarts the accumulated path at the layout. */
  lemma StepShape(c: Cursor, layout: LayoutRef)
    requires Placed(c)
    ensures |Step(c, layout).addr| == |c.addr| + 1 && Step(c, layout).addr[..|c.addr|] == c.addr
    ensures Step(c, layout).accumulated == Trim(layout.vuePath, '/')
  {
    StepFindOrCreate(c, layout);
  }

  /** A page without layouts is appended at top level, its Vue path trimmed of `/`. */
  lemma TopLevelPage(routes: seq<Route>, page: GenPage)
    requires page.layouts == []
    ensures
      var r := AddChild(routes, page);
      && |r| == |routes| + 1 && r[..|routes|] == routes
      && r[|routes|] == Leaf(Trim(page.vuePath, '/'), page.componentName)
      && (r[|routes|].path == [] || (r[|routes|].path[0] != '/' && r[|routes|].path[|r[|routes|].path| - 1] != '/'))
  {
    assert (routes + [Leaf(Trim(page.vuePath, '/'), page.componentName)])[..|routes|] == routes;
  }

  /** A page with layouts ends up, as a leaf with the leaf path rule applied, at the
      end of the children of a node carrying its last layout's component, as many
      levels down as its chain is long. */
  lemma LeafUnderLastLayout(routes: seq<Route>, page: GenPage)
    requires page.layouts != []
    ensures
      var c := Walk(Top(routes), page.layouts);
      var r := AddChild(routes, page);
      var up := c.addr[..|c.addr| - 1];
      var k := c.addr[|c.addr| - 1];
      var leaf := Leaf(LeafPath(Trim(page.vuePath, '/'), Trim(page.layouts[|page.layouts| - 1].vuePath, '/')), page.componentName);
      && |c.addr| == |page.layouts|
      && Level(r, up).Some? && k < |Level(r, up).value|
      && Level(r, up).value[k].Parent?
      && Level(r, up).value[k].component == page.layouts[|page.layouts| - 1].componentName
      && Level(r, up).value[k].children == Level(c.routes, c.addr).value + [leaf]
  {
    var layouts := page.layouts;
    var last := layouts[|layouts| - 1];
    var prev := Walk(Top(routes), layouts[..|layouts| - 1]);
    var c := Walk(Top(routes), layouts);
    assert c == Step(prev, last);
    WalkDepth(Top(routes), layouts);
    WalkDepth(Top(routes), layouts[..|layouts| - 1]);
    StepFindOrCreate(prev, last);
    var up := c.addr[..|c.addr| - 1];
    var k := c.addr[|c.addr| - 1];
    assert up == prev.addr;
    assert c.addr == up + [k];
    var newLevel := Level(c.routes, c.addr).value + [Leaf(LeafPath(Trim(page.vuePath, '/'), c.accumulated), page.componentName)];
    SetLevelSnoc(c.routes, up, k, newLevel);
  }

  // ---------------------------------------------------------------------
  // building only appends
  // ---------------------------------------------------------------------

  /** b keeps every node of a at its position with its path and component; only
      children lists are created or extended. */
  predicate Extends(a: seq<Route>, b: seq<Route>)
    decreases a
  {
    |a| <= |b| && forall i :: 0 <= i < |a| ==> NodeExtends(a[i], b[i])
  }

  predicate NodeExtends(x: Route, y: Route)
    decreases x
  {
    y.path == x.path && y.component == x.component && (x.Parent? ==> y.Parent? && Extends(x.children, y.children))
  }

  lemma {:induction false} ExtendsRefl(a: seq<Route>)
    ensures Extends(a, a)
    decreases a
  {
    forall i | 0 <= i < |a| ensures NodeExtends(a[i], a[i]) {
      NodeExtendsRefl(a[i]);
    }
  }

  lemma {:induction false} NodeExtendsRefl(x: Route)
    ensures NodeExtends(x, x)
    decreases x
  {
    if x.Parent? {
      ExtendsRefl(x.children);
    }
  }

  lemma {:induction false} ExtendsTrans(a: seq<Route>, b: seq<Route>, c: seq<Route>)
    requires Extends(a, b) && Extends(b, c)
    ensures Extends(a, c)
    decreases a
  {
    forall i | 0 <= i < |a| ensures NodeExtends(a[i], c[i]) {
      NodeExtendsTrans(a[i], b[i], c[i]);
    }
  }

  lemma {:induction false} NodeExtendsTrans(x: Route, y: Route, z: Route)
    requires NodeExtends(x, y) && NodeExtends(y, z)
    ensures NodeExtends(x, z)
    decreases x
  {
    if x.Parent? {
      ExtendsTrans(x.children, y.children, z.children);
    }
  }

  /** Writing an extended list through the reference extends the whole tree. */
  lemma {:induction false} SetLevelExtends(routes: seq<Route>, addr: seq<nat>, level: seq<Route>)
    requires Level(routes, addr).Some? && Extends(Level(routes, addr).value, level)
    ensures Extends(routes, SetLevel(routes, addr, level))
    decreases |addr|
  {
    if addr != [] {
      var n := routes[addr[0]];
      SetLevelExtends(n.children, addr[1..], level);
      var r := SetLevel(routes, addr, level);
      forall i | 0 <= i < |routes| ensures NodeExtends(routes[i], r[i]) {
        if i != addr[0] {
          NodeExtendsRefl(routes[i]);
        }
      }
    }
  }

  lemma StepExtends(c: Cursor, layout: LayoutRef)
    requires Placed(c)
    ensures Extends(c.routes, Step(c, layout).routes)
  {
    StepFindOrCreate(c, layout);
    var level := Level(c.routes, c.addr).value;
    match FirstWith(level, layout.componentName)
    case Some(i) =>
      SetLevelExtends(c.routes, c.addr, level[i := Opened(level[i])]);
    case None =>
      SetLevelExtends(c.routes, c.addr, level + [Parent(Relative(Trim(layout.vuePath, '/'), c.accumulated), layout.componentName, [])]);
  }

  lemma {:induction false} WalkExtends(c: Cursor, layouts: seq<LayoutRef>)
    requires Placed(c)
    ensures Extends(c.routes, Walk(c, layouts).routes)
    decreases |layouts|
  {
    if layouts == [] {
      ExtendsRefl(c.routes);
    } else {
      var prev := Walk(c, layouts[..|layouts| - 1]);
      WalkExtends(c, layouts[..|layouts| - 1]);
      StepExtends(prev, layouts[|layouts| - 1]);
      ExtendsTrans(c.routes, prev.routes, Step(prev, layouts[|layouts| - 1]).routes);
    }
  }

  /** Hanging one page never changes an existing node's path or component. */
  lemma AddChildExtends(routes: seq<Route>, page: GenPage)
    ensures Extends(routes, AddChild(routes, page))
  {
    ExtendsRefl(routes);
    if page.layouts != [] {
      var c := Walk(Top(routes), page.layouts);
      WalkExtends(Top(routes), page.layouts);
      var level := Level(c.routes, c.addr).value;
      var leaf := Leaf(LeafPath(Trim(page.vuePath, '/'), c.accumulated), page.componentName);
      ExtendsRefl(level);
      assert Extends(level, level + [leaf]);
      SetLevelExtends(c.routes, c.addr, level + [leaf]);
      ExtendsTrans(routes, c.routes, AddChild(routes, page));
    }
  }

  /** Building is append-only: every node present before keeps its place, path and component. */
  lemma {:induction false} BuildExtends(routes: seq<Route>, pages: seq<GenPage>)
    ensures Extends(routes, Build(routes, pages))
    decreases |pages|
  {
    if pages == [] {
      ExtendsRefl(routes);
    } else {
      var prev := Build(routes, pages[..|pages| - 1]);
      BuildExtends(routes, pages[..|pages| - 1]);
      if !pages[|pages| - 1].isLayout {
        AddChildExtends(prev, pages[|pages| - 1]);
        ExtendsTrans(routes, prev, Build(routes, pages));
      }
    }
  }

  // ---------------------------------------------------------------------
  // every non-layout page is hung exactly once
  // ---------------------------------------------------------------------

  /** The number of nodes anywhere in the tree that carry the component. */
  function CountList(rs: seq<Route>, component: string): nat
    decreases rs
  {
    if rs == [] then 0 else CountList(rs[..|rs| - 1], component) + CountNode(rs[|rs| - 1], component)
  }

  function CountNode(r: Route, component: string): nat
    decreases r
  {
    (if r.component == component then 1 else 0) + (if r.Parent? then CountList(r.children, component) else 0)
  }

  lemma {:induction false} CountConcat(a: seq<Route>, b: seq<Route>, component: string)
    ensures CountList(a + b, component) == CountList(a, component) + CountList(b, component)
    decreases |b|
  {
    if b == [] {
      assert a + b == a;
    } else {
      assert (a + b)[..|a + b| - 1] == a + b[..|b| - 1];
      CountConcat(a, b[..|b| - 1], component);
    }
  }

  lemma CountUpdate(rs: seq<Route>, i: nat, r: Route, component: string)
    requires i < |rs|
    ensures CountList(rs[i := r], component) + CountNode(rs[i], component) == CountList(rs, component) + CountNode(r, component)
  {
    assert rs == rs[..i] + [rs[i]] + rs[i + 1..];
    assert rs[i := r] == rs[..i] + [r] + rs[i + 1..];
    CountConcat(rs[..i] + [rs[i]], rs[i + 1..], component);
    CountConcat(rs[..i] + [r], rs[i + 1..], component);
    CountConcat(rs[..i], [rs[i]], component);
    CountConcat(rs[..i], [r], component);
    assert CountList([r], component) == CountNode(r, component) by {
      assert [r][..0] == [];
    }
    assert CountList([rs[i]], component) == CountNode(rs[i], component) by {
      assert [rs[i]][..0] == [];
    }
  }

  lemma {:induction false} CountSetLevel(routes: seq<Route>, addr: seq<nat>, level: seq<Route>, component: string)
    requires Level(routes, addr).Some?
    ensures CountList(SetLevel(routes, addr, level), component) + CountList(Level(routes, addr).value, component)
      == CountList(routes, component) + CountList(level, component)
    decreases |addr|
  {
    if addr != [] {
      var n := routes[addr[0]];
      var below := SetLevel(n.children, addr[1..], level);
      CountSetLevel(n.children, addr[1..], level, component);
      CountUpdate(routes, addr[0], Parent(n.path, n.component, below), component);
    }
  }

  /** One layout step adds a node with the layout's component only when none of
      the siblings carried it, and no other node. */
  lemma StepCount(c: Cursor, layout: LayoutRef, component: string)
    requires Placed(c)
    ensures CountList(Step(c, layout).routes, component) == CountList(c.routes, component) +
      (if FirstWith(Level(c.routes, c.addr).value, layout.componentName).None? && layout.componentName == component then 1 else 0)
  {
    var level := Level(c.routes, c.addr).value;
    match FirstWith(level, layout.componentName)
    case Some(i) =>
      CountSetLevel(c.routes, c.addr, level[i := Opened(level[i])], component);
      CountUpdate(level, i, Opened(level[i]), component);
      assert CountNode(Opened(level[i]), component) == CountNode(level[i], component);
    case None =>
      var node := Parent(Relative(Trim(layout.vuePath, '/'), c.accumulated), layout.componentName, []);
      CountSetLevel(c.routes, c.addr, level + [node], component);
      CountConcat(level, [node], component);
      assert [node][..0] == [];
  }

  lemma {:induction false} WalkCount(c: Cursor, layouts: seq<LayoutRef>, component: string)
    requires Placed(c)
    requires forall j :: 0 <= j < |layouts| ==> layouts[j].componentName != component
    ensures CountList(Walk(c, layouts).routes, component) == CountList(c.routes, component)
    decreases |layouts|
  {
    if layouts != [] {
      WalkCount(c, layouts[..|layouts| - 1], component);
      StepCount(Walk(c, layouts[..|layouts| - 1]), layouts[|layouts| - 1], component);
    }
  }

  /** Hanging a page adds exactly one node with its component, and no node with
      any component outside its layout chain. */
  lemma AddChildCount(routes: seq<Route>, page: GenPage, component: string)
    requires forall j :: 0 <= j < |page.layouts| ==> page.layouts[j].componentName != component
    ensures CountList(AddChild(routes, page), component) ==
      CountList(routes, component) + (if page.componentName == component then 1 else 0)
  {
    var leaf := Leaf(LeafPath(Trim(page.vuePath, '/'), Walk(Top(routes), page.layouts).accumulated), page.componentName);
    if page.layouts == [] {
      CountConcat(routes, [Leaf(Trim(page.vuePath, '/'), page.componentName)], component);
      assert [Leaf(Trim(page.vuePath, '/'), page.componentName)][..0] == [];
    } else {
      var c := Walk(Top(routes), page.layouts);
      WalkCount(Top(routes), page.layouts, component);
      var level := Level(c.routes, c.addr).value;
      CountSetLevel(c.routes, c.addr, level + [leaf], component);
      CountConcat(level, [leaf], component);
      assert [leaf][..0] == [];
    }
  }

  /** The number of non-layout pages with the given component name. */
  function PagesNamed(pages: seq<GenPage>, component: string): nat
    decreases |pages|
  {
    if pages == [] then 0
    else
      var page := pages[|pages| - 1];
      PagesNamed(pages[..|pages| - 1], component) + (if !page.isLayout && page.componentName == component then 1 else 0)
  }

  /** Outside the layout components, the tree holds one node per non-layout page:
      layout pages are never hung as leaves, and each other page exactly once. */
  lemma {:induction false} BuildCount(routes: seq<Route>, pages: seq<GenPage>, component: string)
    requires forall i, j :: 0 <= i < |pages| && 0 <= j < |pages[i].layouts| ==> pages[i].layouts[j].componentName != component
    ensures CountList(Build(routes, pages), component) == CountList(routes, component) + PagesNamed(pages, component)
    decreases |pages|
  {
    if pages != [] {
      var init := pages[..|pages| - 1];
      var last := pages[|pages| - 1];
      assert forall i, j :: 0 <= i < |init| && 0 <= j < |init[i].layouts| ==> init[i].layouts[j].componentName != component by {
        forall i, j | 0 <= i < |init| && 0 <= j < |init[i].layouts| ensures init[i].layouts[j].componentName != component {
          assert init[i] == pages[i];
        }
      }
      BuildCount(routes, init, component);
      if !last.isLayout {
        AddChildCount(Build(routes, init), last, component);
      }
    }
  }

  // ---------------------------------------------------------------------
  // the generator
  // ---------------------------------------------------------------------

  class Generator {
    var routes: seq<Route>
    var componentToImport: map<string, string>

    constructor ()
      ensures routes == [] && componentToImport == map[]
    {
      routes := [];
      componentToImport := map[];
    }

    /** Registers every page for import and hangs every non-layout page in the tree. */
    method Generate(pages: seq<GenPage>)
      modifies this
      ensures routes == Build(old(routes), pages)
      ensures componentToImport == Imports(old(componentToImport), pages)
    {
      for i := 0 to |pages|
        invariant routes == Build(old(routes), pages[..i])
        invariant componentToImport == Imports(old(componentToImport), pages[..i])
      {
        assert pages[..i + 1][..i] == pages[..i];
        RegisterComponent(pages[i]);
        if pages[i].isLayout {
          continue;
        }
        AddChildToLayout(pages[i]);
      }
      assert pages[..|pages|] == pages;
    }

    method RegisterComponent(page: GenPage)
      modifies this
      ensures componentToImport == Register(old(componentToImport), page)
      ensures routes == old(routes)
    {
      if page.componentName !in componentToImport {
        componentToImport := componentToImport[page.componentName := ImportOf(page.relativePath)];
      }
    }

    method AddChildToLayout(page: GenPage)
      modifies this
      ensures routes == AddChild(old(routes), page)
      ensures componentToImport == old(componentToImport)
    {
      var full := Trim(page.vuePath, '/');
      if page.layouts == [] {
        routes := routes + [Leaf(full, page.componentName)];
        return;
      }
      var current, accumulated := WalkLayouts(page.layouts);
      var relative := full;
      if Truthy(accumulated) && StartsWith(full, accumulated + "/") {
        relative := full[|accumulated| + 1..];
      } else if full == accumulated {
        relative := "";
      }
      var level := Level(routes, current).value;
      routes := SetLevel(routes, current, level + [Leaf(relative, page.componentName)]);
    }

    /** The outer loop of addChildToLayout(): find or create each layout in turn,
        moving `$currentRoutes` into its children. */
    method WalkLayouts(layouts: seq<LayoutRef>) returns (current: seq<nat>, accumulated: string)
      modifies this
      ensures Cursor(routes, current, accumulated) == Walk(Top(old(routes)), layouts)
      ensures componentToImport == old(componentToImport)
    {
      current := [];
      accumulated := "";
      for i := 0 to |layouts|
        invariant Cursor(routes, current, accumulated) == Walk(Top(old(routes)), layouts[..i])
        invariant componentToImport == old(componentToImport)
      {
        assert layouts[..i + 1][..i] == layouts[..i];
        ghost var before := Cursor(routes, current, accumulated);
        assert Walk(Top(old(routes)), layouts[..i + 1]) == Step(before, layouts[i]);
        var layout := layouts[i];
        var layoutFull := Trim(layout.vuePath, '/');
        var level := Level(routes, current).value;
        var found := FindLayout(level, layout.componentName);
        if found.Some? {
          var k := found.value;
          routes := SetLevel(routes, current, level[k := Opened(level[k])]);
          current := current + [k];
          accumulated := layoutFull;
        } else {
          var layoutRelative := layoutFull;
          if Truthy(accumulated) && StartsWith(layoutFull, accumulated + "/") {
            layoutRelative := layoutFull[|accumulated| + 1..];
          }
          assert layoutRelative == Relative(layoutFull, accumulated);
          routes := SetLevel(routes, current, level + [Parent(layoutRelative, layout.componentName, [])]);
          current := current + [|level|];
          accumulated := layoutFull;
        }
      }
      assert layouts[..|layouts|] == layouts;
    }
  }

  /** The inner search: the first sibling with the given component. */
  method FindLayout(level: seq<Route>, component: string) returns (found: Option<nat>)
    ensures found == FirstWith(level, component)
  {
    found := None;
    var j := 0;
    while j < |level|
      invariant 0 <= j <= |level|
      invariant forall k :: 0 <= k < j ==> level[k].component != component
    {
      if level[j].component == component {
        found := Some(j);
        return;
      }
      j := j + 1;
    }
  }
}

=== FILE: text.dfy ===
/**
  The string primitives the router is built from, with the semantics of the
  PHP and Laravel helpers it calls: Str::studly / Str::pascal / Str::camel
  over ASCII, str_replace with a literal needle, replaceEnd, trim with a
  character list, explode / implode, the /\/{2,}/ slash collapse, dirname
  and the extension part of pathinfo.
*/
module Text {

  datatype Option<T> = None | Some(value: T)

  // ---------------------------------------------------------------------
  // Characters
  // ---------------------------------------------------------------------

  predicate IsUpper(c: char) { 'A' <= c <= 'Z' }
  predicate IsLower(c: char) { 'a' <= c <= 'z' }

  /** ASCII upper-casing of one character (mb_strtoupper restricted to ASCII). */
  function ToUpper(c: char): (u: char)
    ensures IsLower(c) ==> IsUpper(u) && u as int == c as int - 32
    ensures !IsLower(c) ==> u == c
  {
    if IsLower(c) then (c as int - 32) as char else c
  }

  /** ASCII lower-casing of one character (mb_strtolower restricted to ASCII). */
  function ToLower(c: char): (l: char)
    ensures IsUpper(c) ==> IsLower(l) && l as int == c as int + 32
    ensures !IsUpper(c) ==> l == c
  {
    if IsUpper(c) then (c as int + 32) as char else c
  }

  /** The characters Str::studly treats as word boundaries: '-' and '_' become spaces, then it splits on spaces. */
  predicate IsWordSeparator(c: char) { c == ' ' || c == '-' || c == '_' }

  predicate NoWordSeparators(s: string) { forall i :: 0 <= i < |s| ==> !IsWordSeparator(s[i]) }

  // ---------------------------------------------------------------------
  // Str::studly, Str::pascal, Str::camel
  // ---------------------------------------------------------------------

  /**
    Str::studly read left to right: separators are dropped, and the first
    character of every word (the first character of the string, and every
    character that follows a separator) is upper-cased; the rest is kept.
  */
  function StudlyFrom(s: string, wordStart: bool): (r: string)
    ensures NoWordSeparators(r)
    ensures |r| <= |s|
    decreases |s|
  {
    if s == [] then []
    else if IsWordSeparator(s[0]) then StudlyFrom(s[1..], true)
    else [if wordStart then ToUpper(s[0]) else s[0]] + StudlyFrom(s[1..], false)
  }

  /** Str::pascal (an alias of Str::studly). */
  function Pascal(s: string): string { StudlyFrom(s, true) }

  /** lcfirst / Str::lcfirst over ASCII. */
  function LowerFirst(s: string): (r: string)
    ensures |r| == |s|
    ensures |s| > 0 ==> r[0] == ToLower(s[0]) && r[1..] == s[1..]
  {
    if s == [] then [] else [ToLower(s[0])] + s[1..]
  }

  /** Str::camel: lcfirst(Str::studly(s)). */
  function Camel(s: string): string { LowerFirst(Pascal(s)) }

  /** Text without separators is left alone by the inner part of Str::studly. */
  lemma {:induction false} StudlyKeepsPlainWord(s: string)
    requires NoWordSeparators(s)
    ensures StudlyFrom(s, false) == s
    decreases |s|
  {
    if s != [] {
      StudlyKeepsPlainWord(s[1..]);
    }
  }

  /** Str::camel is idempotent: a camel-cased name camel-cases to itself. */
  lemma CamelIdempotent(s: string)
    ensures Camel(Camel(s)) == Camel(s)
  {
    var y := Pascal(s);
    if y != [] {
      StudlyKeepsPlainWord(y[1..]);
      assert Camel(s) == [ToLower(y[0])] + y[1..];
      assert Pascal(Camel(s)) == [ToUpper(ToLower(y[0]))] + StudlyFrom(y[1..], false);
    }
  }

  /** Str::camel is Str::pascal with its first character lower-cased and the rest unchanged. */
  lemma CamelIsLowerFirstPascal(s: string)
    ensures |Camel(s)| == |Pascal(s)|
    ensures Camel(s) == [] || Camel(s)[0] == ToLower(Pascal(s)[0])
    ensures Camel(s) == [] || Camel(s)[1..] == Pascal(s)[1..]
  {
  }

  /** A word without separators, followed by more text, is studly-cased on its own. */
  lemma {:induction false} StudlyFromAppend(a: string, rest: string, wordStart: bool)
    requires a != [] && NoWordSeparators(a)
    ensures StudlyFrom(a + rest, wordStart) == StudlyFrom(a, wordStart) + StudlyFrom(rest, false)
    decreases |a|
  {
    var s := a + rest;
    assert s[0] == a[0] && s[1..] == a[1..] + rest;
    if |a| == 1 {
      assert a[1..] + rest == rest;
      assert StudlyFrom(a, wordStart) == [if wordStart then ToUpper(a[0]) else a[0]] + StudlyFrom([], false);
    } else {
      StudlyFromAppend(a[1..], rest, false);
    }
  }

  /**
   * Str::studly upper-cases exactly the first letter of each word: a first word `a` followed by
   * a separator becomes `a` with its first character upper-cased, and the words after the
   * separator are studly-cased afresh.
   */
  lemma PascalWords(a: string, c: char, b: string)
    requires a != [] && NoWordSeparators(a) && IsWordSeparator(c)
    ensures Pascal(a + [c] + b) == [ToUpper(a[0])] + a[1..] + Pascal(b)
  {
    assert a + [c] + b == a + ([c] + b);
    StudlyFromAppend(a, [c] + b, true);
    assert ([c] + b)[1..] == b;
    assert StudlyFrom([c] + b, false) == StudlyFrom(b, true);
    StudlyKeepsPlainWord(a[1..]);
    assert StudlyFrom(a, true) == [ToUpper(a[0])] + StudlyFrom(a[1..], false);
  }

  /**
    A name that starts with a lower-case letter or a digit-like character
    (neither a separator nor an upper-case letter) keeps its first character
    under Str::camel, and the rest is studly-cased exactly as it would be
    after any prefix that does not end a word.
  */
  lemma CamelOfLowerStart(n: string)
    requires |n| > 0 && !IsWordSeparator(n[0]) && !IsUpper(n[0])
    ensures Camel(n) == StudlyFrom(n, false)
  {
    assert ToLower(ToUpper(n[0])) == n[0];
  }

  /** A word made only of characters that case-mapping leaves unchanged stays free of them after studly-casing. */
  lemma {:induction false} StudlyKeepsCharClass(s: string, wordStart: bool, bad: char)
    requires !IsLower(bad) && !IsUpper(bad)
    requires bad !in s
    ensures bad !in StudlyFrom(s, wordStart)
    decreases |s|
  {
    if s != [] {
      if !IsWordSeparator(s[0]) {
        StudlyKeepsCharClass(s[1..], false, bad);
      } else {
        StudlyKeepsCharClass(s[1..], true, bad);
      }
    }
  }

  /** Str::camel introduces no character that case mapping leaves alone and the input lacks. */
  lemma CamelKeepsCharClass(s: string, bad: char)
    requires !IsLower(bad) && !IsUpper(bad)
    requires bad !in s
    ensures bad !in Camel(s)
  {
    StudlyKeepsCharClass(s, true, bad);
  }

  /** Str::camel of a name behind a prefix of non-letters that are not separators keeps the prefix verbatim. */
  lemma {:induction false} CamelBehindPrefix(prefix: string, n: string)
    requires |prefix| > 0
    requires forall i :: 0 <= i < |prefix| ==> !IsWordSeparator(prefix[i]) && !IsLower(prefix[i]) && !IsUpper(prefix[i])
    ensures Camel(prefix + n) == prefix + StudlyFrom(n, false)
    decreases |prefix|
  {
    var s := prefix + n;
    assert s[1..] == prefix[1..] + n;
    if |prefix| == 1 {
      assert s[1..] == n;
    } else {
      StudlyTailBehindPrefix(prefix[1..], n);
    }
  }

  lemma {:induction false} StudlyTailBehindPrefix(prefix: string, n: string)
    requires forall i :: 0 <= i < |prefix| ==> !IsWordSeparator(prefix[i]) && !IsLower(prefix[i]) && !IsUpper(prefix[i])
    ensures StudlyFrom(prefix + n, false) == prefix + StudlyFrom(n, false)
    decreases |prefix|
  {
    if prefix == [] {
      assert prefix + n == n;
    } else {
      assert (prefix + n)[1..] == prefix[1..] + n;
      StudlyTailBehindPrefix(prefix[1..], n);
    }
  }

  // ---------------------------------------------------------------------
  // Searching
  // ---------------------------------------------------------------------

  /** s holds t starting at index i. */
  predicate ContainsAt(s: string, t: string, i: nat)
  {
    i + |t| <= |s| && s[i..i + |t|] == t
  }

  predicate StartsWith(s: string, t: string) { t <= s }

  /** PHP truthiness of a string (`! empty($s)`): false for '' and '0'. */
  predicate Truthy(s: string)
  {
    s != "" && s != "0"
  }

  predicate EndsWith(s: string, t: string) { |t| <= |s| && s[|s| - |t|..] == t }

  /** The first index at or after `from` that holds c (strpos / indexOf for one character). */
  function IndexOf(s: string, c: char, from: nat): (r: Option<nat>)
    ensures r.Some? ==> from <= r.value < |s| && s[r.value] == c
    ensures r.Some? ==> forall k :: from <= k < r.value ==> s[k] != c
    ensures r.None? ==> forall k :: from <= k < |s| ==> s[k] != c
    decreases |s| - from
  {
    if from >= |s| then None
    else if s[from] == c then Some(from)
    else IndexOf(s, c, from + 1)
  }

  /** The last index that holds c (strrpos for one character). */
  function LastIndexOf(s: string, c: char): (r: Option<nat>)
    ensures r.Some? ==> r.value < |s| && s[r.value] == c
    ensures r.Some? ==> forall k :: r.value < k < |s| ==> s[k] != c
    ensures r.None? ==> c !in s
  {
    if s == [] then None
    else if s[|s| - 1] == c then Some(|s| - 1)
    else LastIndexOf(s[..|s| - 1], c)
  }

  /** The first index at or after `from` where t occurs (strpos with a string needle). */
  function IndexOfSub(s: string, t: string, from: nat): (r: Option<nat>)
    ensures r.Some? ==> from <= r.value && ContainsAt(s, t, r.value)
    ensures r.Some? ==> forall k :: from <= k < r.value ==> !ContainsAt(s, t, k)
    ensures r.None? ==> forall k :: from <= k ==> !ContainsAt(s, t, k)
    decreases |s| - from
  {
    if from + |t| > |s| then None
    else if s[from..from + |t|] == t then Some(from)
    else IndexOfSub(s, t, from + 1)
  }

  // ---------------------------------------------------------------------
  // Replacing
  // ---------------------------------------------------------------------

  /** str_replace($needle, $rep, $s): occurrences found left to right, never overlapping. */
  function ReplaceAll(s: string, needle: string, rep: string): (r: string)
    requires needle != []
    decreases |s|
  {
    if s == [] then []
    else if needle <= s then rep + ReplaceAll(s[|needle|..], needle, rep)
    else [s[0]] + ReplaceAll(s[1..], needle, rep)
  }

  /** Putting back the first character of t in front of t[1..] + x. */
  lemma HeadGlue(t: string, x: string)
    requires t != []
    ensures [t[0]] + (t[1..] + x) == t + x
  {
    assert [t[0]] + t[1..] == t;
  }

  /** str_replace leaves text alone where no occurrence starts inside it. */
  lemma {:induction false} ReplaceAllSkips(x: string, y: string, needle: string, rep: string)
    requires needle != []
    requires forall i :: 0 <= i < |x| ==> !ContainsAt(x + y, needle, i)
    ensures ReplaceAll(x + y, needle, rep) == x + ReplaceAll(y, needle, rep)
    decreases |x|
  {
    if x != [] {
      var s := x + y;
      assert !ContainsAt(s, needle, 0);
      assert !(needle <= s) by {
        assert ContainsAt(s, needle, 0) <==> needle <= s;
      }
      assert s[1..] == x[1..] + y;
      forall i | 0 <= i < |x[1..]| ensures !ContainsAt(x[1..] + y, needle, i) {
        assert !ContainsAt(s, needle, i + 1);
        if i + |needle| <= |x[1..] + y| {
          assert s[i + 1..i + 1 + |needle|] == (x[1..] + y)[i..i + |needle|];
        }
      }
      ReplaceAllSkips(x[1..], y, needle, rep);
      HeadGlue(x, ReplaceAll(y, needle, rep));
    } else {
      assert x + y == y;
    }
  }

  /** str_replace leaves a string alone that does not contain the needle. */
  lemma ReplaceAllAbsent(s: string, needle: string, rep: string)
    requires needle != []
    requires forall i :: 0 <= i < |s| ==> !ContainsAt(s, needle, i)
    ensures ReplaceAll(s, needle, rep) == s
  {
    assert s + [] == s;
    ReplaceAllSkips(s, [], needle, rep);
  }

  /** str_replace replaces an occurrence found at the start. */
  lemma ReplaceAllAtStart(y: string, needle: string, rep: string)
    requires needle != []
    ensures ReplaceAll(needle + y, needle, rep) == rep + ReplaceAll(y, needle, rep)
  {
    assert (needle + y)[|needle|..] == y;
  }

  /** str_replace for a one-character needle: every occurrence of c becomes d and nothing else changes. */
  lemma {:induction false} ReplaceCharPointwise(s: string, c: char, d: char)
    ensures |ReplaceAll(s, [c], [d])| == |s|
    ensures forall i :: 0 <= i < |s| ==> ReplaceAll(s, [c], [d])[i] == (if s[i] == c then d else s[i])
    decreases |s|
  {
    if s != [] {
      ReplaceCharPointwise(s[1..], c, d);
    }
  }

  /** Laravel replaceEnd: the suffix, when present, is replaced once; an empty suffix changes nothing. */
  function ReplaceEnd(s: string, suffix: string, rep: string): (r: string)
    ensures suffix != [] && EndsWith(s, suffix) ==> r == s[..|s| - |suffix|] + rep
    ensures !(suffix != [] && EndsWith(s, suffix)) ==> r == s
  {
    if suffix != [] && EndsWith(s, suffix) then s[..|s| - |suffix|] + rep else s
  }

  /** replaceEnd removes a suffix that is there. */
  lemma ReplaceEndOfSuffix(p: string, e: string)
    requires e != []
    ensures ReplaceEnd(p + e, e, "") == p
  {
    var s := p + e;
    assert s[|s| - |e|..] == e;
    assert s[..|s| - |e|] == p;
    assert p + "" == p;
  }

  /**
   * replaceEnd swaps a suffix that is there, once: swapping back restores the text (as a
   * compiled `.php` path is turned back into its `.vue` page), and an earlier copy of the
   * suffix is left alone.
   */
  lemma ReplaceEndSwapsSuffix(p: string, e: string, rep: string)
    requires e != [] && rep != []
    ensures ReplaceEnd(p + e, e, rep) == p + rep
    ensures ReplaceEnd(ReplaceEnd(p + e, e, rep), rep, e) == p + e
    ensures ReplaceEnd(p + e + e, e, rep) == p + e + rep
  {
    SwapSuffix(p, e, rep);
    SwapSuffix(p, rep, e);
    SwapSuffix(p + e, e, rep);
  }

  lemma SwapSuffix(p: string, e: string, rep: string)
    requires e != []
    ensures ReplaceEnd(p + e, e, rep) == p + rep
  {
    var s := p + e;
    assert s[|s| - |e|..] == e;
    assert s[..|s| - |e|] == p;
  }

  /** Laravel replaceFirst: the first occurrence is replaced; an empty needle changes nothing. */
  function ReplaceFirst(s: string, needle: string, rep: string): (r: string)
  {
    if needle == [] then s
    else match IndexOfSub(s, needle, 0)
      case None => s
      case Some(i) => s[..i] + rep + s[i + |needle|..]
  }

  /** Laravel replaceStart: a leading occurrence is replaced once. */
  function ReplaceStart(s: string, prefix: string, rep: string): (r: string)
    ensures prefix != [] && prefix <= s ==> r == rep + s[|prefix|..]
    ensures !(prefix != [] && prefix <= s) ==> r == s
  {
    if prefix != [] && prefix <= s then
      assert ContainsAt(s, prefix, 0);
      ReplaceFirst(s, prefix, rep)
    else s
  }

  // ---------------------------------------------------------------------
  // trim with a one-character list
  // ---------------------------------------------------------------------

  /** ltrim($s, $c): every leading c is removed. */
  function TrimLeft(s: string, c: char): (r: string)
    ensures r == [] || r[0] != c
    ensures |r| <= |s| && r == s[|s| - |r|..]
    ensures forall k :: 0 <= k < |s| - |r| ==> s[k] == c
    decreases |s|
  {
    if s != [] && s[0] == c then TrimLeft(s[1..], c) else s
  }

  /** rtrim($s, $c): every trailing c is removed. */
  function TrimRight(s: string, c: char): (r: string)
    ensures r == [] || r[|r| - 1] != c
    ensures |r| <= |s| && r == s[..|r|]
    ensures forall k :: |r| <= k < |s| ==> s[k] == c
    decreases |s|
  {
    if s != [] && s[|s| - 1] == c then TrimRight(s[..|s| - 1], c) else s
  }

  /** trim($s, $c): leading and trailing runs of c are removed. */
  function Trim(s: string, c: char): (r: string)
    ensures r == [] || (r[0] != c && r[|r| - 1] != c)
  {
    TrimRight(TrimLeft(s, c), c)
  }

  // ---------------------------------------------------------------------
  // explode / implode
  // ---------------------------------------------------------------------

  /** explode($sep, $s) for a one-character separator. */
  function Split(s: string, sep: char): (parts: seq<string>)
    ensures |parts| >= 1
    ensures forall i :: 0 <= i < |parts| ==> sep !in parts[i]
    decreases |s|
  {
    match IndexOf(s, sep, 0)
    case None => [s]
    case Some(i) => [s[..i]] + Split(s[i + 1..], sep)
  }

  /** implode($sep, $parts). */
  function Join(parts: seq<string>, sep: string): (r: string)
  {
    if parts == [] then []
    else if |parts| == 1 then parts[0]
    else parts[0] + sep + Join(parts[1..], sep)
  }

  /** Concatenation of a list of strings (implode('', ...)). */
  function Concat(parts: seq<string>): (r: string)
  {
    if parts == [] then [] else parts[0] + Concat(parts[1..])
  }

  /** explode undoes implode when no part contains the separator. */
  lemma {:induction false} SplitJoin(parts: seq<string>, sep: char)
    requires |parts| >= 1
    requires forall i :: 0 <= i < |parts| ==> sep !in parts[i]
    ensures Split(Join(parts, [sep]), sep) == parts
    decreases |parts|
  {
    if |parts| == 1 {
      assert IndexOf(parts[0], sep, 0).None?;
    } else {
      var s := Join(parts, [sep]);
      var rest := Join(parts[1..], [sep]);
      assert s == parts[0] + [sep] + rest;
      assert IndexOf(s, sep, 0) == Some(|parts[0]|) by {
        var r := IndexOf(s, sep, 0);
        assert s[|parts[0]|] == sep;
        assert forall k :: 0 <= k < |parts[0]| ==> s[k] == parts[0][k];
      }
      assert s[..|parts[0]|] == parts[0];
      assert s[|parts[0]| + 1..] == rest;
      SplitJoin(parts[1..], sep);
    }
  }

  // ---------------------------------------------------------------------
  // Slash handling
  // ---------------------------------------------------------------------

  predicate HasDoubleSlash(s: string)
  {
    exists i :: 0 <= i < |s| - 1 && s[i] == '/' && s[i + 1] == '/'
  }

  /** preg_replace('/\/{2,}/', '/', $s): every run of slashes becomes one slash. */
  function CollapseSlashes(s: string): (r: string)
    ensures !HasDoubleSlash(r)
    ensures (|r| > 0 && r[0] == '/') <==> (|s| > 0 && s[0] == '/')
    ensures |r| == 0 <==> |s| == 0
    decreases |s|
  {
    if s == [] then []
    else if s[0] == '/' then
      var tail := CollapseSlashes(TrimLeft(s, '/'));
      NoDoubleSlashCons('/', tail);
      "/" + tail
    else
      var tail := CollapseSlashes(s[1..]);
      NoDoubleSlashCons(s[0], tail);
      [s[0]] + tail
  }

  lemma NoDoubleSlashCons(c: char, tail: string)
    requires !HasDoubleSlash(tail)
    requires c == '/' ==> tail == [] || tail[0] != '/'
    ensures !HasDoubleSlash([c] + tail)
  {
    var s := [c] + tail;
    forall i | 0 <= i < |s| - 1 ensures !(s[i] == '/' && s[i + 1] == '/') {
      if i > 0 {
        assert s[i] == tail[i - 1] && s[i + 1] == tail[i];
      }
    }
  }

  /** Text with no slashes passes through the slash collapse unchanged. */
  lemma {:induction false} CollapseSlashesPlain(s: string)
    requires '/' !in s
    ensures CollapseSlashes(s) == s
    decreases |s|
  {
    if s != [] {
      CollapseSlashesPlain(s[1..]);
    }
  }

  /** Collapsing is the identity on text that has no run of two slashes. */
  lemma {:induction false} CollapseSlashesFixed(s: string)
    requires !HasDoubleSlash(s)
    ensures CollapseSlashes(s) == s
    decreases |s|
  {
    if s != [] {
      var t := s[1..];
      assert !HasDoubleSlash(t) by {
        forall i | 0 <= i < |t| - 1 ensures !(t[i] == '/' && t[i + 1] == '/') {
          assert t[i] == s[i + 1] && t[i + 1] == s[i + 2];
        }
      }
      CollapseSlashesFixed(t);
      if s[0] == '/' {
        assert t == [] || t[0] != '/';
        assert TrimLeft(s, '/') == t;
      }
      assert [s[0]] + t == s;
    }
  }

  /** A run of slashes collapses like a single one: `preg_replace('/\/{2,}/', '/')` keeps one slash per run. */
  lemma {:induction false} CollapseSlashesRun(p: string, q: string)
    ensures CollapseSlashes(p + "//" + q) == CollapseSlashes(p + "/" + q)
    decreases |p|
  {
    var s2, s1 := p + "//" + q, p + "/" + q;
    if p == [] {
      assert s2 == "/" + s1 && s1[0] == '/';
      SlashBeforeSlash(s1);
    } else {
      var x2, x1 := p[1..] + "//" + q, p[1..] + "/" + q;
      assert s2 == [p[0]] + x2 && s1 == [p[0]] + x1;
      CollapseSlashesRun(p[1..], q);
      if p[0] != '/' {
        StepOther(p[0], x2, x1);
      } else if x2[0] == '/' {
        assert x1[0] == '/';
        SlashBeforeSlash(x2);
        SlashBeforeSlash(x1);
      } else {
        assert x1[0] != '/';
        SlashBeforeOther(x2);
        SlashBeforeOther(x1);
      }
    }
  }

  /** Collapsing agrees after a common character that is not a slash. */
  lemma StepOther(c: char, x: string, y: string)
    requires c != '/' && CollapseSlashes(x) == CollapseSlashes(y)
    ensures CollapseSlashes([c] + x) == CollapseSlashes([c] + y)
  {
    assert ([c] + x)[1..] == x && ([c] + y)[1..] == y;
  }

  /** A slash in front of a slash run is absorbed by it. */
  lemma SlashBeforeSlash(x: string)
    requires x != [] && x[0] == '/'
    ensures CollapseSlashes("/" + x) == CollapseSlashes(x)
  {
    var s := "/" + x;
    assert s[1..] == x;
    assert TrimLeft(s, '/') == TrimLeft(x, '/');
  }

  /** A lone slash in front of other text is kept as it is. */
  lemma SlashBeforeOther(x: string)
    requires x != [] && x[0] != '/'
    ensures CollapseSlashes("/" + x) == "/" + CollapseSlashes(x)
  {
    var s := "/" + x;
    assert s[1..] == x;
    assert TrimLeft(s, '/') == x;
  }

  /** PHP dirname(): trailing slashes, the last component and the slashes before it are removed. */
  function Dirname(s: string): (r: string)
  {
    if s == [] then []
    else
      var t := TrimRight(s, '/');
      if t == [] then "/"
      else match LastIndexOf(t, '/')
        case None => "."
        case Some(k) =>
          var d := TrimRight(t[..k], '/');
          if d == [] then "/" else d
  }

  /** PHP basename(): the last component after trailing slashes are removed. */
  function Basename(s: string): (r: string)
    ensures '/' !in r
  {
    var t := TrimRight(s, '/');
    match LastIndexOf(t, '/')
    case None => t
    case Some(k) => t[k + 1..]
  }

  /** pathinfo($s, PATHINFO_EXTENSION): the text after the last '.' of the basename, or "" if it has none. */
  function Extension(s: string): (r: string)
    ensures '/' !in r && '.' !in r
  {
    var b := Basename(s);
    match LastIndexOf(b, '.')
    case None => []
    case Some(k) => b[k + 1..]
  }

  /** A file name ending in '.' + ext (ext without '.' or '/') has extension ext. */
  lemma ExtensionOfSuffix(p: string, ext: string)
    requires ext != [] && '.' !in ext && '/' !in ext
    ensures Extension(p + "." + ext) == ext
  {
    var tail := "." + ext;
    assert p + "." + ext == p + tail;
    BasenameKeepsSuffix(p, tail);
    var q :| Basename(p + tail) == q + tail;
    LastDotBeforeExtension(q, ext);
  }

  /** The basename of a path ending in a slash-free suffix still ends in that suffix. */
  lemma BasenameKeepsSuffix(p: string, tail: string)
    requires tail != [] && '/' !in tail
    ensures exists q :: Basename(p + tail) == q + tail
  {
    var s := p + tail;
    assert TrimRight(s, '/') == s by {
      assert s[|s| - 1] == tail[|tail| - 1];
    }
    forall i | |p| <= i < |s| ensures s[i] != '/' {
      assert s[i] == tail[i - |p|];
    }
    match LastIndexOf(s, '/')
    case None =>
      assert Basename(s) == p + tail;
    case Some(k) =>
      assert k < |p|;
      assert Basename(s) == p[k + 1..] + tail by {
        assert s[k + 1..] == p[k + 1..] + tail;
      }
  }

  /** In q + "." + ext, with no '.' in ext, the last '.' is the one before ext. */
  lemma LastDotBeforeExtension(q: string, ext: string)
    requires '.' !in ext
    ensures var b := q + ("." + ext); LastIndexOf(b, '.') == Some(|q|) && b[|q| + 1..] == ext
  {
    var b := q + ("." + ext);
    var j := |q|;
    assert b[j] == '.';
    forall i | j < i < |b| ensures b[i] != '.' {
      assert b[i] == ext[i - j - 1];
    }
    var r := LastIndexOf(b, '.');
    assert r.Some?;
    assert r.value == j;
    assert b[j + 1..] == ext;
  }
}

=== FILE: vite_util.dfy ===
// The path helper of the Vite plugin: trimSlashes(), which removes the run of
// `/` at the start and the run of `/` at the end of a string.

module ViteUtil {
  import opened Text

  predicate AllSlashes(s: string)
  {
    forall k :: 0 <= k < |s| ==> s[k] == '/'
  }

  /** trimSlashes(): replacing `^/+` and `/+$` by nothing. */
  function TrimSlashes(s: string): (r: string)
    ensures r == [] || (r[0] != '/' && r[|r| - 1] != '/')
    ensures exists i, j :: 0 <= i <= j <= |s| && r == s[i..j] && AllSlashes(s[..i]) && AllSlashes(s[j..])
  {
    var left := TrimLeft(s, '/');
    var r := TrimRight(left, '/');
    var i := |s| - |left|;
    var j := i + |r|;
    assert r == s[i..j];
    assert AllSlashes(s[..i]);
    assert AllSlashes(s[j..]) by {
      forall k | 0 <= k < |s| - j ensures s[j..][k] == '/' {
        assert s[j + k] == left[|r| + k];
      }
    }
    r
  }

  /** A slash run followed by text that does not start with `/` loses exactly the run. */
  lemma LeftCut(run: string, rest: string)
    requires AllSlashes(run) && (rest == [] || rest[0] != '/')
    ensures TrimLeft(run + rest, '/') == rest
  {
    var s := run + rest;
    var r := TrimLeft(s, '/');
    assert forall k :: 0 <= k < |run| ==> s[k] == run[k];
    assert forall k :: 0 <= k < |rest| ==> s[|run| + k] == rest[k];
    assert |r| == |rest|;
  }

  /** Text that does not end with `/` followed by a slash run loses exactly the run. */
  lemma RightCut(rest: string, run: string)
    requires AllSlashes(run) && (rest == [] || rest[|rest| - 1] != '/')
    ensures TrimRight(rest + run, '/') == rest
  {
    var s := rest + run;
    var r := TrimRight(s, '/');
    assert forall k :: 0 <= k < |run| ==> s[|rest| + k] == run[k];
    assert forall k :: 0 <= k < |rest| ==> s[k] == rest[k];
    assert |r| == |rest|;
  }

  /** The result is fixed by the input: whatever cut of s into a slash run, a
      middle that neither starts nor ends with `/`, and a slash run is taken, the
      middle is the result. */
  lemma TrimSlashesUnique(s: string, i: nat, j: nat)
    requires i <= j <= |s| && AllSlashes(s[..i]) && AllSlashes(s[j..])
    requires i == j || (s[i] != '/' && s[j - 1] != '/')
    ensures TrimSlashes(s) == s[i..j]
  {
    var middle := s[i..j];
    assert s == s[..i] + (middle + s[j..]);
    if i == j {
      assert middle + s[j..] == s[j..];
      assert s == s[..i] + s[j..];
      SlashesOnly(s[..i], s[j..]);
    } else {
      assert middle[0] == s[i] && middle[|middle| - 1] == s[j - 1];
      LeftCut(s[..i], middle + s[j..]);
      RightCut(middle, s[j..]);
    }
  }

  lemma SlashesOnly(a: string, b: string)
    requires AllSlashes(a) && AllSlashes(b)
    ensures TrimSlashes(a + b) == []
  {
    assert AllSlashes(a + b) by {
      assert forall k :: 0 <= k < |a| ==> (a + b)[k] == a[k];
      assert forall k :: |a| <= k < |a + b| ==> (a + b)[k] == b[k - |a|];
    }
    LeftCut(a + b, []);
    assert a + b + [] == a + b;
  }

  /** Trimming a trimmed string changes nothing. */
  lemma TrimSlashesIdempotent(s: string)
    ensures TrimSlashes(TrimSlashes(s)) == TrimSlashes(s)
  {
    var r := TrimSlashes(s);
    assert AllSlashes(r[..0]) && AllSlashes(r[|r|..]);
    TrimSlashesUnique(r, 0, |r|);
    assert r[0..|r|] == r;
  }

  /** The result is empty exactly when the input is made only of slashes
      (the empty input included). */
  lemma TrimSlashesEmpty(s: string)
    ensures TrimSlashes(s) == "" <==> AllSlashes(s)
  {
    var r := TrimSlashes(s);
    var i, j :| 0 <= i <= j <= |s| && r == s[i..j] && AllSlashes(s[..i]) && AllSlashes(s[j..]);
    if AllSlashes(s) {
      assert AllSlashes(s[..0]) && AllSlashes(s[0..]);
      assert s[0..] == s;
      TrimSlashesUnique(s, 0, 0);
    }
    if r == [] {
      SlashesAround(s, i);
    }
  }

  /** Two slash runs that meet make a string of slashes. */
  lemma SlashesAround(s: string, i: nat)
    requires i <= |s| && AllSlashes(s[..i]) && AllSlashes(s[i..])
    ensures AllSlashes(s)
  {
    forall k | 0 <= k < |s| ensures s[k] == '/' {
      if k < i {
        assert s[..i][k] == s[k];
      } else {
        assert s[i..][k - i] == s[k];
      }
    }
  }
}
